=== FILE: README.md ===
# FP-Growth and Apriori frequent-itemset mining, modelled in Dafny

This project models the two miners of a small data-mining repository.

**FP-Growth** (`A1_G1_t2.java`, classes `FPNode` and `FPTree`, and `findFrequentPatterns`):

- The frequency filter counts every item over the transactions and drops the items below the threshold.
- The tree builder reduces each transaction to its frequent items. It sorts them by falling frequency, breaking ties by string order, and inserts the list into a prefix-sharing tree.
- Every newly created node is hung at the end of its item's header chain.
- The miner lists every subset of the frequent items directly when the tree is a single path.
- Otherwise it builds, for each frequent item (least frequent first), the conditional input: the path above each occurrence, repeated once per unit of its count. It mines the conditional tree recursively, suffixes the results with the item and sums them.

**Apriori** (`Apriori/A1_G1_t1.java`):

- The frequent 1-itemsets.
- `generateCandidates`, which joins (k-1)-itemsets that agree on their first k-2 items.
- Support counting over the transactions and the cut at an integer `minSupportCount`.
- The level loop that stops at the first empty level.

Layout, one module per file:

| file | module | contents |
|---|---|---|
| `transactions.dfy` | `Transactions` | items, transactions, occurrence counts, `NoDup` |
| `frequency.dfy` | `Frequency` | `findFrequentItems` and the frequent-item key order |
| `lexorder.dfy` | `LexOrder` | `String.compareTo` (order of UTF-16 code units) and `Collections.sort` on strings |
| `sorting.dfy` | `Sorting` | sorting by a total preorder; uniqueness of the sorted arrangement |
| `fptree.dfy` | `FPTree` | the node arena, its well-formedness, ancestry, `getChild`/`hasChild`/`addChild`, header chains |
| `treebuilder.dfy` | `TreeBuilder` | `buildHeaderTable` and `insertTree` |
| `construction.dfy` | `Construction` | `buildFPTree` and the `FPTree` constructor |
| `singlepath.dfy` | `SinglePath` | `treeHasSinglePath` |
| `combinations.dfy` | `Selections` | `combinations` |
| `patterns.dfy` | `Patterns` | `getMinFrequency`, `generatePatternList`, `zipPatterns`, the sum-merge |
| `mining.dfy` | `Mining` | `mineSubTrees`, `minePatterns`, `findFrequentPatterns`, and the lost-suffix finding |
| `apriori.dfy` | `Apriori` | the Apriori miner |

The modelling choices:

- **The node graph is an arena.** `FPTree.Tree.nodes` is a `seq<Node>` with the root at index 0. Parent, children and link are indices.
- **Links are stated locally.** A node's link is the next later node with the same item, and a header entry is the first such node. The chain lemmas derive that following a chain visits exactly the item's nodes.
- **Strings compare as Java compares them.** An item is a `seq<char>` of Unicode scalar values. `LexOrder.LexLess` encodes both strings in UTF-16, a character above U+FFFF becoming its surrogate pair, and compares the code-unit sequences lexicographically, as `String.compareTo` does.
- **Counts are `nat`.** They start at 1 or at a table value and only grow by one.
- **Thresholds are `int`.** For integer counts, a test `count < t` against a `double` threshold `t` keeps the same items as `count < ceil(t)`. Callers pass the ceiling.
- **Hash iteration order is fixed.**
  - The keys of a frequency table are listed in the order the items first appear in the transactions (`Frequency.FrequentOrder`).
  - Apriori's candidate `HashSet` becomes a list in generation order without repeats.
  - Apriori's `candidateCountMap` is read in candidate order.
- **The recursive miner terminates by depth.** Its measure is the length of the longest transaction. Every conditional path is one item shorter than the path of its node.

Where the documented intent of the program and its code disagree, the model follows the code:

- The program is described as reporting, for every frequent itemset, the number of transactions that contain it. In the branching case, however, `minePatterns` never records the conditional tree's suffix item on its own. See "## Findings".
- `Mining.FindFrequentPatterns` models the corrected miner. `Mining.FindFrequentPatternsAsWritten` models the code as it stands.
- Pattern keys are sorted item lists, as in the code (`Collections.sort`), and not sets.

## Model

| member | source | states |
|---|---|---|
| Frequency.Tally | A1_G1_t2.java:83-89 | The keys are exactly the items that occur in some transaction. Each is mapped to its number of occurrences over all transactions, repeats within one transaction included. |
| Frequency.FindFrequentItems | A1_G1_t2.java:79-101 | An item is kept if and only if it occurs and its total occurrence count reaches the threshold. Its value is that total count. |
| Frequency.NoTransactionsNoFrequentItems | A1_G1_t2.java:79-101 | With no transactions the frequency table is empty, whatever the threshold. |
| Frequency.KeepFrequent | A1_G1_t2.java:121-127 | The filtered transaction holds each frequent item exactly as often as the transaction does, and nothing else. It is never longer than the transaction. |
| Frequency.FrequentOrder | A1_G1_t2.java:230 | The key list of the frequency table has no repeats and lists exactly the table's items. |
| LexOrder.Utf16Injective | A1_G1_t2.java:131 | Two strings with the same UTF-16 code units are equal, so `compareTo` returns 0 only for equal strings. |
| LexOrder.SupplementaryBeforeHighBmp | A1_G1_t2.java:131 | A character above U+FFFF sorts before U+FF21, because its high surrogate is the smaller code unit, although its code point is larger. |
| LexOrder.LexLeIsTotalOrder | A1_G1_t2.java:132 | String comparison is a total order: total, transitive, and it equates only equal strings. |
| LexOrder.SortItems | A1_G1_t2.java:215 | Sorting a key gives an ascending permutation of it. |
| LexOrder.SortItemsCanonical | A1_G1_t2.java:213-216 | Two item lists sort to the same key if and only if they hold the same items with the same multiplicities. |
| Sorting.SortBy | A1_G1_t2.java:129-135 | The sort result is a permutation of its input, ordered by the comparator. |
| Sorting.SortedUnique | A1_G1_t2.java:129-135 | Under a comparator that equates only equal values, a multiset has exactly one sorted arrangement. |
| Construction.RankIsTotalOrder | A1_G1_t2.java:129-135 | The comparator "higher frequency first, then ascending string order" is a total order that reports a tie only for equal items. |
| Construction.PrepareTransaction | A1_G1_t2.java:121-135 | The list inserted for a transaction holds exactly its frequent items, with their multiplicities. They come in non-increasing frequency, and equal frequencies come in ascending string order. |
| Construction.PreparedIsUnique | A1_G1_t2.java:121-135 | Any arrangement of the frequent items that the comparator accepts as sorted is exactly the prepared list. The list is thus determined whatever sort algorithm is used. |
| TreeBuilder.BuildHeaderTable | A1_G1_t2.java:103-112 | The header table has one entry per frequent item and no other. |
| TreeBuilder.HeaderTableFitsRootOnly | A1_G1_t2.java:103-112 | The fresh header table, with every entry null, is the correct header table for a tree holding only its root. |
| Construction.EmptyTree | A1_G1_t2.java:70-77 | Before any insertion the tree is well formed: its frequency table is the filter's result, and it is a lone root with the given value and count. |
| FPTree.GetChild | A1_G1_t2.java:40-50 | A found child is one of the node's children and carries the item. "None" means no child carries it. |
| FPTree.HasChildIffGetChild | A1_G1_t2.java:28-50 | hasChild holds exactly when getChild finds a child. The found child is the only child carrying the item. |
| TreeBuilder.BumpChild | A1_G1_t2.java:151-152 | Reusing a child raises that child's count by one and changes nothing else. The tree stays well formed, and only the child's item total grows, by one. |
| TreeBuilder.ChainEndIsLast | A1_G1_t2.java:161-164 | Walking the links from an item's header ends at the most recently created node with that item. |
| TreeBuilder.LinkNodeFirst | A1_G1_t2.java:158-159 | If no node carries the item yet, the new node becomes its header entry and no link changes. |
| TreeBuilder.LinkNodeAppend | A1_G1_t2.java:160-166 | Otherwise exactly the last node carrying the item now links to the new node. |
| TreeBuilder.NewChildOutcome | A1_G1_t2.java:155-166 | Creating a child and linking it changes exactly this: the appended node, the parent's child list, and either the item's header or the link of the item's last node. |
| TreeBuilder.NewChild | A1_G1_t2.java:155-166 | After creating and linking a child the tree is well formed again. The item's node-count total grows by one and no other total changes. |
| TreeBuilder.InsertStep | A1_G1_t2.java:149-167 | One step of insertTree does one of two things. If a child with the item exists, that child is reused and bumped. Otherwise a child with count 1 is created under the current node. Either way the tree stays well formed and the item gains exactly one count. |
| TreeBuilder.InsertTree | A1_G1_t2.java:145-174 | Inserting a list keeps the tree well formed, and old nodes keep their item and parent. The root count, frequency table and key order are unchanged. |
| TreeBuilder.InsertTreeBelow | A1_G1_t2.java:150-173 | The node where the walk ends lies below the start node, because each recursive call starts from the child just reused or created. |
| TreeBuilder.InsertTreeUpPath | A1_G1_t2.java:150-173 | Walking up from the node where the walk ends reads the inserted items back to front, then the start node's own path. |
| TreeBuilder.InsertTreePath | A1_G1_t2.java:145-174 | insertTree lays the list down as one descending path below the start node, one level per item, ending at a node whose walk to the root reads the list back to front and then the start node's path. |
| TreeBuilder.InsertTreeCounts | A1_G1_t2.java:145-174 | Each item's total count over the nodes grows by exactly its number of occurrences in the inserted list. |
| TreeBuilder.InsertTreeHeaders | A1_G1_t2.java:145-174 | After insertion, the items with a header entry are the earlier ones plus the inserted items. |
| TreeBuilder.InsertTreeDepth | A1_G1_t2.java:145-174 | The nodes created lie at most one level per inserted item below the start node. |
| Construction.AddTransaction | A1_G1_t2.java:121-139 | Adding one transaction keeps the tree well formed and the tables unchanged. A transaction with no frequent item leaves the tree exactly as it was. |
| Construction.AddTransactionCounts | A1_G1_t2.java:121-139 | Each frequent item's node-count total grows by its occurrences in the transaction. Infrequent items gain nothing. |
| Construction.InsertAllCounts | A1_G1_t2.java:121-140 | Over all transactions, each frequent item's node-count total grows by its occurrences in the input. |
| Construction.NewTree | A1_G1_t2.java:70-77 | The constructed tree is well formed and its header table covers exactly the frequent items. Its frequency table is the filter's result, and its root has the given value and count. |
| Construction.NewTreeCounts | A1_G1_t2.java:114-143 | For every item, the counts of the nodes carrying it add up to its frequency-table count, which is zero for an infrequent item. |
| Construction.NewTreeDepth | A1_G1_t2.java:114-143 | No node lies deeper than the longest transaction. |
| Construction.NewTreePaths | A1_G1_t2.java:121-140 | Every transaction with a frequent item is a root path of the tree: some node's walk to the root reads its reduced, ordered list back to front. |
| Construction.NewTreeChains | A1_G1_t2.java:158-166 | For every frequent item, following the links from its header entry visits exactly the nodes carrying it, each once, in creation order. |
| FPTree.HeaderChains | A1_G1_t2.java:158-166 | The same holds for every well-formed tree and every header entry. |
| FPTree.ChainIsIndices | A1_G1_t2.java:308-315 | Following links from the first node with an item at or after a position visits exactly the later nodes with that item, in order. |
| FPTree.CountAlongIndices | A1_G1_t2.java:319-320 | The counts along an item's nodes sum to that item's node-count total. |
| SinglePath.TreeHasSinglePath | A1_G1_t2.java:176-189 | More than one child makes the result false, and no child makes it true. |
| SinglePath.SinglePathIffUnbranched | A1_G1_t2.java:176-189 | treeHasSinglePath(n) holds if and only if no node in the subtree below n, n included, has more than one child. |
| SinglePath.SinglePathFromRoot | A1_G1_t2.java:176-189 | For a whole tree, it is a single path if and only if no node has two or more children. |
| Selections.CombosInLexOrder | A1_G1_t2.java:259-281 | The index tuples come in strictly increasing lexicographic order, as the successor loop emits them. |
| Selections.CombosComplete | A1_G1_t2.java:259-281 | Every increasing k-tuple of indices is enumerated. |
| Selections.CombinationsCount | A1_G1_t2.java:253-283 | combinations(items, k) lists C(n, k) item lists. |
| Selections.CombinationsMembers | A1_G1_t2.java:253-283 | Each listed item list has k items, all drawn from the input. When the input has no repeats, neither does the list. |
| Selections.CombinationsDistinct | A1_G1_t2.java:253-283 | For an input without repeats, no k-element subset is listed twice. |
| Selections.CombinationsComplete | A1_G1_t2.java:253-283 | Every choice of k positions, taken in increasing order, is listed. |
| Patterns.MinFrequency | A1_G1_t2.java:285-294 | The result is absent (Double.MAX_VALUE) exactly for an empty list. Otherwise it is the table count of one listed item and no larger than any listed item's count. |
| Patterns.MinFrequencySameItems | A1_G1_t2.java:285-294 | The minimum depends only on which items are listed, not on their order or repeats. |
| Patterns.PatternKey | A1_G1_t2.java:244-246 | A pattern key is sorted and holds exactly the subset's items plus the suffix. |
| Patterns.PatternKeyCanonical | A1_G1_t2.java:244-246 | Two subsets share a key if and only if they hold the same items with the same multiplicities. |
| Patterns.SubsetsFromMembers | A1_G1_t2.java:242-243 | The enumerated subsets have between 1 and n items, all drawn from the key list, and no repeats when the key list has none. |
| Patterns.SubsetsFromComplete | A1_G1_t2.java:242-243 | Every selection of one or more positions of the key list is enumerated. |
| Patterns.PutSubsets | A1_G1_t2.java:242-249 | The stored keys are the old ones plus every subset's key. |
| Patterns.PutSubsetsValues | A1_G1_t2.java:242-249 | Whichever write wins at a key, the stored value is the minimum frequency of the subset with that key. |
| Patterns.GeneratePatternListValues | A1_G1_t2.java:225-251 | Every non-empty subset of the frequent items is stored under "subset plus suffix, sorted", at the least count among its items. |
| Patterns.GeneratePatternListKeys | A1_G1_t2.java:225-251 | Every key is one of two things. It is the suffix alone, in a conditional tree only and at the root's count, or it is a subset's key. |
| Patterns.GeneratePatternListSorted | A1_G1_t2.java:225-251 | Every key of the single-path table is sorted and non-empty. |
| Patterns.ZipPatterns | A1_G1_t2.java:202-223 | At top level, zipPatterns returns the table unchanged. |
| Patterns.ZipKeysInjective | A1_G1_t2.java:212-216 | Adding the suffix and re-sorting never merges two sorted keys, so no entry is overwritten. |
| Patterns.ZipPatternsSpec | A1_G1_t2.java:209-219 | In a conditional tree each old entry reappears under its suffixed key with the same count, and every new key comes from an old one. |
| Patterns.ZipPatternsKeys | A1_G1_t2.java:209-219 | The suffixed keys are sorted, and in a conditional tree every one contains the suffix item. |
| Patterns.MergeLoopIsMergeSum | A1_G1_t2.java:340-344 | Merging a subtree's table into the result entry by entry, adding each count to the key's current count, gives the key-wise sum of the two tables whatever order the entries are visited in. |
| Patterns.MergeSumCommutes | A1_G1_t2.java:340-344 | Merging is commutative, so the order of equally frequent items in the mining order does not change the sum. |
| Patterns.MergeSumAssociates | A1_G1_t2.java:340-344 | Merging is associative. |
| Mining.PrefixPath | A1_G1_t2.java:321-327 | The conditional path of a node is its own root path without the node: its ancestors' items, innermost first, root excluded. |
| Mining.PathsOf | A1_G1_t2.java:319-332 | The listed nodes yield as many paths as their counts add up to. Every path is the prefix path of one of them. The per-node multiplicity is stated by `Mining.PathsOfSlots`. |
| Mining.ConditionalInput | A1_G1_t2.java:306-332 | The conditional input of an item has one path per unit of count over the item's nodes. Each path is the prefix path of a node carrying the item. Which node fills which slot is stated by `Mining.ConditionalInputSlots`. |
| Mining.PathsOfSlots | A1_G1_t2.java:319-332 | Each listed node fills as many consecutive slots as its count, in list order: slot `CountAlong(chain[..k]) + c` holds the prefix path of `chain[k]` for every `c` below its count. |
| Mining.ConditionalInputAlongNodes | A1_G1_t2.java:306-317 | Following the item's header chain visits its nodes in creation order, so the conditional input is built over exactly those nodes. |
| Mining.ConditionalInputSlots | A1_G1_t2.java:306-332 | In the conditional input, each node carrying the item, in creation order, contributes its own prefix path once per unit of its count, in consecutive slots after the earlier nodes' counts. |
| Mining.ConditionalInputSize | A1_G1_t2.java:306-332 | In a constructed tree, a frequent item's conditional input has exactly one path per occurrence of the item in the transactions. |
| Mining.ConditionalInputFacts | A1_G1_t2.java:319-336 | The conditional input is strictly shallower than the tree, so the recursion terminates. It mentions only frequent items. |
| Mining.MiningOrder | A1_G1_t2.java:301-302 | The mining order is a permutation of the frequent items, least frequent first. |
| Mining.MineItem | A1_G1_t2.java:305-337 | The table mined from an item's conditional tree has sorted keys that all contain the item, and its counts reach the threshold when the item's count does. In the corrected miner it holds the item alone at its frequency. |
| Mining.MineSubTrees | A1_G1_t2.java:296-348 | The merged table has sorted keys of frequent items, and its counts reach the threshold when every mined item's count does. In the corrected miner its one-item keys are exactly the mined items, at their frequencies. |
| Mining.SubTreesSingleton | A1_G1_t2.java:336-344 | A one-item key [x] in mineSubTrees' table can only come from x's own conditional tree. |
| Mining.SinglePathOutcome | A1_G1_t2.java:195-196 | In the unbranched case, generatePatternList's table keeps every promise of minePatterns. |
| Mining.BranchOutcome | A1_G1_t2.java:197-198 | In the branching case, the suffixed subtree table keeps every promise of minePatterns. |
| Mining.Mine | A1_G1_t2.java:191-200 | Its keys are sorted lists of frequent items plus the suffix, each containing the suffix. Every count reaches the threshold, provided a conditional root's own count does. The corrected miner reports the suffix alone at the root's count, and at top level every frequent item alone at its frequency. |
| Mining.FindFrequentPatterns | A1_G1_t2.java:381-384 | Every reported pattern is a sorted list of items each of which occurs at least threshold times, and every count reaches the threshold. [x] is reported if and only if x is frequent, with its occurrence count. |
| Mining.FindFrequentPatternsAsWritten | A1_G1_t2.java:381-384 | The program as written: keys sorted, items frequent, counts reaching the threshold. |
| Mining.AsWrittenDropsSuffix | A1_G1_t2.java:195-199 | As written, a branching conditional tree never reports its suffix item alone. |
| Mining.AsWrittenMissesItem | A1_G1_t2.java:195-199 | As written, a frequent item whose conditional tree branches is missing from the result, although it reaches the threshold. |
| Mining.CorrectedKeepsSuffix | A1_G1_t2.java:235-240 | With the suffix entry restored, every conditional tree reports its suffix at the root's count. |
| Mining.SuffixLostExample | A1_G1_t2.java:195-199 | For item x with conditional input [a], [b], threshold 1 and count 2, the written miner has no [x], while the corrected one has [x] with count 2. |
| Apriori.SupportSnoc | Apriori/A1_G1_t1.java:70-76 | An itemset's support grows by one exactly when the next transaction contains all of its items. |
| Apriori.FirstLevel | Apriori/A1_G1_t1.java:55-60 | The 1-itemsets are exactly the items whose occurrence count reaches minSupportCount, with that count and without repeats. |
| Apriori.Singles | Apriori/A1_G1_t1.java:55-60 | An item of the list is kept as a 1-itemset exactly when its count reaches the threshold, with that count. A list without repeats gives 1-itemsets without repeats. |
| Apriori.Agree | Apriori/A1_G1_t1.java:140-146 | The isJoinable loop answers true if and only if the first k-2 items agree. |
| Apriori.JoinRow | Apriori/A1_G1_t1.java:136-153 | After entry i is joined with every later entry, the list holds exactly the joins of all pairs visited so far, each once. |
| Apriori.GenerateCandidates | Apriori/A1_G1_t1.java:133-156 | The candidates are exactly the joins of the pairs i < j whose itemsets have k-1 items and agree on the first k-2, without repeats. |
| Apriori.CandidateShape | Apriori/A1_G1_t1.java:139-149 | Every candidate has k items: one entry's itemset, then the last item of a later entry of size k-1. |
| Apriori.PairsOfSingles | Apriori/A1_G1_t1.java:140-146 | For k = 2 every pair of 1-itemsets is joined. |
| Apriori.JoinNoDup | Apriori/A1_G1_t1.java:148-150 | Joining two different itemsets without repeats gives a candidate without repeats. |
| Apriori.CandidatesIgnoreOtherSizes | Apriori/A1_G1_t1.java:139 | Entries whose size is not k-1 take part in no join. |
| Apriori.Tick | Apriori/A1_G1_t1.java:71-75 | One transaction adds one to the count of exactly the listed candidates it contains. |
| Apriori.CountCandidates | Apriori/A1_G1_t1.java:69-76 | A candidate has a count if and only if some transaction contains it. The count is the number of transactions containing it. |
| Apriori.NewLevel | Apriori/A1_G1_t1.java:79-85 | The new level holds exactly the counted candidates whose count reaches minSupportCount, with their counts and without repeats. |
| Apriori.NextLevel | Apriori/A1_G1_t1.java:66-85 | One pass yields exactly the k-candidates that occur and reach minSupportCount. Each has k items and its support. |
| Apriori.StepInv | Apriori/A1_G1_t1.java:88-94 | Appending a non-empty level keeps the earlier levels and the size order, and makes level k exact. |
| Apriori.GrowLevels | Apriori/A1_G1_t1.java:62-95 | The loop stops at the first k whose level is empty. The levels before it are kept in order. |
| Apriori.FrequentItemsets | Apriori/A1_G1_t1.java:52-95 | The 1-itemsets come first, then sizes never decrease. Every entry carries its count and reaches minSupportCount, and no itemset repeats. For every k >= 2 a k-itemset is kept if and only if it is the join of a kept (k-1)-itemset with a later one in the result, occurs in some transaction, and reaches minSupportCount. |

## Left out

- The `main` methods (A1_G1_t2.java:353-379, Apriori/A1_G1_t1.java:13-46 and 97-103) are not modelled. They do file reading, splitting and trimming, command-line arguments and printing, which are I/O.
- Floating point is not modelled.
  - Counts are `nat` and thresholds `int`.
  - Support ratios (`count / size`) are left out.
  - The conversions `minsup * size` and `Math.ceil` (A1_G1_t2.java:369, Apriori/A1_G1_t1.java:49) happen before the core is called.
- Sorting the Apriori result by its double support (Apriori/A1_G1_t1.java:98) is not modelled. It only reorders output that is then printed.
- `FPGrowth/FPGrowth.java` and `FPGrowth/ModifyCSVByFrequency.java` are not part of this model. One is a looser duplicate miner; the other is file I/O.
- `HashMap` and `HashSet` iteration order is not modelled. Fixed orders stand in for it, as described above. Equally frequent items keep their key-list order in the mining order.
- The independence of the result from the mining order is proved only for the merge step (`Patterns.MergeLoopIsMergeSum` for the order of a table's entries, `Patterns.MergeSumCommutes` and `Patterns.MergeSumAssociates` for the order of the tables), not for the whole recursive miner.
- Mining.FindFrequentPatterns: promises soundness, threshold, and exact reporting of every frequent item alone with its support. It does not promise that every reported count is the number of transactions containing the pattern. The program does not keep that promise (see "## Findings"), and it is not proved for the corrected miner either.
- Mining.FindFrequentPatternsAsWritten: states the same soundness and threshold facts but, unlike the corrected miner, no completeness for one-item patterns, because the program as written loses them.
- Patterns.ZipPatterns: requires the table's keys to be sorted, which the Java method does not ask for. Every table the miner passes to it has sorted keys (`Mining.Mine` ensures it). The requirement makes suffixing provably injective.
- Threshold monotonicity, downward closure and independence from transaction order are not proved.
- Apriori.FirstLevel: 1-itemsets are counted by occurrences, as the reading loop does (Apriori/A1_G1_t1.java:37), while k-itemsets are counted by containing transactions (Apriori/A1_G1_t1.java:69-76). The model keeps this difference.
- Apriori.FrequentItemsets: the exactness of level k is stated relative to the joins of the kept (k-1)-itemsets, as the program computes them. It is not stated as "every frequent k-itemset is found".

## Findings

| source | as written | input that shows it | evidently intended | confidence | as-written member | corrected member |
|---|---|---|---|---|---|---|
| A1_G1_t2.java:195-199 | When a conditional tree branches, `minePatterns` returns `zipPatterns(mineSubTrees(...))` only. Every key it returns holds the suffix item and at least one more item, so the suffix item alone (which `generatePatternList` records at lines 235-240 for an unbranched tree) is never reported. | Transactions [a,x], [b,x], [a], [b], [a,b] at threshold 1. x occurs twice, and its conditional input [a], [b] gives a tree with two root children. [x] is missing from the result. The step from these transactions to x's conditional input is a hand trace. The conditional step itself is proved. | A branching conditional tree also records its suffix item alone at the root's count, as the unbranched case does. Every frequent item is then reported on its own with its support. | not executed | Mining.AsWrittenMissesItem, Mining.SuffixLostExample | Mining.FindFrequentPatterns, Mining.CorrectedKeepsSuffix |

=== FILE: apriori.dfy ===
/**
 * The Apriori miner: the frequent 1-itemsets, candidate generation by joining
 * (k-1)-itemsets that share their first k-2 items, support counting over the
 * transactions, the threshold cut, and the level loop that stops at the first
 * empty level.  Supports are kept as integer counts with an integer
 * `minSupportCount`.
 */
module Apriori {
  import opened Transactions
  import opened Frequency

  /** ItemsetWithSupport, with the support kept as a transaction count. */
  datatype Frequent = Frequent(itemset: seq<Item>, count: nat)

  /** The itemsets of a list of entries, in order. */
  function Itemsets(fs: seq<Frequent>): (r: seq<seq<Item>>)
    ensures |r| == |fs|
    ensures forall i :: 0 <= i < |fs| ==> r[i] == fs[i].itemset
  {
    seq(|fs|, i requires 0 <= i < |fs| => fs[i].itemset)
  }

  // ---------------------------------------------------------------------------
  // Cardinality helpers
  // ---------------------------------------------------------------------------

  function Elems(s: seq<Item>): set<Item>
  {
    set x | x in s
  }

  /** A list has at least as many positions as distinct elements, and exactly as many when it has no repeats. */
  lemma {:induction false} ElemsCard(s: seq<Item>)
    ensures |Elems(s)| <= |s|
    ensures NoDup(s) ==> |Elems(s)| == |s|
    decreases |s|
  {
    if s != [] {
      ElemsCard(s[1..]);
      assert Elems(s) == {s[0]} + Elems(s[1..]);
      NoDupCons(s);
    }
  }

  lemma {:induction false} SubsetCard(a: set<Item>, b: set<Item>)
    requires a <= b
    ensures |a| <= |b|
    decreases |a|
  {
    if a != {} {
      var x :| x in a;
      SubsetCard(a - {x}, b - {x});
    }
  }

  // ---------------------------------------------------------------------------
  // Support
  // ---------------------------------------------------------------------------

  /** transaction.containsAll(candidate). */
  predicate ContainsAll(t: Transaction, c: seq<Item>)
  {
    forall x :: x in c ==> x in t
  }

  /** The number of transactions that contain every item of `c`. */
  function Support(ts: seq<Transaction>, c: seq<Item>): nat
  {
    |set i | 0 <= i < |ts| && ContainsAll(ts[i], c)|
  }

  /** Support grows by one exactly when the next transaction contains the itemset. */
  lemma SupportSnoc(ts: seq<Transaction>, c: seq<Item>)
    requires |ts| > 0
    ensures Support(ts, c) == Support(ts[..|ts| - 1], c) + (if ContainsAll(ts[|ts| - 1], c) then 1 else 0)
  {
    var n := |ts|;
    var p := ts[..n - 1];
    var all := set i | 0 <= i < n && ContainsAll(ts[i], c);
    var before := set i | 0 <= i < n - 1 && ContainsAll(p[i], c);
    var last: set<int> := if ContainsAll(ts[n - 1], c) then {n - 1} else {};
    forall i | i in all ensures i in before + last {
      if i < n - 1 {
        assert p[i] == ts[i];
      }
    }
    forall i | i in before ensures i in all {
      assert p[i] == ts[i];
    }
    assert all == before + last;
    assert before !! last;
  }

  /** An itemset without repeats that some transaction contains is no longer than that transaction. */
  lemma ContainedIsShorter(t: Transaction, c: seq<Item>)
    requires NoDup(c) && ContainsAll(t, c)
    ensures |c| <= |t|
  {
    ElemsCard(c);
    ElemsCard(t);
    SubsetCard(Elems(c), Elems(t));
  }

  /** Positive support means some transaction contains the itemset. */
  lemma SupportWitness(ts: seq<Transaction>, c: seq<Item>)
    requires Support(ts, c) > 0
    ensures exists i :: 0 <= i < |ts| && ContainsAll(ts[i], c)
  {
    var s := set i | 0 <= i < |ts| && ContainsAll(ts[i], c);
    var i :| i in s;
  }

  // ---------------------------------------------------------------------------
  // Frequent 1-itemsets
  // ---------------------------------------------------------------------------

  /** Keeps, in list order, the items whose count reaches the threshold, each as a 1-itemset. */
  function Singles(items: seq<Item>, counts: map<Item, nat>, minSupportCount: int): (r: seq<Frequent>)
    requires forall x :: x in items ==> x in counts
    ensures forall e :: e in r ==>
      |e.itemset| == 1 && e.itemset[0] in items && e.count == counts[e.itemset[0]] && e.count >= minSupportCount
    ensures forall x :: x in items && counts[x] >= minSupportCount ==> [x] in Itemsets(r)
    ensures NoDup(items) ==> NoDup(Itemsets(r))
    decreases |items|
  {
    if items == [] then []
    else
      var rest := Singles(items[1..], counts, minSupportCount);
      var r := if counts[items[0]] >= minSupportCount then [Frequent([items[0]], counts[items[0]])] + rest else rest;
      SinglesStep(items, counts, minSupportCount, rest, r);
      r
  }

  /** Keeping or dropping the first item keeps Singles' promises. */
  lemma SinglesStep(items: seq<Item>, counts: map<Item, nat>, minSupportCount: int, rest: seq<Frequent>, r: seq<Frequent>)
    requires |items| > 0 && forall x :: x in items ==> x in counts
    requires forall e :: e in rest ==>
      |e.itemset| == 1 && e.itemset[0] in items[1..] && e.count == counts[e.itemset[0]] && e.count >= minSupportCount
    requires forall x :: x in items[1..] && counts[x] >= minSupportCount ==> [x] in Itemsets(rest)
    requires NoDup(items[1..]) ==> NoDup(Itemsets(rest))
    requires r == if counts[items[0]] >= minSupportCount then [Frequent([items[0]], counts[items[0]])] + rest else rest
    ensures forall e :: e in r ==>
      |e.itemset| == 1 && e.itemset[0] in items && e.count == counts[e.itemset[0]] && e.count >= minSupportCount
    ensures forall x :: x in items && counts[x] >= minSupportCount ==> [x] in Itemsets(r)
    ensures NoDup(items) ==> NoDup(Itemsets(r))
  {
    SinglesStepMembers(items, counts, minSupportCount, rest, r);
    SinglesStepComplete(items, counts, minSupportCount, rest, r);
    SinglesStepDistinct(items, counts, minSupportCount, rest, r);
  }

  lemma SinglesStepMembers(items: seq<Item>, counts: map<Item, nat>, minSupportCount: int, rest: seq<Frequent>, r: seq<Frequent>)
    requires |items| > 0 && forall x :: x in items ==> x in counts
    requires forall e :: e in rest ==>
      |e.itemset| == 1 && e.itemset[0] in items[1..] && e.count == counts[e.itemset[0]] && e.count >= minSupportCount
    requires r == if counts[items[0]] >= minSupportCount then [Frequent([items[0]], counts[items[0]])] + rest else rest
    ensures forall e :: e in r ==>
      |e.itemset| == 1 && e.itemset[0] in items && e.count == counts[e.itemset[0]] && e.count >= minSupportCount
  {
    forall e | e in r ensures |e.itemset| == 1 && e.itemset[0] in items {
      if e in rest {
        assert e.itemset[0] in items[1..];
      }
    }
  }

  lemma SinglesStepComplete(items: seq<Item>, counts: map<Item, nat>, minSupportCount: int, rest: seq<Frequent>, r: seq<Frequent>)
    requires |items| > 0 && forall x :: x in items ==> x in counts
    requires forall x :: x in items[1..] && counts[x] >= minSupportCount ==> [x] in Itemsets(rest)
    requires r == if counts[items[0]] >= minSupportCount then [Frequent([items[0]], counts[items[0]])] + rest else rest
    ensures forall x :: x in items && counts[x] >= minSupportCount ==> [x] in Itemsets(r)
  {
    var x := items[0];
    forall y | y in items && counts[y] >= minSupportCount ensures [y] in Itemsets(r) {
      if y != x {
        assert y in items[1..];
        var i :| 0 <= i < |rest| && Itemsets(rest)[i] == [y];
        if r != rest {
          assert Itemsets(r)[i + 1] == [y];
        }
      } else {
        assert Itemsets(r)[0] == [x];
      }
    }
  }

  lemma SinglesStepDistinct(items: seq<Item>, counts: map<Item, nat>, minSupportCount: int, rest: seq<Frequent>, r: seq<Frequent>)
    requires |items| > 0 && items[0] in counts
    requires forall e :: e in rest ==> |e.itemset| == 1 && e.itemset[0] in items[1..]
    requires NoDup(items[1..]) ==> NoDup(Itemsets(rest))
    requires r == if counts[items[0]] >= minSupportCount then [Frequent([items[0]], counts[items[0]])] + rest else rest
    ensures NoDup(items) ==> NoDup(Itemsets(r))
  {
    var x := items[0];
    if NoDup(items) {
      NoDupCons(items);
      if r != rest {
        var ir := Itemsets(r);
        var irest := Itemsets(rest);
        assert r == [Frequent([x], counts[x])] + rest;
        forall i | 0 <= i < |rest| ensures irest[i] != [x] && ir[1..][i] == irest[i] {
          assert rest[i] in rest;
          assert rest[i].itemset[0] in items[1..];
          assert r[i + 1] == rest[i];
        }
        assert ir[1..] == irest;
        assert ir[0] == [x];
        NoDupConsBack(ir);
      }
    }
  }

  /**
   * The frequent 1-itemsets of the main program: every item counted over the
   * transactions whose count reaches `minSupportCount`, with that count, in
   * first-appearance order.
   */
  function FirstLevel(ts: seq<Transaction>, minSupportCount: int): (r: seq<Frequent>)
    ensures forall e :: e in r ==>
      |e.itemset| == 1 && e.itemset[0] in Concat(ts) && e.count == Occurrences(ts, e.itemset[0]) && e.count >= minSupportCount
    ensures forall x :: x in Concat(ts) && Occurrences(ts, x) >= minSupportCount ==> [x] in Itemsets(r)
    ensures NoDup(Itemsets(r))
  {
    Singles(Dedupe(Concat(ts)), Tally(ts), minSupportCount)
  }

  // ---------------------------------------------------------------------------
  // generateCandidates
  // ---------------------------------------------------------------------------

  /** Both itemsets have k-1 items and agree on the first k-2. */
  predicate Joinable(a: seq<Item>, b: seq<Item>, k: nat)
    requires k >= 2
  {
    |a| == k - 1 && |b| == k - 1 && a[..k - 2] == b[..k - 2]
  }

  /** The first itemset followed by the last item of the second. */
  function Join(a: seq<Item>, b: seq<Item>, k: nat): (r: seq<Item>)
    requires k >= 2 && |b| >= k - 1
    ensures |r| == |a| + 1
    ensures r[..|a|] == a && r[|a|] == b[k - 2]
  {
    a + [b[k - 2]]
  }

  /** The candidate set of generateCandidates: the joins of all joinable pairs i < j of the list. */
  ghost function Candidates(levels: seq<Frequent>, k: nat): set<seq<Item>>
    requires k >= 2
  {
    set i, j | 0 <= i < j < |levels| && Joinable(levels[i].itemset, levels[j].itemset, k) ::
      Join(levels[i].itemset, levels[j].itemset, k)
  }

  /** `c` is the join of a pair (a, b) visited before (i, j) by the double loop. */
  ghost predicate JoinedBefore(levels: seq<Frequent>, k: nat, i: nat, j: nat, c: seq<Item>)
    requires k >= 2
  {
    exists a, b :: 0 <= a < b < |levels| && (a < i || (a == i && b < j))
      && Joinable(levels[a].itemset, levels[b].itemset, k)
      && c == Join(levels[a].itemset, levels[b].itemset, k)
  }

  /** The isJoinable loop: compares the first `n` positions, stopping at the first difference. */
  method Agree(a: seq<Item>, b: seq<Item>, n: nat) returns (ok: bool)
    requires n <= |a| && n <= |b|
    ensures ok <==> a[..n] == b[..n]
  {
    var l := 0;
    while l < n
      invariant 0 <= l <= n
      invariant a[..l] == b[..l]
    {
      if a[l] != b[l] {
        assert a[..n][l] != b[..n][l];
        return false;
      }
      assert a[..l + 1] == a[..l] + [a[l]];
      assert b[..l + 1] == b[..l] + [b[l]];
      l := l + 1;
    }
    return true;
  }

  /**
   * generateCandidates(frequentItemsets, k): for every pair i < j of entries
   * whose itemsets both have k-1 items and agree on the first k-2, the first
   * itemset followed by the last item of the second; each candidate once.
   */
  method GenerateCandidates(levels: seq<Frequent>, k: nat) returns (cands: seq<seq<Item>>)
    requires k >= 2
    ensures NoDup(cands)
    ensures forall c :: c in cands <==> c in Candidates(levels, k)
  {
    cands := [];
    var i := 0;
    while i < |levels|
      invariant 0 <= i <= |levels|
      invariant NoDup(cands)
      invariant forall c :: c in cands <==> JoinedBefore(levels, k, i, i + 1, c)
    {
      cands := JoinRow(levels, k, i, cands);
      JoinedBeforeRow(levels, k, i);
      i := i + 1;
    }
    JoinedBeforeAll(levels, k);
  }

  /** The inner loop of generateCandidates: joins entry i with every later entry j, skipping repeats. */
  method JoinRow(levels: seq<Frequent>, k: nat, i: nat, cands0: seq<seq<Item>>) returns (cands: seq<seq<Item>>)
    requires k >= 2 && i < |levels|
    requires NoDup(cands0)
    requires forall c :: c in cands0 <==> JoinedBefore(levels, k, i, i + 1, c)
    ensures NoDup(cands)
    ensures forall c :: c in cands <==> JoinedBefore(levels, k, i, |levels|, c)
  {
    cands := cands0;
    var j := i + 1;
    while j < |levels|
      invariant i + 1 <= j <= |levels|
      invariant NoDup(cands)
      invariant forall c :: c in cands <==> JoinedBefore(levels, k, i, j, c)
    {
      var s1 := levels[i].itemset;
      var s2 := levels[j].itemset;
      var joined := false;
      if |s1| == k - 1 && |s2| == k - 1 {
        var ok := Agree(s1, s2, k - 2);
        if ok {
          var candidate := s1 + [s2[k - 2]];
          if candidate !in cands {
            NoDupAppend(cands, candidate);
            cands := cands + [candidate];
          }
          joined := true;
        }
      }
      JoinedBeforeStep(levels, k, i, j, cands, joined);
      j := j + 1;
    }
  }

  /** Past the last row every joinable pair has been visited. */
  lemma JoinedBeforeAll(levels: seq<Frequent>, k: nat)
    requires k >= 2
    ensures forall c :: JoinedBefore(levels, k, |levels|, |levels| + 1, c) <==> c in Candidates(levels, k)
  {
    forall c ensures JoinedBefore(levels, k, |levels|, |levels| + 1, c) <==> c in Candidates(levels, k) {
      if c in Candidates(levels, k) {
        var a, b :| 0 <= a < b < |levels| && Joinable(levels[a].itemset, levels[b].itemset, k)
          && c == Join(levels[a].itemset, levels[b].itemset, k);
        assert a < |levels|;
      }
    }
  }

  lemma NoDupAppend(s: seq<seq<Item>>, x: seq<Item>)
    requires NoDup(s) && x !in s
    ensures NoDup(s + [x])
  {
    var r := s + [x];
    forall a, b | 0 <= a < b < |r| ensures r[a] != r[b] {
      if b == |s| {
        assert r[a] == s[a];
      } else {
        assert r[a] == s[a] && r[b] == s[b];
      }
    }
  }

  /** Moving from (i, j) to (i, j + 1) adds exactly the join of pair (i, j), if joinable. */
  lemma JoinedBeforeStep(levels: seq<Frequent>, k: nat, i: nat, j: nat, cands: seq<seq<Item>>, joined: bool)
    requires k >= 2 && i < j < |levels|
    requires joined <==> Joinable(levels[i].itemset, levels[j].itemset, k)
    requires joined ==> Join(levels[i].itemset, levels[j].itemset, k) in cands
    requires forall c :: c in cands ==>
      JoinedBefore(levels, k, i, j, c) || (joined && c == Join(levels[i].itemset, levels[j].itemset, k))
    requires forall c :: JoinedBefore(levels, k, i, j, c) ==> c in cands
    ensures forall c :: c in cands <==> JoinedBefore(levels, k, i, j + 1, c)
  {
    forall c ensures c in cands <==> JoinedBefore(levels, k, i, j + 1, c) {
      if JoinedBefore(levels, k, i, j + 1, c) {
        var a, b :| 0 <= a < b < |levels| && (a < i || (a == i && b < j + 1))
          && Joinable(levels[a].itemset, levels[b].itemset, k)
          && c == Join(levels[a].itemset, levels[b].itemset, k);
        if !(a == i && b == j) {
          assert JoinedBefore(levels, k, i, j, c);
        }
      }
      if c in cands && !JoinedBefore(levels, k, i, j, c) {
        assert JoinedBefore(levels, k, i, j + 1, c) by {
          assert Joinable(levels[i].itemset, levels[j].itemset, k);
        }
      }
    }
  }

  /** The end of row i is the start of row i + 1. */
  lemma JoinedBeforeRow(levels: seq<Frequent>, k: nat, i: nat)
    requires k >= 2 && i < |levels|
    ensures forall c :: JoinedBefore(levels, k, i, |levels|, c) <==> JoinedBefore(levels, k, i + 1, i + 2, c)
  {
    forall c ensures JoinedBefore(levels, k, i, |levels|, c) <==> JoinedBefore(levels, k, i + 1, i + 2, c) {
      if JoinedBefore(levels, k, i + 1, i + 2, c) {
        var a, b :| 0 <= a < b < |levels| && (a < i + 1 || (a == i + 1 && b < i + 2))
          && Joinable(levels[a].itemset, levels[b].itemset, k)
          && c == Join(levels[a].itemset, levels[b].itemset, k);
        assert a <= i;
      }
    }
  }

  /** Every candidate has k items: the k-1 of an entry, then the last item of a later entry. */
  lemma CandidateShape(levels: seq<Frequent>, k: nat, c: seq<Item>)
    requires k >= 2 && c in Candidates(levels, k)
    ensures |c| == k
    ensures exists i, j ::
      0 <= i < j < |levels| && c[..k - 1] == levels[i].itemset && |levels[j].itemset| == k - 1 && c[k - 1] == levels[j].itemset[k - 2]
  {
    var i, j :| 0 <= i < j < |levels| && Joinable(levels[i].itemset, levels[j].itemset, k)
      && c == Join(levels[i].itemset, levels[j].itemset, k);
  }

  /** For k = 2 every pair of 1-itemsets i < j is joined, giving [x_i, x_j]. */
  lemma PairsOfSingles(levels: seq<Frequent>, i: nat, j: nat)
    requires 0 <= i < j < |levels|
    requires |levels[i].itemset| == 1 && |levels[j].itemset| == 1
    ensures [levels[i].itemset[0], levels[j].itemset[0]] in Candidates(levels, 2)
  {
    var a := levels[i].itemset;
    var b := levels[j].itemset;
    assert Joinable(a, b, 2);
    assert Join(a, b, 2) == [a[0], b[0]];
  }

  /** Joining two different itemsets without repeats that share their first k-2 items gives one without repeats. */
  lemma JoinNoDup(a: seq<Item>, b: seq<Item>, k: nat)
    requires k >= 2 && Joinable(a, b, k) && a != b && NoDup(a) && NoDup(b)
    ensures NoDup(Join(a, b, k))
  {
    var c := Join(a, b, k);
    assert a == a[..k - 2] + [a[k - 2]];
    assert b == b[..k - 2] + [b[k - 2]];
    assert a[k - 2] != b[k - 2];
    forall p, q | 0 <= p < q < |c| ensures c[p] != c[q] {
      if q == k - 1 {
        if p < k - 2 {
          assert c[p] == b[p];
        }
      } else {
        assert c[p] == a[p] && c[q] == a[q];
      }
    }
  }

  /** Entries that are not (k-1)-itemsets take part in no join for k. */
  lemma CandidatesIgnoreOtherSizes(levels: seq<Frequent>, extra: seq<Frequent>, k: nat)
    requires k >= 2
    requires forall e :: e in extra ==> |e.itemset| != k - 1
    ensures Candidates(levels + extra, k) == Candidates(levels, k)
  {
    var all := levels + extra;
    forall q | |levels| <= q < |all| ensures |all[q].itemset| != k - 1 {
      assert all[q] == extra[q - |levels|];
      assert extra[q - |levels|] in extra;
    }
    forall c | c in Candidates(all, k) ensures c in Candidates(levels, k) {
      var i, j :| 0 <= i < j < |all| && Joinable(all[i].itemset, all[j].itemset, k)
        && c == Join(all[i].itemset, all[j].itemset, k);
      assert all[i] == levels[i] && all[j] == levels[j];
    }
    forall c | c in Candidates(levels, k) ensures c in Candidates(all, k) {
      var i, j :| 0 <= i < j < |levels| && Joinable(levels[i].itemset, levels[j].itemset, k)
        && c == Join(levels[i].itemset, levels[j].itemset, k);
      assert all[i] == levels[i] && all[j] == levels[j];
    }
  }

  // ---------------------------------------------------------------------------
  // Support counting and the threshold cut
  // ---------------------------------------------------------------------------

  /** candidateCountMap.getOrDefault(c, 0). */
  function CountOf(m: map<seq<Item>, nat>, c: seq<Item>): nat
  {
    if c in m then m[c] else 0
  }

  /** The inner counting loop: every listed candidate that the transaction contains gains one. */
  function Tick(m: map<seq<Item>, nat>, t: Transaction, cands: seq<seq<Item>>): (r: map<seq<Item>, nat>)
    requires NoDup(cands)
    ensures forall c :: c in r <==> c in m || (c in cands && ContainsAll(t, c))
    ensures forall c :: CountOf(r, c) == CountOf(m, c) + (if c in cands && ContainsAll(t, c) then 1 else 0)
    decreases |cands|
  {
    if cands == [] then m
    else
      var n := |cands|;
      var c := cands[n - 1];
      NoDupSnoc(cands);
      assert forall d :: d in cands <==> d in cands[..n - 1] || d == c;
      var r := Tick(m, t, cands[..n - 1]);
      if ContainsAll(t, c) then r[c := CountOf(r, c) + 1] else r
  }

  /**
   * The counting loops of the level loop: each candidate contained in at least
   * one transaction is mapped to the number of transactions containing it;
   * the others get no entry.
   */
  function CountCandidates(ts: seq<Transaction>, cands: seq<seq<Item>>): (r: map<seq<Item>, nat>)
    requires NoDup(cands)
    ensures forall c :: c in r <==> c in cands && Support(ts, c) > 0
    ensures forall c :: c in r ==> r[c] == Support(ts, c)
    decreases |ts|
  {
    if ts == [] then map[]
    else
      var n := |ts|;
      var m := CountCandidates(ts[..n - 1], cands);
      var r := Tick(m, ts[n - 1], cands);
      assert forall c :: Support(ts, c) == Support(ts[..n - 1], c) + (if ContainsAll(ts[n - 1], c) then 1 else 0) by {
        forall c ensures Support(ts, c) == Support(ts[..n - 1], c) + (if ContainsAll(ts[n - 1], c) then 1 else 0) {
          SupportSnoc(ts, c);
        }
      }
      assert forall c :: c in r ==> r[c] == CountOf(r, c);
      r
  }

  /**
   * The threshold cut of the level loop: the counted candidates whose count
   * reaches `minSupportCount`, with their counts, in candidate order.
   */
  function NewLevel(cands: seq<seq<Item>>, counts: map<seq<Item>, nat>, minSupportCount: int): (r: seq<Frequent>)
    ensures forall e :: e in r ==>
      e.itemset in cands && e.itemset in counts && e.count == counts[e.itemset] && e.count >= minSupportCount
    ensures forall c :: c in cands && c in counts && counts[c] >= minSupportCount ==> c in Itemsets(r)
    ensures NoDup(cands) ==> NoDup(Itemsets(r))
    decreases |cands|
  {
    if cands == [] then []
    else
      var n := |cands|;
      var c := cands[n - 1];
      assert forall d :: d in cands <==> d in cands[..n - 1] || d == c;
      NoDupSnoc(cands);
      var rest := NewLevel(cands[..n - 1], counts, minSupportCount);
      if c in counts && counts[c] >= minSupportCount then
        var r := rest + [Frequent(c, counts[c])];
        assert Itemsets(r) == Itemsets(rest) + [c];
        assert forall d :: d in Itemsets(rest) ==> d in cands[..n - 1] by {
          forall d | d in Itemsets(rest) ensures d in cands[..n - 1] {
            var i :| 0 <= i < |rest| && Itemsets(rest)[i] == d;
            assert rest[i] in rest;
          }
        }
        r
      else
        rest
  }

  // ---------------------------------------------------------------------------
  // The level loop
  // ---------------------------------------------------------------------------

  lemma ItemsetsAppend(a: seq<Frequent>, b: seq<Frequent>)
    ensures Itemsets(a + b) == Itemsets(a) + Itemsets(b)
  {
  }

  lemma InItemsets(fs: seq<Frequent>, c: seq<Item>)
    ensures c in Itemsets(fs) <==> exists e :: e in fs && e.itemset == c
  {
    if c in Itemsets(fs) {
      var i :| 0 <= i < |fs| && Itemsets(fs)[i] == c;
      assert fs[i] in fs;
    }
    if exists e :: e in fs && e.itemset == c {
      var e :| e in fs && e.itemset == c;
      var i :| 0 <= i < |fs| && fs[i] == e;
      assert Itemsets(fs)[i] == c;
    }
  }

  /** The itemset reaches the threshold and occurs in at least one transaction. */
  ghost predicate Qualifies(ts: seq<Transaction>, minSupportCount: int, c: seq<Item>)
  {
    Support(ts, c) >= 1 && Support(ts, c) >= minSupportCount
  }

  /** What every kept entry satisfies. */
  ghost predicate EntryOk(ts: seq<Transaction>, minSupportCount: int, e: Frequent)
  {
    && 1 <= |e.itemset|
    && NoDup(e.itemset)
    && e.count >= minSupportCount
    && (exists i :: 0 <= i < |ts| && ContainsAll(ts[i], e.itemset))
    && (|e.itemset| == 1 ==> e.count == Occurrences(ts, e.itemset[0]))
    && (|e.itemset| >= 2 ==> e.count == Support(ts, e.itemset))
  }

  /** For every size k from 2 below `bound`, the k-itemsets kept are exactly the qualifying candidates joined from the (k-1)-itemsets kept. */
  ghost predicate LevelsExact(ts: seq<Transaction>, minSupportCount: int, all: seq<Frequent>, bound: int)
  {
    forall k: nat, c: seq<Item> :: 2 <= k < bound && |c| == k ==>
      (c in Itemsets(all) <==> c in Candidates(all, k) && Qualifies(ts, minSupportCount, c))
  }

  /** The state of the level loop before generating the k-itemsets. */
  ghost predicate LoopInv(ts: seq<Transaction>, minSupportCount: int, all: seq<Frequent>, k: nat)
  {
    var first := FirstLevel(ts, minSupportCount);
    && 2 <= k <= MaxLen(ts) + 2
    && (forall e :: e in all ==> EntryOk(ts, minSupportCount, e) && |e.itemset| < k)
    && NoDup(Itemsets(all))
    && |first| <= |all| && all[..|first|] == first
    && (forall i :: |first| <= i < |all| ==> |all[i].itemset| >= 2)
    && (forall i, j :: 0 <= i < j < |all| ==> |all[i].itemset| <= |all[j].itemset|)
    && LevelsExact(ts, minSupportCount, all, k)
  }

  lemma InitialInv(ts: seq<Transaction>, minSupportCount: int)
    ensures LoopInv(ts, minSupportCount, FirstLevel(ts, minSupportCount), 2)
  {
    var first := FirstLevel(ts, minSupportCount);
    forall e | e in first ensures EntryOk(ts, minSupportCount, e) {
      var x := e.itemset[0];
      ConcatMember(ts, x);
      var i :| 0 <= i < |ts| && x in ts[i];
      assert e.itemset == [x];
      assert ContainsAll(ts[i], e.itemset);
    }
    assert first[..|first|] == first;
  }

  /** What one pass of the loop body produces: the qualifying k-itemsets joined from `all`, each once, with their support. */
  ghost predicate LevelOk(ts: seq<Transaction>, minSupportCount: int, all: seq<Frequent>, k: nat, level: seq<Frequent>)
    requires k >= 2
  {
    && (forall e :: e in level ==> |e.itemset| == k && e.count == Support(ts, e.itemset) && e.count >= minSupportCount)
    && (forall c :: |c| == k ==> (c in Itemsets(level) <==> c in Candidates(all, k) && Qualifies(ts, minSupportCount, c)))
    && NoDup(Itemsets(level))
  }

  lemma ItemsetsSplit(a: seq<Frequent>, b: seq<Frequent>, c: seq<Item>)
    ensures c in Itemsets(a + b) <==> c in Itemsets(a) || c in Itemsets(b)
  {
    ItemsetsAppend(a, b);
  }

  lemma SizeExcludes(fs: seq<Frequent>, c: seq<Item>)
    requires forall e :: e in fs ==> |e.itemset| != |c|
    ensures c !in Itemsets(fs)
  {
    InItemsets(fs, c);
  }

  /** The cut keeps exactly the qualifying candidates. */
  lemma CutMembers(ts: seq<Transaction>, minSupportCount: int, cands: seq<seq<Item>>, c: seq<Item>)
    requires NoDup(cands)
    ensures c in Itemsets(NewLevel(cands, CountCandidates(ts, cands), minSupportCount))
        <==> c in cands && Qualifies(ts, minSupportCount, c)
  {
    var counts := CountCandidates(ts, cands);
    InItemsets(NewLevel(cands, counts, minSupportCount), c);
    if c in cands && Qualifies(ts, minSupportCount, c) {
      assert c in counts;
    }
  }

  /**
   * One pass of the level loop: generate the k-candidates from
   * the itemsets found so far, count them over the transactions, keep those
   * reaching `minSupportCount`.
   */
  method NextLevel(ts: seq<Transaction>, minSupportCount: int, all: seq<Frequent>, k: nat) returns (level: seq<Frequent>)
    requires k >= 2
    ensures forall e :: e in level ==> |e.itemset| == k && e.count == Support(ts, e.itemset) && e.count >= minSupportCount
    ensures forall c :: |c| == k ==> (c in Itemsets(level) <==> c in Candidates(all, k) && Qualifies(ts, minSupportCount, c))
    ensures NoDup(Itemsets(level))
  {
    var cands := GenerateCandidates(all, k);
    var counts := CountCandidates(ts, cands);
    level := NewLevel(cands, counts, minSupportCount);
    forall e | e in level ensures |e.itemset| == k {
      CandidateShape(all, k, e.itemset);
    }
    forall c | |c| == k ensures c in Itemsets(level) <==> c in Candidates(all, k) && Qualifies(ts, minSupportCount, c) {
      CutMembers(ts, minSupportCount, cands, c);
    }
  }

  /** A kept entry of the new level satisfies EntryOk, and so k is at most the longest transaction. */
  lemma NewEntryOk(ts: seq<Transaction>, minSupportCount: int, all: seq<Frequent>, k: nat, level: seq<Frequent>, e: Frequent)
    requires k >= 2
    requires forall f :: f in all ==> NoDup(f.itemset)
    requires NoDup(Itemsets(all))
    requires LevelOk(ts, minSupportCount, all, k, level)
    requires e in level
    ensures EntryOk(ts, minSupportCount, e) && |e.itemset| == k
    ensures k <= MaxLen(ts)
  {
    var c := e.itemset;
    InItemsets(level, c);
    JoinedEntries(all, k, c);
    SupportWitness(ts, c);
    var t :| 0 <= t < |ts| && ContainsAll(ts[t], c);
    ContainedIsShorter(ts[t], c);
  }

  /** A candidate joined from distinct entries without repeated items has k items and no repeats. */
  lemma JoinedEntries(all: seq<Frequent>, k: nat, c: seq<Item>)
    requires k >= 2
    requires forall f :: f in all ==> NoDup(f.itemset)
    requires NoDup(Itemsets(all))
    requires c in Candidates(all, k)
    ensures |c| == k && NoDup(c)
  {
    var i, j :| 0 <= i < j < |all| && Joinable(all[i].itemset, all[j].itemset, k)
      && c == Join(all[i].itemset, all[j].itemset, k);
    assert all[i] in all && all[j] in all;
    assert Itemsets(all)[i] != Itemsets(all)[j];
    JoinNoDup(all[i].itemset, all[j].itemset, k);
  }

  /** Appending a non-empty new level keeps the loop state for k + 1. */
  lemma StepInv(ts: seq<Transaction>, minSupportCount: int, all: seq<Frequent>, k: nat, level: seq<Frequent>)
    requires LoopInv(ts, minSupportCount, all, k)
    requires LevelOk(ts, minSupportCount, all, k, level) && level != []
    ensures LoopInv(ts, minSupportCount, all + level, k + 1)
  {
    forall e | e in level ensures EntryOk(ts, minSupportCount, e) && |e.itemset| == k {
      NewEntryOk(ts, minSupportCount, all, k, level, e);
    }
    assert level[0] in level;
    NewEntryOk(ts, minSupportCount, all, k, level, level[0]);
    AppendShape(all, level, k, |FirstLevel(ts, minSupportCount)|);
    LevelsExactStep(ts, minSupportCount, all, k, level);
  }

  /** Appending k-itemsets to entries shorter than k keeps the list free of repeated itemsets and sorted by size. */
  lemma AppendShape(all: seq<Frequent>, level: seq<Frequent>, k: nat, firstLen: nat)
    requires k >= 2 && firstLen <= |all|
    requires forall e :: e in all ==> |e.itemset| < k
    requires forall e :: e in level ==> |e.itemset| == k
    requires NoDup(Itemsets(all)) && NoDup(Itemsets(level))
    requires forall i, j :: 0 <= i < j < |all| ==> |all[i].itemset| <= |all[j].itemset|
    requires forall i :: firstLen <= i < |all| ==> |all[i].itemset| >= 2
    ensures NoDup(Itemsets(all + level))
    ensures forall i, j :: 0 <= i < j < |all + level| ==> |(all + level)[i].itemset| <= |(all + level)[j].itemset|
    ensures forall i :: firstLen <= i < |all + level| ==> |(all + level)[i].itemset| >= 2
    ensures (all + level)[..firstLen] == all[..firstLen]
  {
    var next := all + level;
    ItemsetsAppend(all, level);
    forall p, q | 0 <= p < q < |Itemsets(next)| ensures Itemsets(next)[p] != Itemsets(next)[q] {
      if q >= |all| {
        assert next[q] == level[q - |all|] && level[q - |all|] in level;
        if p < |all| {
          assert next[p] == all[p] && all[p] in all;
        } else {
          assert Itemsets(level)[p - |all|] != Itemsets(level)[q - |all|];
        }
      } else {
        assert Itemsets(all)[p] != Itemsets(all)[q];
      }
    }
    forall p, q | 0 <= p < q < |next| ensures |next[p].itemset| <= |next[q].itemset| {
      if q >= |all| {
        assert next[q] == level[q - |all|] && level[q - |all|] in level;
        if p < |all| {
          assert next[p] == all[p] && all[p] in all;
        } else {
          assert next[p] == level[p - |all|] && level[p - |all|] in level;
        }
      }
    }
    forall p | firstLen <= p < |next| ensures |next[p].itemset| >= 2 {
      if p >= |all| {
        assert next[p] == level[p - |all|] && level[p - |all|] in level;
      }
    }
  }

  /** With every kept itemset shorter than k, no candidate of a size above k exists. */
  lemma NoCandidatesBeyond(all: seq<Frequent>, k: nat, k': nat, c: seq<Item>)
    requires 2 <= k < k'
    requires forall i :: 0 <= i < |all| ==> |all[i].itemset| < k
    ensures c !in Candidates(all, k')
  {
    if c in Candidates(all, k') {
      CandidateShape(all, k', c);
    }
  }

  lemma LevelsExactStep(ts: seq<Transaction>, minSupportCount: int, all: seq<Frequent>, k: nat, level: seq<Frequent>)
    requires k >= 2
    requires forall e :: e in all ==> |e.itemset| < k
    requires LevelsExact(ts, minSupportCount, all, k)
    requires LevelOk(ts, minSupportCount, all, k, level)
    ensures LevelsExact(ts, minSupportCount, all + level, k + 1)
  {
    forall k': nat, c: seq<Item> | 2 <= k' < k + 1 && |c| == k'
      ensures c in Itemsets(all + level) <==> c in Candidates(all + level, k') && Qualifies(ts, minSupportCount, c)
    {
      LevelsExactAt(ts, minSupportCount, all, k, level, k', c);
    }
  }

  lemma LevelsExactAt(ts: seq<Transaction>, minSupportCount: int, all: seq<Frequent>, k: nat,
                      level: seq<Frequent>, k': nat, c: seq<Item>)
    requires 2 <= k' <= k && |c| == k'
    requires forall e :: e in all ==> |e.itemset| < k
    requires k' < k ==> (c in Itemsets(all) <==> c in Candidates(all, k') && Qualifies(ts, minSupportCount, c))
    requires LevelOk(ts, minSupportCount, all, k, level)
    ensures c in Itemsets(all + level) <==> c in Candidates(all + level, k') && Qualifies(ts, minSupportCount, c)
  {
    CandidatesIgnoreOtherSizes(all, level, k');
    ItemsetsSplit(all, level, c);
    if k' < k {
      SizeExcludes(level, c);
    } else {
      SizeExcludes(all, c);
    }
  }

  /** An empty new level closes every size from k on. */
  lemma StopInv(ts: seq<Transaction>, minSupportCount: int, all: seq<Frequent>, k: nat)
    requires k >= 2
    requires forall e :: e in all ==> |e.itemset| < k
    requires LevelsExact(ts, minSupportCount, all, k)
    requires LevelOk(ts, minSupportCount, all, k, [])
    ensures forall k': nat, c: seq<Item> :: 2 <= k' && |c| == k' ==>
      (c in Itemsets(all) <==> c in Candidates(all, k') && Qualifies(ts, minSupportCount, c))
  {
    assert forall i :: 0 <= i < |all| ==> all[i] in all;
    forall k': nat, c: seq<Item> | 2 <= k' && |c| == k'
      ensures c in Itemsets(all) <==> c in Candidates(all, k') && Qualifies(ts, minSupportCount, c)
    {
      if k' >= k {
        StopAt(ts, minSupportCount, all, k, k', c);
      }
    }
  }

  lemma StopAt(ts: seq<Transaction>, minSupportCount: int, all: seq<Frequent>, k: nat, k': nat, c: seq<Item>)
    requires 2 <= k <= k' && |c| == k'
    requires forall i :: 0 <= i < |all| ==> |all[i].itemset| < k
    requires forall e :: e in all ==> |e.itemset| < k
    requires k' == k ==> !(c in Candidates(all, k) && Qualifies(ts, minSupportCount, c))
    ensures c !in Itemsets(all)
    ensures !(c in Candidates(all, k') && Qualifies(ts, minSupportCount, c))
  {
    SizeExcludes(all, c);
    if k' > k {
      NoCandidatesBeyond(all, k, k', c);
    }
  }

  /** When the loop stops, its state gives every property of the result. */
  lemma Finish(ts: seq<Transaction>, minSupportCount: int, r: seq<Frequent>, k: nat)
    requires LoopInv(ts, minSupportCount, r, k)
    requires LevelOk(ts, minSupportCount, r, k, [])
    ensures forall e :: e in r ==>
      && 1 <= |e.itemset|
      && e.count >= minSupportCount
      && (|e.itemset| == 1 ==> e.count == Occurrences(ts, e.itemset[0]))
      && (|e.itemset| >= 2 ==> e.count == Support(ts, e.itemset))
    ensures NoDup(Itemsets(r))
    ensures |FirstLevel(ts, minSupportCount)| <= |r|
    ensures r[..|FirstLevel(ts, minSupportCount)|] == FirstLevel(ts, minSupportCount)
    ensures forall i :: |FirstLevel(ts, minSupportCount)| <= i < |r| ==> |r[i].itemset| >= 2
    ensures forall i, j :: 0 <= i < j < |r| ==> |r[i].itemset| <= |r[j].itemset|
    ensures forall k: nat, c: seq<Item> :: 2 <= k && |c| == k ==>
      (c in Itemsets(r) <==> c in Candidates(r, k) && Qualifies(ts, minSupportCount, c))
  {
    StopInv(ts, minSupportCount, r, k);
  }

  /**
   * The level loop of the main program: for k = 2, 3, ... the candidates joined
   * from the (k-1)-itemsets, counted over the transactions and cut at
   * `minSupportCount`, appended after the earlier levels; it stops at the
   * first k whose level is empty and returns that k.
   */
  method GrowLevels(ts: seq<Transaction>, minSupportCount: int) returns (r: seq<Frequent>, k: nat)
    ensures LoopInv(ts, minSupportCount, r, k)
    ensures LevelOk(ts, minSupportCount, r, k, [])
  {
    r := FirstLevel(ts, minSupportCount);
    k := 2;
    InitialInv(ts, minSupportCount);
    while true
      invariant LoopInv(ts, minSupportCount, r, k)
      decreases MaxLen(ts) + 2 - k
    {
      var level := NextLevel(ts, minSupportCount, r, k);
      if level == [] {
        return;
      }
      StepInv(ts, minSupportCount, r, k, level);
      r := r + level;
      k := k + 1;
    }
  }

  /**
   * The mining part of the Apriori main program: the frequent
   * 1-itemsets first, then each level k >= 2 holds exactly the candidates
   * joined from level k-1 that occur in at least one transaction and reach
   * `minSupportCount`; every size past the last level is empty.
   */
  method FrequentItemsets(ts: seq<Transaction>, minSupportCount: int) returns (r: seq<Frequent>)
    ensures forall e :: e in r ==>
      && 1 <= |e.itemset|
      && e.count >= minSupportCount
      && (|e.itemset| == 1 ==> e.count == Occurrences(ts, e.itemset[0]))
      && (|e.itemset| >= 2 ==> e.count == Support(ts, e.itemset))
    ensures NoDup(Itemsets(r))
    ensures |FirstLevel(ts, minSupportCount)| <= |r|
    ensures r[..|FirstLevel(ts, minSupportCount)|] == FirstLevel(ts, minSupportCount)
    ensures forall i :: |FirstLevel(ts, minSupportCount)| <= i < |r| ==> |r[i].itemset| >= 2
    ensures forall i, j :: 0 <= i < j < |r| ==> |r[i].itemset| <= |r[j].itemset|
    ensures forall k: nat, c: seq<Item> :: 2 <= k && |c| == k ==>
      (c in Itemsets(r) <==> c in Candidates(r, k) && Qualifies(ts, minSupportCount, c))
  {
    var k;
    r, k := GrowLevels(ts, minSupportCount);
    Finish(ts, minSupportCount, r, k);
  }
}

=== FILE: combinations.dfy ===
/**
 * combinations(items, k): every k-element selection of a list, each listed in
 * increasing index order, the selections in lexicographic order of their
 * index tuples (the order the successor loop over `indices` produces).
 */
module Selections {
  import opened Transactions

  /** Number of k-element subsets of an m-element set. */
  function Binomial(m: nat, k: nat): nat
  {
    if k == 0 then 1
    else if m == 0 then 0
    else Binomial(m - 1, k - 1) + Binomial(m - 1, k)
  }

  predicate Increasing(c: seq<nat>)
  {
    forall i, j :: 0 <= i < j < |c| ==> c[i] < c[j]
  }

  /** `c` is a k-element index selection from [lo, n). */
  predicate IsSelection(c: seq<nat>, n: nat, k: nat, lo: nat)
  {
    |c| == k && Increasing(c) && forall i :: 0 <= i < |c| ==> lo <= c[i] < n
  }

  /** Puts `x` in front of every list. */
  function Prepend(x: nat, cs: seq<seq<nat>>): (r: seq<seq<nat>>)
    ensures |r| == |cs|
    ensures forall i :: 0 <= i < |r| ==> r[i] == [x] + cs[i]
  {
    seq(|cs|, i requires 0 <= i < |cs| => [x] + cs[i])
  }

  /** The k-element index selections from [lo, n): those starting at `lo` first, then the rest. */
  function IndexCombos(n: nat, k: nat, lo: nat): seq<seq<nat>>
    decreases n - lo, k
  {
    if k == 0 then [[]]
    else if lo >= n then []
    else Prepend(lo, IndexCombos(n, k - 1, lo + 1)) + IndexCombos(n, k, lo + 1)
  }

  /** Every listed selection is a k-element increasing selection from [lo, n). */
  lemma {:induction false} CombosAreSelections(n: nat, k: nat, lo: nat)
    ensures forall c :: c in IndexCombos(n, k, lo) ==> IsSelection(c, n, k, lo)
    ensures forall i :: 0 <= i < |IndexCombos(n, k, lo)| ==> IsSelection(IndexCombos(n, k, lo)[i], n, k, lo)
    decreases n - lo, k
  {
    if k > 0 && lo < n {
      CombosAreSelections(n, k - 1, lo + 1);
      CombosAreSelections(n, k, lo + 1);
      var head := IndexCombos(n, k - 1, lo + 1);
      forall c | c in Prepend(lo, head) ensures IsSelection(c, n, k, lo) {
        var i :| 0 <= i < |head| && c == [lo] + head[i];
        assert IsSelection(head[i], n, k - 1, lo + 1);
      }
    }
  }

  /** Every k-element increasing selection from [lo, n) is listed. */
  lemma {:induction false} CombosComplete(n: nat, k: nat, lo: nat, c: seq<nat>)
    requires IsSelection(c, n, k, lo)
    ensures c in IndexCombos(n, k, lo)
    decreases n - lo, k
  {
    if k == 0 {
      assert c == [];
    } else {
      assert lo <= c[0] < n;
      if c[0] == lo {
        SelectionTail(c, n, k, lo);
        CombosComplete(n, k - 1, lo + 1, c[1..]);
        PrependMember(lo, IndexCombos(n, k - 1, lo + 1), c[1..]);
        assert c == [lo] + c[1..];
      } else {
        SelectionRaise(c, n, k, lo);
        CombosComplete(n, k, lo + 1, c);
      }
    }
  }

  /** A selection starting at `lo` continues with a selection from above `lo`. */
  lemma SelectionTail(c: seq<nat>, n: nat, k: nat, lo: nat)
    requires IsSelection(c, n, k, lo) && k > 0 && c[0] == lo
    ensures IsSelection(c[1..], n, k - 1, lo + 1)
  {
    forall i | 0 <= i < |c[1..]| ensures lo + 1 <= c[1..][i] {
      assert c[0] < c[i + 1];
    }
  }

  /** A selection that skips `lo` is a selection from above `lo`. */
  lemma SelectionRaise(c: seq<nat>, n: nat, k: nat, lo: nat)
    requires IsSelection(c, n, k, lo) && k > 0 && c[0] != lo
    ensures IsSelection(c, n, k, lo + 1)
  {
    forall i | 0 <= i < |c| ensures lo + 1 <= c[i] {
      if i > 0 {
        assert c[0] < c[i];
      }
    }
  }

  /** Prepending puts `[x] + s` in the list for every listed `s`. */
  lemma PrependMember(x: nat, cs: seq<seq<nat>>, s: seq<nat>)
    requires s in cs
    ensures [x] + s in Prepend(x, cs)
  {
    var i :| 0 <= i < |cs| && cs[i] == s;
    assert Prepend(x, cs)[i] == [x] + s;
  }

  /** No selection is listed twice. */
  lemma {:induction false} CombosDistinct(n: nat, k: nat, lo: nat)
    ensures NoDup(IndexCombos(n, k, lo))
    decreases n - lo, k
  {
    if k > 0 && lo < n {
      CombosDistinct(n, k - 1, lo + 1);
      CombosDistinct(n, k, lo + 1);
      CombosAreSelections(n, k, lo + 1);
      var head := Prepend(lo, IndexCombos(n, k - 1, lo + 1));
      var tail := IndexCombos(n, k, lo + 1);
      var all := head + tail;
      forall i, j | 0 <= i < j < |all| ensures all[i] != all[j] {
        if j < |head| {
          assert all[i][1..] == IndexCombos(n, k - 1, lo + 1)[i];
          assert all[j][1..] == IndexCombos(n, k - 1, lo + 1)[j];
        } else if i >= |head| {
          assert all[i] == tail[i - |head|] && all[j] == tail[j - |head|];
        } else {
          assert all[j] == tail[j - |head|];
          assert tail[j - |head|] in tail;
          assert all[i][0] == lo;
        }
      }
    }
  }

  /** There are C(n - lo, k) selections. */
  lemma {:induction false} CombosCount(n: nat, k: nat, lo: nat)
    requires lo <= n
    ensures |IndexCombos(n, k, lo)| == Binomial(n - lo, k)
    decreases n - lo, k
  {
    if k > 0 && lo < n {
      CombosCount(n, k - 1, lo + 1);
      CombosCount(n, k, lo + 1);
    }
  }

  /** Strict lexicographic order on index tuples. */
  predicate TupleLess(a: seq<nat>, b: seq<nat>)
    decreases |a|
  {
    if |a| == 0 then |b| > 0
    else if |b| == 0 then false
    else if a[0] != b[0] then a[0] < b[0]
    else TupleLess(a[1..], b[1..])
  }

  /** The selections come in strictly increasing lexicographic order, as the successor loop emits them. */
  lemma {:induction false} CombosInLexOrder(n: nat, k: nat, lo: nat)
    ensures forall i :: 0 <= i < |IndexCombos(n, k, lo)| - 1 ==>
      TupleLess(IndexCombos(n, k, lo)[i], IndexCombos(n, k, lo)[i + 1])
    decreases n - lo, k
  {
    if k > 0 && lo < n {
      CombosInLexOrder(n, k - 1, lo + 1);
      CombosInLexOrder(n, k, lo + 1);
      CombosAreSelections(n, k, lo + 1);
      var sub := IndexCombos(n, k - 1, lo + 1);
      var head := Prepend(lo, sub);
      var tail := IndexCombos(n, k, lo + 1);
      var all := head + tail;
      forall i | 0 <= i < |all| - 1 ensures TupleLess(all[i], all[i + 1]) {
        if i + 1 < |head| {
          assert all[i][1..] == sub[i] && all[i + 1][1..] == sub[i + 1];
        } else if i >= |head| {
          assert all[i] == tail[i - |head|] && all[i + 1] == tail[i + 1 - |head|];
        } else {
          assert all[i + 1] == tail[0];
          assert tail[0] in tail;
          assert all[i][0] == lo;
        }
      }
    }
  }

  /** The items at the selected positions. */
  function Pick(items: seq<Item>, c: seq<nat>): (r: seq<Item>)
    requires forall i :: 0 <= i < |c| ==> c[i] < |items|
    ensures |r| == |c|
    ensures forall i :: 0 <= i < |c| ==> r[i] == items[c[i]]
  {
    seq(|c|, i requires 0 <= i < |c| => items[c[i]])
  }

  /** combinations(items, k): the items of every k-element index selection, in enumeration order. */
  function Combinations(items: seq<Item>, k: nat): (r: seq<seq<Item>>)
    ensures |r| == |IndexCombos(|items|, k, 0)|
  {
    var cs := IndexCombos(|items|, k, 0);
    CombosAreSelections(|items|, k, 0);
    seq(|cs|, i requires 0 <= i < |cs| => Pick(items, cs[i]))
  }

  /** combinations(items, k) lists C(n, k) item lists. */
  lemma CombinationsCount(items: seq<Item>, k: nat)
    ensures |Combinations(items, k)| == Binomial(|items|, k)
  {
    CombosCount(|items|, k, 0);
  }

  /** Each listed item list has k items taken from `items`; when `items` has no repeats, neither do they. */
  lemma {:induction false} CombinationsMembers(items: seq<Item>, k: nat)
    ensures forall s :: s in Combinations(items, k) ==>
      |s| == k && (forall x :: x in s ==> x in items) && (NoDup(items) ==> NoDup(s))
  {
    var cs := IndexCombos(|items|, k, 0);
    var r := Combinations(items, k);
    CombosAreSelections(|items|, k, 0);
    forall s | s in r ensures |s| == k && (forall x :: x in s ==> x in items) && (NoDup(items) ==> NoDup(s)) {
      var i :| 0 <= i < |r| && r[i] == s;
      assert IsSelection(cs[i], |items|, k, 0);
      assert s == Pick(items, cs[i]);
    }
  }

  /** For a list without repeats no k-element subset is listed twice. */
  lemma {:induction false} CombinationsDistinct(items: seq<Item>, k: nat)
    requires NoDup(items)
    ensures NoDup(Combinations(items, k))
  {
    var cs := IndexCombos(|items|, k, 0);
    var r := Combinations(items, k);
    CombosAreSelections(|items|, k, 0);
    CombosDistinct(|items|, k, 0);
    forall i, j | 0 <= i < j < |r| ensures r[i] != r[j] {
      assert IsSelection(cs[i], |items|, k, 0) && IsSelection(cs[j], |items|, k, 0);
      if r[i] == r[j] {
        PickInjective(items, cs[i], cs[j]);
      }
    }
  }

  /** Every k-element selection of positions is listed. */
  lemma {:induction false} CombinationsComplete(items: seq<Item>, k: nat, c: seq<nat>)
    requires IsSelection(c, |items|, k, 0)
    ensures Pick(items, c) in Combinations(items, k)
  {
    var cs := IndexCombos(|items|, k, 0);
    var r := Combinations(items, k);
    CombosComplete(|items|, k, 0, c);
    CombosAreSelections(|items|, k, 0);
    var i :| 0 <= i < |cs| && cs[i] == c;
    assert r[i] == Pick(items, c);
  }

  /** Distinct selections from a list without repeats pick different item lists. */
  lemma {:induction false} PickInjective(items: seq<Item>, a: seq<nat>, b: seq<nat>)
    requires NoDup(items)
    requires |a| == |b| && forall i :: 0 <= i < |a| ==> a[i] < |items| && b[i] < |items|
    requires Pick(items, a) == Pick(items, b)
    ensures a == b
  {
    forall i | 0 <= i < |a| ensures a[i] == b[i] {
      assert items[a[i]] == Pick(items, a)[i] == Pick(items, b)[i] == items[b[i]];
    }
  }
}

=== FILE: construction.dfy ===
/**
 * The FPTree constructor: frequent-item table, header table, and the tree
 * grown from every transaction reduced to its frequent items in rank order.
 */
module Construction {
  import opened Transactions
  import opened Sorting
  import opened LexOrder
  import opened Frequency
  import opened FPTree
  import opened TreeBuilder

  // ---------------------------------------------------------------------------
  // Ordering a transaction before insertion
  // ---------------------------------------------------------------------------

  /**
   * The comparator of buildFPTree as a "comes no later than" relation: higher
   * frequency first, equal frequencies in ascending string order.
   */
  predicate Precedes(freq: map<Item, nat>, a: Item, b: Item)
  {
    Get(freq, a) > Get(freq, b) || (Get(freq, a) == Get(freq, b) && LexLe(a, b))
  }

  function Rank(freq: map<Item, nat>): (Item, Item) -> bool
  {
    (a: Item, b: Item) => Precedes(freq, a, b)
  }

  /** The comparator is a total order; in particular it reports "equal" only for equal strings. */
  lemma RankIsTotalOrder(freq: map<Item, nat>)
    ensures TotalPreorder(Rank(freq))
    ensures Antisymmetric(Rank(freq))
  {
    LexLeIsTotalOrder();
    var le := Rank(freq);
    forall a, b ensures le(a, b) || le(b, a) {
      assert LexLe(a, b) || LexLe(b, a);
    }
    forall a, b, c | le(a, b) && le(b, c) ensures le(a, c) {
      if Get(freq, a) == Get(freq, b) == Get(freq, c) {
        assert LexLe(a, b) && LexLe(b, c);
      }
    }
    forall a, b | le(a, b) && le(b, a) ensures a == b {
      assert LexLe(a, b) && LexLe(b, a);
    }
  }

  /**
   * The sorted item list of one transaction in buildFPTree: only its frequent
   * items, every repeat kept, in non-increasing frequency with ties broken by
   * ascending string order.
   */
  function PrepareTransaction(freq: map<Item, nat>, t: Transaction): (r: seq<Item>)
    ensures forall x :: multiset(r)[x] == if x in freq then multiset(t)[x] else 0
    ensures forall x :: x in r <==> x in t && x in freq
    ensures forall i, j :: 0 <= i < j < |r| ==> Get(freq, r[i]) >= Get(freq, r[j])
    ensures forall i, j :: 0 <= i < j < |r| && Get(freq, r[i]) == Get(freq, r[j]) ==> LexLe(r[i], r[j])
    ensures |r| <= |t|
  {
    RankIsTotalOrder(freq);
    var kept := KeepFrequent(t, freq);
    var r := SortBy(kept, Rank(freq));
    RankSorted(freq, r);
    SameElements(r, kept);
    r
  }

  /** What being sorted by the comparator says about neighbours and ties. */
  lemma RankSorted(freq: map<Item, nat>, r: seq<Item>)
    requires SortedBy(r, Rank(freq))
    ensures forall i, j :: 0 <= i < j < |r| ==> Get(freq, r[i]) >= Get(freq, r[j])
    ensures forall i, j :: 0 <= i < j < |r| && Get(freq, r[i]) == Get(freq, r[j]) ==> LexLe(r[i], r[j])
  {
    forall i, j | 0 <= i < j < |r| ensures Precedes(freq, r[i], r[j]) {
      assert Rank(freq)(r[i], r[j]);
    }
  }

  /**
   * Whatever sorting algorithm is used, a permutation of the frequent items
   * that respects the comparator is exactly PrepareTransaction's result.
   */
  lemma PreparedIsUnique(freq: map<Item, nat>, t: Transaction, s: seq<Item>)
    requires multiset(s) == multiset(KeepFrequent(t, freq))
    requires SortedBy(s, Rank(freq))
    ensures s == PrepareTransaction(freq, t)
  {
    RankIsTotalOrder(freq);
    SortedUnique(s, SortBy(KeepFrequent(t, freq), Rank(freq)), Rank(freq));
  }

  // ---------------------------------------------------------------------------
  // Growing the tree from the transactions
  // ---------------------------------------------------------------------------

  /** One iteration of buildFPTree's loop: insert the prepared list, unless it is empty. */
  function AddTransaction(t: Tree, tr: Transaction): (r: Tree)
    requires Valid(t)
    ensures Valid(r)
    ensures r.frequent == t.frequent && r.order == t.order
    ensures |r.nodes| >= |t.nodes|
    ensures forall i :: 0 <= i < |t.nodes| ==>
      r.nodes[i].item == t.nodes[i].item && r.nodes[i].parent == t.nodes[i].parent
    ensures r.nodes[Root].count == t.nodes[Root].count
    ensures PrepareTransaction(t.frequent, tr) == [] ==> r == t
  {
    var p := PrepareTransaction(t.frequent, tr);
    if p == [] then t else InsertTree(t, p, Root)
  }

  /** Every item gains its frequent occurrences in the transaction. */
  lemma AddTransactionCounts(t: Tree, tr: Transaction)
    requires Valid(t)
    ensures forall y ::
      SumCounts(AddTransaction(t, tr).nodes, y, 1) == SumCounts(t.nodes, y, 1) + (if y in t.frequent then multiset(tr)[y] else 0)
  {
    var p := PrepareTransaction(t.frequent, tr);
    if p != [] {
      InsertTreeCounts(t, p, Root);
    }
  }

  /** A header table that covers the frequent items keeps exactly those keys. */
  lemma AddTransactionHeaders(t: Tree, tr: Transaction)
    requires Valid(t) && t.headers.Keys == t.frequent.Keys
    ensures AddTransaction(t, tr).headers.Keys == t.frequent.Keys
  {
    var p := PrepareTransaction(t.frequent, tr);
    if p != [] {
      InsertTreeHeaders(t, p, Root);
    }
  }

  /** The tree stays within the depth of the longest transaction. */
  lemma {:induction false} AddTransactionDepth(t: Tree, tr: Transaction, bound: nat)
    requires Valid(t) && DepthBounded(t.nodes, bound) && |tr| <= bound
    ensures DepthBounded(AddTransaction(t, tr).nodes, bound)
  {
    var p := PrepareTransaction(t.frequent, tr);
    if p != [] {
      var r := InsertTree(t, p, Root);
      InsertTreeDepth(t, p, Root);
      assert UpPath(t.nodes, Root) == [];
      DepthExtend(t.nodes, r.nodes, bound);
    }
  }

  /** buildFPTree's loop over the transactions, in input order. */
  function InsertAll(t: Tree, ts: seq<Transaction>): (r: Tree)
    requires Valid(t)
    ensures Valid(r)
    ensures r.frequent == t.frequent && r.order == t.order
    ensures |r.nodes| >= |t.nodes|
    ensures forall i :: 0 <= i < |t.nodes| ==>
      r.nodes[i].item == t.nodes[i].item && r.nodes[i].parent == t.nodes[i].parent
    ensures r.nodes[Root].count == t.nodes[Root].count
    decreases |ts|
  {
    if ts == [] then t else InsertAll(AddTransaction(t, ts[0]), ts[1..])
  }

  /** After the loop each item's total count has grown by its occurrences, if it is frequent. */
  lemma {:induction false} InsertAllCounts(t: Tree, ts: seq<Transaction>)
    requires Valid(t)
    ensures forall y ::
      SumCounts(InsertAll(t, ts).nodes, y, 1) == SumCounts(t.nodes, y, 1) + (if y in t.frequent then Occurrences(ts, y) else 0)
    decreases |ts|
  {
    if ts != [] {
      AddTransactionCounts(t, ts[0]);
      InsertAllCounts(AddTransaction(t, ts[0]), ts[1..]);
      assert Concat(ts) == ts[0] + Concat(ts[1..]);
      assert forall y :: Occurrences(ts, y) == multiset(ts[0])[y] + Occurrences(ts[1..], y);
    }
  }

  lemma {:induction false} InsertAllHeaders(t: Tree, ts: seq<Transaction>)
    requires Valid(t) && t.headers.Keys == t.frequent.Keys
    ensures InsertAll(t, ts).headers.Keys == t.frequent.Keys
    decreases |ts|
  {
    if ts != [] {
      AddTransactionHeaders(t, ts[0]);
      InsertAllHeaders(AddTransaction(t, ts[0]), ts[1..]);
    }
  }

  lemma {:induction false} InsertAllDepth(t: Tree, ts: seq<Transaction>, bound: nat)
    requires Valid(t) && DepthBounded(t.nodes, bound) && MaxLen(ts) <= bound
    ensures DepthBounded(InsertAll(t, ts).nodes, bound)
    decreases |ts|
  {
    if ts != [] {
      AddTransactionDepth(t, ts[0], bound);
      assert MaxLen(ts[1..]) <= bound by {
        if |ts| > 1 {
          var k :| 0 <= k < |ts[1..]| && |ts[1..][k]| == MaxLen(ts[1..]);
          assert ts[1..][k] == ts[k + 1];
        }
      }
      InsertAllDepth(AddTransaction(t, ts[0]), ts[1..], bound);
    }
  }

  /** Some node's walk up to the root reads `p` back to front: `p` is a root path of the tree. */
  ghost predicate HasRootPath(nodes: seq<Node>, p: seq<Item>)
    requires ParentsOk(nodes)
  {
    exists e :: 0 <= e < |nodes| && UpPath(nodes, e) == Reverse(p)
  }

  /** A root path survives appending nodes and changing counts or links. */
  lemma RootPathKept(a: seq<Node>, b: seq<Node>, p: seq<Item>)
    requires ParentsOk(a) && ParentsOk(b) && |a| <= |b|
    requires forall k :: 0 <= k < |a| ==> b[k].item == a[k].item && b[k].parent == a[k].parent
    requires HasRootPath(a, p)
    ensures HasRootPath(b, p)
  {
    var e :| 0 <= e < |a| && UpPath(a, e) == Reverse(p);
    UpPathFrame(a, b, e);
  }

  /** Inserting a transaction lays its prepared list down as a root path. */
  lemma AddTransactionPath(t: Tree, tr: Transaction)
    requires Valid(t) && PrepareTransaction(t.frequent, tr) != []
    ensures HasRootPath(AddTransaction(t, tr).nodes, PrepareTransaction(t.frequent, tr))
  {
    var p := PrepareTransaction(t.frequent, tr);
    var e := InsertTreeEnd(t, p, Root);
    InsertTreePath(t, p, Root);
    assert UpPath(t.nodes, Root) == [];
    assert UpPath(AddTransaction(t, tr).nodes, e) == Reverse(p);
  }

  /** After the loop, every transaction with a frequent item has its prepared list as a root path. */
  lemma {:induction false} InsertAllPaths(t: Tree, ts: seq<Transaction>)
    requires Valid(t)
    ensures forall j :: 0 <= j < |ts| && PrepareTransaction(t.frequent, ts[j]) != [] ==>
      HasRootPath(InsertAll(t, ts).nodes, PrepareTransaction(t.frequent, ts[j]))
    decreases |ts|
  {
    if ts != [] {
      var t1 := AddTransaction(t, ts[0]);
      var r := InsertAll(t1, ts[1..]);
      assert InsertAll(t, ts) == r;
      InsertAllPaths(t1, ts[1..]);
      forall j | 0 <= j < |ts| && PrepareTransaction(t.frequent, ts[j]) != []
        ensures HasRootPath(r.nodes, PrepareTransaction(t.frequent, ts[j]))
      {
        if j == 0 {
          AddTransactionPath(t, ts[0]);
          RootPathKept(t1.nodes, r.nodes, PrepareTransaction(t.frequent, ts[0]));
        } else {
          assert ts[j] == ts[1..][j - 1];
        }
      }
    }
  }

  // ---------------------------------------------------------------------------
  // The constructor
  // ---------------------------------------------------------------------------

  /** The tree before any transaction: the tables and a lone root. */
  function EmptyTree(ts: seq<Transaction>, threshold: int, rootValue: Option<Item>, rootCount: nat): (r: Tree)
    ensures Valid(r) && TablesOk(r)
    ensures r.frequent == FindFrequentItems(ts, threshold)
    ensures r.nodes == [Node(rootValue, rootCount, None, [], None)]
  {
    var frequent := FindFrequentItems(ts, threshold);
    var root := Node(rootValue, rootCount, None, [], None);
    var r := Tree(frequent, FrequentOrder(ts, threshold), BuildHeaderTable(frequent), [root]);
    RootOnlyValid(r);
    r
  }

  /** A lone root without children or link, with a header table of empty chains, is a well-formed tree. */
  lemma RootOnlyValid(t: Tree)
    requires |t.nodes| == 1 && t.nodes[Root].parent.None? && t.nodes[Root].children == [] && t.nodes[Root].link.None?
    requires forall x :: x in t.headers ==> t.headers[x].None?
    ensures Valid(t)
  {
    assert ChildrenOkAt(t.nodes, Root);
  }

  /**
   * new FPTree(transactions, threshold, rootValue, rootCount): the frequent
   * items with their occurrence counts, a header entry per frequent item, and
   * a well-formed tree whose root carries the given value and count.
   */
  function NewTree(ts: seq<Transaction>, threshold: int, rootValue: Option<Item>, rootCount: nat): (r: Tree)
    ensures Valid(r) && TablesOk(r)
    ensures r.frequent == FindFrequentItems(ts, threshold)
    ensures r.nodes[Root].item == rootValue && r.nodes[Root].count == rootCount
  {
    var t0 := EmptyTree(ts, threshold, rootValue, rootCount);
    InsertAllHeaders(t0, ts);
    InsertAll(t0, ts)
  }

  /**
   * The tree accounts for every frequent occurrence: the nodes carrying a
   * frequent item hold, together, exactly its count in the table, and no
   * node carries any other item.
   */
  lemma {:induction false} NewTreeCounts(ts: seq<Transaction>, threshold: int, rootValue: Option<Item>, rootCount: nat)
    ensures var r := NewTree(ts, threshold, rootValue, rootCount);
      forall y :: SumCounts(r.nodes, y, 1) == Get(r.frequent, y)
  {
    var t0 := EmptyTree(ts, threshold, rootValue, rootCount);
    InsertAllCounts(t0, ts);
  }

  /** No node lies deeper than the longest transaction. */
  lemma {:induction false} NewTreeDepth(ts: seq<Transaction>, threshold: int, rootValue: Option<Item>, rootCount: nat)
    ensures var r := NewTree(ts, threshold, rootValue, rootCount);
      DepthBounded(r.nodes, MaxLen(ts))
  {
    var t0 := EmptyTree(ts, threshold, rootValue, rootCount);
    InsertAllDepth(t0, ts, MaxLen(ts));
  }

  /**
   * Following the header entry of any frequent item visits exactly the nodes
   * carrying it, each once, in creation order.
   */
  lemma {:induction false} NewTreeChains(ts: seq<Transaction>, threshold: int, rootValue: Option<Item>, rootCount: nat)
    ensures var r := NewTree(ts, threshold, rootValue, rootCount);
      && LinksForward(r.nodes)
      && forall x :: x in r.frequent ==> x in r.headers && ChainFrom(r.nodes, r.headers[x]) == IndicesWith(r.nodes, x, 1)
  {
    var r := NewTree(ts, threshold, rootValue, rootCount);
    HeaderChains(r);
  }

  /**
   * The tree shares prefixes rather than flattening them: every transaction
   * with a frequent item, reduced and ordered as buildFPTree inserts it, is
   * read back to front on the walk from some node up to the root.
   */
  lemma NewTreePaths(ts: seq<Transaction>, threshold: int, rootValue: Option<Item>, rootCount: nat)
    ensures var r := NewTree(ts, threshold, rootValue, rootCount);
      forall j :: 0 <= j < |ts| && PrepareTransaction(r.frequent, ts[j]) != [] ==>
        HasRootPath(r.nodes, PrepareTransaction(r.frequent, ts[j]))
  {
    var t0 := EmptyTree(ts, threshold, rootValue, rootCount);
    assert NewTree(ts, threshold, rootValue, rootCount) == InsertAll(t0, ts);
    InsertAllPaths(t0, ts);
  }
}

=== FILE: fptree.dfy ===
/**
 * The FP tree as an arena: `FPNode` objects become records in a sequence,
 * addressed by index, with the root at index 0.  Parent, child and the
 * same-item "link" references are indices into the same sequence.
 */
module FPTree {
  import opened Transactions

  /**
   * One FPNode.  `item` is None only for the top-level root; `parent` is None
   * only for the root; `link` is the next node carrying the same item.
   */
  datatype Node = Node(item: Option<Item>, count: nat, parent: Option<nat>, children: seq<nat>, link: Option<nat>)

  /**
   * One FPTree: the frequent-item table, its key order (the order in which the
   * table's key set is walked), the header table and the node arena.
   */
  datatype Tree = Tree(frequent: map<Item, nat>, order: seq<Item>, headers: map<Item, Option<nat>>, nodes: seq<Node>)

  const Root: nat := 0

  // ---------------------------------------------------------------------------
  // Structural invariants of the arena
  // ---------------------------------------------------------------------------

  /** Node `i` has an item and an earlier parent that lists it among its children. */
  predicate ParentOkAt(nodes: seq<Node>, i: nat)
    requires i < |nodes|
  {
    && nodes[i].parent.Some?
    && nodes[i].parent.value < i
    && nodes[i].item.Some?
    && i in nodes[nodes[i].parent.value].children
  }

  /** Node 0 is the only node without a parent; every other node is attached as ParentOkAt says. */
  predicate ParentsOk(nodes: seq<Node>)
  {
    && |nodes| >= 1
    && nodes[Root].parent.None?
    && forall i :: 1 <= i < |nodes| ==> ParentOkAt(nodes, i)
  }

  /** The children of `n` are later nodes whose parent is `n`, and no two of them carry the same item. */
  predicate ChildrenOkAt(nodes: seq<Node>, n: nat)
    requires n < |nodes|
  {
    var ch := nodes[n].children;
    && (forall j :: 0 <= j < |ch| ==> n < ch[j] < |nodes| && nodes[ch[j]].parent == Some(n))
    && (forall j, k :: 0 <= j < k < |ch| ==> nodes[ch[j]].item != nodes[ch[k]].item)
  }

  predicate ChildrenOk(nodes: seq<Node>)
  {
    forall n :: 0 <= n < |nodes| ==> ChildrenOkAt(nodes, n)
  }

  /** The first non-root node at index `j` or later that carries `x`. */
  function NextWith(nodes: seq<Node>, x: Item, j: nat): (r: Option<nat>)
    ensures r.Some? ==> j <= r.value < |nodes| && nodes[r.value].item == Some(x)
    ensures r.Some? ==> forall k :: j <= k < r.value ==> nodes[k].item != Some(x)
    ensures r.None? ==> forall k :: j <= k < |nodes| ==> nodes[k].item != Some(x)
    decreases |nodes| - j
  {
    if j >= |nodes| then None
    else if nodes[j].item == Some(x) then Some(j)
    else NextWith(nodes, x, j + 1)
  }

  /** Node `i` carries an item and links to the next node created with the same item. */
  predicate LinkOkAt(nodes: seq<Node>, i: nat)
    requires i < |nodes|
  {
    nodes[i].item.Some? && nodes[i].link == NextWith(nodes, nodes[i].item.value, i + 1)
  }

  /** Each non-root node links to the next node created with the same item; the root links nowhere. */
  predicate LinksOk(nodes: seq<Node>)
  {
    && |nodes| >= 1
    && nodes[Root].link.None?
    && forall i :: 1 <= i < |nodes| ==> LinkOkAt(nodes, i)
  }

  /** Each header entry is the first node carrying its item, and every node's item has an entry. */
  predicate HeadersOk(headers: map<Item, Option<nat>>, nodes: seq<Node>)
  {
    && (forall x :: x in headers ==> headers[x] == NextWith(nodes, x, 1))
    && (forall i :: 1 <= i < |nodes| ==> nodes[i].item.Some? && nodes[i].item.value in headers)
  }

  predicate Valid(t: Tree)
  {
    && ParentsOk(t.nodes)
    && ChildrenOk(t.nodes)
    && LinksOk(t.nodes)
    && HeadersOk(t.headers, t.nodes)
  }

  /** The tables agree: the header table and the key order both cover exactly the frequent items. */
  ghost predicate TablesOk(t: Tree)
  {
    && t.headers.Keys == t.frequent.Keys
    && NoDup(t.order)
    && (forall x :: x in t.order <==> x in t.frequent)
  }

  // ---------------------------------------------------------------------------
  // Paths, counts and chains
  // ---------------------------------------------------------------------------

  /**
   * The items met walking from node `i` up to, but excluding, the root,
   * innermost first (the walk of mineSubTrees, which stops at the node whose
   * parent is null).
   */
  function UpPath(nodes: seq<Node>, i: nat): (r: seq<Item>)
    requires ParentsOk(nodes) && i < |nodes|
    ensures i == Root <==> r == []
    decreases i
  {
    if i == Root then []
    else
      assert ParentOkAt(nodes, i);
      [nodes[i].item.value] + UpPath(nodes, nodes[i].parent.value)
  }

  /** `n` lies on the parent route from `d` up to the root (every node is its own ancestor). */
  predicate IsAncestor(nodes: seq<Node>, n: nat, d: nat)
    requires ParentsOk(nodes) && d < |nodes|
    decreases d
  {
    if d == n then true
    else if d == Root then false
    else
      assert ParentOkAt(nodes, d);
      IsAncestor(nodes, n, nodes[d].parent.value)
  }

  lemma {:induction false} AncestorNotLater(nodes: seq<Node>, n: nat, d: nat)
    requires ParentsOk(nodes) && d < |nodes| && IsAncestor(nodes, n, d)
    ensures n <= d
    decreases d
  {
    if d != n {
      assert ParentOkAt(nodes, d);
      AncestorNotLater(nodes, n, nodes[d].parent.value);
    }
  }

  /** The parent of `c` is an ancestor of everything below `c`. */
  lemma {:induction false} AncestorThroughParent(nodes: seq<Node>, n: nat, c: nat, d: nat)
    requires ParentsOk(nodes) && c < |nodes| && d < |nodes| && c != Root
    requires nodes[c].parent == Some(n) && IsAncestor(nodes, c, d)
    ensures IsAncestor(nodes, n, d)
    decreases d
  {
    assert ParentOkAt(nodes, d) by {
      assert d != Root by {
        AncestorNotLater(nodes, c, d);
      }
    }
    if d != c {
      AncestorThroughParent(nodes, n, c, nodes[d].parent.value);
    }
  }

  /** No node lies deeper than `bound` non-root nodes. */
  predicate DepthBounded(nodes: seq<Node>, bound: nat)
    requires ParentsOk(nodes)
  {
    forall i :: 0 <= i < |nodes| ==> |UpPath(nodes, i)| <= bound
  }

  /** Total count of the non-root nodes at index `j` or later that carry `x`. */
  function SumCounts(nodes: seq<Node>, x: Item, j: nat): nat
    decreases |nodes| - j
  {
    if j >= |nodes| then 0
    else (if nodes[j].item == Some(x) then nodes[j].count else 0) + SumCounts(nodes, x, j + 1)
  }

  /** The indices at `j` or later whose node carries `x`, in creation order. */
  function IndicesWith(nodes: seq<Node>, x: Item, j: nat): (r: seq<nat>)
    ensures forall k :: k in r <==> j <= k < |nodes| && nodes[k].item == Some(x)
    ensures forall k :: 0 <= k < |r| ==> j <= r[k] < |nodes|
    ensures forall a, b :: 0 <= a < b < |r| ==> r[a] < r[b]
    decreases |nodes| - j
  {
    if j >= |nodes| then []
    else
      var rest := IndicesWith(nodes, x, j + 1);
      if nodes[j].item == Some(x) then [j] + rest else rest
  }

  /** Links point forward and stay inside the arena, so following them terminates. */
  predicate LinksForward(nodes: seq<Node>)
  {
    forall i :: 0 <= i < |nodes| && nodes[i].link.Some? ==> i < nodes[i].link.value < |nodes|
  }

  lemma LinksOkForward(nodes: seq<Node>)
    requires LinksOk(nodes)
    ensures LinksForward(nodes)
  {
    forall i | 0 <= i < |nodes| && nodes[i].link.Some?
      ensures i < nodes[i].link.value < |nodes|
    {
      assert i != Root;
      assert LinkOkAt(nodes, i);
    }
  }

  /** The nodes visited by following `link` from node `i`. */
  function ChainAt(nodes: seq<Node>, i: nat): seq<nat>
    requires LinksForward(nodes) && i < |nodes|
    decreases |nodes| - i
  {
    [i] + match nodes[i].link
          case None => []
          case Some(j) => ChainAt(nodes, j)
  }

  function ChainFrom(nodes: seq<Node>, start: Option<nat>): seq<nat>
    requires LinksForward(nodes)
    requires start.Some? ==> start.value < |nodes|
  {
    match start
    case None => []
    case Some(h) => ChainAt(nodes, h)
  }

  /** Following the chain from the first `x` node at `j` or later visits exactly the later `x` nodes, in order. */
  lemma ChainIsIndices(nodes: seq<Node>, x: Item, j: nat)
    requires LinksOk(nodes) && LinksForward(nodes) && 1 <= j
    ensures ChainFrom(nodes, NextWith(nodes, x, j)) == IndicesWith(nodes, x, j)
  {
    var k := if j < |nodes| then |nodes| else j;
    ChainEnd(nodes, x, k);
    while k > j
      invariant j <= k && (k <= |nodes| || k == j)
      invariant ChainFrom(nodes, NextWith(nodes, x, k)) == IndicesWith(nodes, x, k)
    {
      k := k - 1;
      ChainStep(nodes, x, k);
    }
  }

  /** Past the last node there is neither a chain nor an index. */
  lemma ChainEnd(nodes: seq<Node>, x: Item, j: nat)
    requires LinksForward(nodes) && j >= |nodes|
    ensures ChainFrom(nodes, NextWith(nodes, x, j)) == IndicesWith(nodes, x, j)
  {
    assert NextWith(nodes, x, j) == None;
  }

  /** One step of ChainIsIndices: what holds from node j + 1 on holds from node j on. */
  lemma ChainStep(nodes: seq<Node>, x: Item, j: nat)
    requires LinksOk(nodes) && LinksForward(nodes) && 1 <= j < |nodes|
    requires ChainFrom(nodes, NextWith(nodes, x, j + 1)) == IndicesWith(nodes, x, j + 1)
    ensures ChainFrom(nodes, NextWith(nodes, x, j)) == IndicesWith(nodes, x, j)
  {
    if nodes[j].item == Some(x) {
      assert NextWith(nodes, x, j) == Some(j);
      assert LinkOkAt(nodes, j);
      assert ChainAt(nodes, j) == [j] + ChainFrom(nodes, nodes[j].link);
      assert IndicesWith(nodes, x, j) == [j] + IndicesWith(nodes, x, j + 1);
    } else {
      assert NextWith(nodes, x, j) == NextWith(nodes, x, j + 1);
      assert IndicesWith(nodes, x, j) == IndicesWith(nodes, x, j + 1);
    }
  }

  /**
   * The header chains: in a valid tree, the chain starting at `headers[x]`
   * visits every node carrying `x`, each once, in creation order.
   */
  lemma HeaderChains(t: Tree)
    requires Valid(t)
    ensures LinksForward(t.nodes)
    ensures forall x :: x in t.headers ==> ChainFrom(t.nodes, t.headers[x]) == IndicesWith(t.nodes, x, 1)
  {
    LinksOkForward(t.nodes);
    forall x | x in t.headers
      ensures ChainFrom(t.nodes, t.headers[x]) == IndicesWith(t.nodes, x, 1)
    {
      LinksOkForward(t.nodes);
      ChainIsIndices(t.nodes, x, 1);
    }
  }

  /** Sum of the counts of the listed nodes. */
  function CountAlong(nodes: seq<Node>, idx: seq<nat>): nat
    requires forall k :: 0 <= k < |idx| ==> idx[k] < |nodes|
  {
    if idx == [] then 0 else nodes[idx[0]].count + CountAlong(nodes, idx[1..])
  }

  lemma {:induction false} CountAlongIndices(nodes: seq<Node>, x: Item, j: nat)
    ensures CountAlong(nodes, IndicesWith(nodes, x, j)) == SumCounts(nodes, x, j)
    decreases |nodes| - j
  {
    if j < |nodes| {
      CountAlongIndices(nodes, x, j + 1);
      var rest := IndicesWith(nodes, x, j + 1);
      if nodes[j].item == Some(x) {
        assert ([j] + rest)[1..] == rest;
      }
    }
  }

  // ---------------------------------------------------------------------------
  // FPNode operations
  // ---------------------------------------------------------------------------

  function FindChild(nodes: seq<Node>, ch: seq<nat>, x: Item): (r: Option<nat>)
    requires forall j :: 0 <= j < |ch| ==> ch[j] < |nodes|
    ensures r.Some? ==> r.value in ch && nodes[r.value].item == Some(x)
    ensures r.None? ==> forall c :: c in ch ==> nodes[c].item != Some(x)
  {
    if ch == [] then None
    else if nodes[ch[0]].item == Some(x) then Some(ch[0])
    else FindChild(nodes, ch[1..], x)
  }

  /** FPNode.getChild: the child of `n` carrying `x`, if there is one. */
  function GetChild(nodes: seq<Node>, n: nat, x: Item): (r: Option<nat>)
    requires n < |nodes| && ChildrenOkAt(nodes, n)
    ensures r.Some? ==> r.value in nodes[n].children && nodes[r.value].item == Some(x)
    ensures r.None? ==> forall c :: c in nodes[n].children ==> nodes[c].item != Some(x)
  {
    FindChild(nodes, nodes[n].children, x)
  }

  function AnyChildWith(nodes: seq<Node>, ch: seq<nat>, x: Item): bool
    requires forall j :: 0 <= j < |ch| ==> ch[j] < |nodes|
  {
    if ch == [] then false
    else if nodes[ch[0]].item == Some(x) then true
    else AnyChildWith(nodes, ch[1..], x)
  }

  /** FPNode.hasChild: whether some child of `n` carries `x`. */
  function HasChild(nodes: seq<Node>, n: nat, x: Item): bool
    requires n < |nodes| && ChildrenOkAt(nodes, n)
  {
    AnyChildWith(nodes, nodes[n].children, x)
  }

  lemma {:induction false} AnyChildWithIffFind(nodes: seq<Node>, ch: seq<nat>, x: Item)
    requires forall j :: 0 <= j < |ch| ==> ch[j] < |nodes|
    ensures AnyChildWith(nodes, ch, x) <==> FindChild(nodes, ch, x).Some?
    ensures AnyChildWith(nodes, ch, x) <==> exists j :: 0 <= j < |ch| && nodes[ch[j]].item == Some(x)
    decreases |ch|
  {
    if ch != [] {
      AnyChildWithIffFind(nodes, ch[1..], x);
      if nodes[ch[0]].item != Some(x) {
        assert forall j :: 1 <= j < |ch| ==> ch[j] == ch[1..][j - 1];
      }
    }
  }

  /**
   * hasChild and getChild agree, and the child getChild finds is the only one
   * carrying the item.
   */
  lemma HasChildIffGetChild(nodes: seq<Node>, n: nat, x: Item)
    requires n < |nodes| && ChildrenOkAt(nodes, n)
    ensures HasChild(nodes, n, x) <==> GetChild(nodes, n, x).Some?
    ensures GetChild(nodes, n, x).Some? ==>
      forall c :: c in nodes[n].children && nodes[c].item == Some(x) ==> c == GetChild(nodes, n, x).value
  {
    AnyChildWithIffFind(nodes, nodes[n].children, x);
    var ch := nodes[n].children;
    if GetChild(nodes, n, x).Some? {
      var g := GetChild(nodes, n, x).value;
      forall c | c in ch && nodes[c].item == Some(x) ensures c == g {
        var a :| 0 <= a < |ch| && ch[a] == c;
        var b :| 0 <= b < |ch| && ch[b] == g;
      }
    }
  }

  /** FPNode.addChild: a new node with count 1 whose parent is `n`, appended to `n`'s children. */
  function AddChild(nodes: seq<Node>, n: nat, x: Item): (r: seq<Node>)
    requires n < |nodes|
    ensures |r| == |nodes| + 1
    ensures r[|nodes|] == Node(Some(x), 1, Some(n), [], None)
    ensures r[n].children == nodes[n].children + [|nodes|]
    ensures forall i :: 0 <= i < |nodes| ==>
      r[i].item == nodes[i].item && r[i].count == nodes[i].count && r[i].parent == nodes[i].parent && r[i].link == nodes[i].link
    ensures forall i :: 0 <= i < |nodes| && i != n ==> r[i].children == nodes[i].children
  {
    nodes[n := nodes[n].(children := nodes[n].children + [|nodes|])] + [Node(Some(x), 1, Some(n), [], None)]
  }
}

=== FILE: frequency.dfy ===
/** The frequency filter of the FP-Growth miner: item counts and the threshold cut. */
module Frequency {
  import opened Transactions

  /** Map.getOrDefault(x, 0). */
  function Get(m: map<Item, nat>, x: Item): nat
  {
    if x in m then m[x] else 0
  }

  /** Adds one transaction's items, one at a time, to the running counts. */
  function AddItems(acc: map<Item, nat>, t: Transaction): (r: map<Item, nat>)
    ensures forall x :: x in r <==> x in acc || x in t
    ensures forall x :: x in r ==> r[x] == Get(acc, x) + multiset(t)[x]
    decreases |t|
  {
    if t == [] then acc
    else
      assert t == [t[0]] + t[1..];
      AddItems(acc[t[0] := Get(acc, t[0]) + 1], t[1..])
  }

  /** Counts every item over all transactions, processing them in input order. */
  function Tally(ts: seq<Transaction>): (r: map<Item, nat>)
    ensures forall x :: x in r <==> x in Concat(ts)
    ensures forall x :: x in r ==> r[x] == Occurrences(ts, x)
    decreases |ts|
  {
    if ts == [] then map[]
    else
      var n := |ts|;
      var r := AddItems(Tally(ts[..n - 1]), ts[n - 1]);
      ConcatSnoc(ts);
      r
  }

  /**
   * The frequent-item table: every item seen in the transactions whose total
   * count reaches the threshold, mapped to that count.
   */
  function FindFrequentItems(ts: seq<Transaction>, threshold: int): (r: map<Item, nat>)
    ensures forall x :: x in r <==> x in Concat(ts) && Occurrences(ts, x) >= threshold
    ensures forall x :: x in r ==> r[x] == Occurrences(ts, x)
  {
    var counts := Tally(ts);
    map x | x in counts && counts[x] >= threshold :: counts[x]
  }

  /** An empty input gives an empty table, whatever the threshold. */
  lemma NoTransactionsNoFrequentItems(threshold: int)
    ensures FindFrequentItems([], threshold) == map[]
  {
    var r := FindFrequentItems([], threshold);
    assert forall x :: x !in r;
  }

  /** The items of `t` that are keys of `freq`, in their original order. */
  function KeepFrequent(t: seq<Item>, freq: map<Item, nat>): (r: seq<Item>)
    ensures forall x :: multiset(r)[x] == if x in freq then multiset(t)[x] else 0
    ensures forall x :: x in r <==> x in t && x in freq
    ensures |r| <= |t|
    ensures NoDup(t) ==> NoDup(r)
    decreases |t|
  {
    if t == [] then []
    else
      assert t == [t[0]] + t[1..];
      assert multiset(t) == multiset{t[0]} + multiset(t[1..]);
      var rest := KeepFrequent(t[1..], freq);
      NoDupCons(t);
      if t[0] in freq then
        assert multiset([t[0]] + rest) == multiset{t[0]} + multiset(rest);
        NoDupConsBack([t[0]] + rest);
        [t[0]] + rest
      else rest
  }

  /**
   * The frequent items as a list without repeats, each at its first appearance
   * in the input; this fixes the iteration order of the table's key set.
   */
  function FrequentOrder(ts: seq<Transaction>, threshold: int): (r: seq<Item>)
    ensures NoDup(r)
    ensures forall x :: x in r <==> x in FindFrequentItems(ts, threshold)
  {
    KeepFrequent(Dedupe(Concat(ts)), FindFrequentItems(ts, threshold))
  }
}

=== FILE: lexorder.dfy ===
/** Java's string order on items (UTF-16 code units), and the canonical (sorted) form of an item list. */
module LexOrder {
  import opened Transactions
  import opened Sorting

  /**
   * The UTF-16 code units of one character, as a Java string stores it: the
   * character itself below U+10000, otherwise its surrogate pair.
   */
  function Units(c: char): (r: seq<int>)
    ensures 1 <= |r| <= 2
    ensures |r| == 2 <==> 0xD800 <= r[0] < 0xDC00
  {
    var v := c as int;
    if v < 0x1_0000 then [v]
    else [0xD800 + (v - 0x1_0000) / 0x400, 0xDC00 + (v - 0x1_0000) % 0x400]
  }

  /** Different characters have different code units. */
  lemma UnitsInjective(c: char, d: char)
    requires Units(c) == Units(d)
    ensures c == d
  {
    var v, w := c as int, d as int;
    if v >= 0x1_0000 && w >= 0x1_0000 {
      assert (v - 0x1_0000) / 0x400 == (w - 0x1_0000) / 0x400;
      assert (v - 0x1_0000) % 0x400 == (w - 0x1_0000) % 0x400;
    }
  }

  /** The UTF-16 code units of a string, the sequence String.compareTo compares. */
  function Utf16(s: Item): (r: seq<int>)
    ensures |r| >= |s|
    decreases |s|
  {
    if s == [] then [] else Units(s[0]) + Utf16(s[1..])
  }

  /** Different strings have different UTF-16 encodings. */
  lemma {:induction false} Utf16Injective(a: Item, b: Item)
    requires Utf16(a) == Utf16(b)
    ensures a == b
    decreases |a|
  {
    if a != [] && b != [] {
      var ua, ub := Units(a[0]), Units(b[0]);
      assert ua[0] == Utf16(a)[0] == Utf16(b)[0] == ub[0];
      assert |ua| == |ub|;
      assert ua == Utf16(a)[..|ua|] && ub == Utf16(b)[..|ub|];
      UnitsInjective(a[0], b[0]);
      assert Utf16(a[1..]) == Utf16(a)[|ua|..] == Utf16(b)[|ub|..] == Utf16(b[1..]);
      Utf16Injective(a[1..], b[1..]);
      assert a == [a[0]] + a[1..] && b == [b[0]] + b[1..];
    }
  }

  /** Strict lexicographic order on code-unit sequences: the first difference decides, otherwise the shorter comes first. */
  predicate UnitsLess(a: seq<int>, b: seq<int>)
    decreases |a|
  {
    if |a| == 0 then |b| > 0
    else if |b| == 0 then false
    else if a[0] != b[0] then a[0] < b[0]
    else UnitsLess(a[1..], b[1..])
  }

  /** String.compareTo(a, b) < 0: lexicographic order on UTF-16 code units. */
  predicate LexLess(a: Item, b: Item)
  {
    UnitsLess(Utf16(a), Utf16(b))
  }

  predicate LexLe(a: Item, b: Item)
  {
    a == b || LexLess(a, b)
  }

  lemma {:induction false} UnitsLessIrreflexive(a: seq<int>)
    ensures !UnitsLess(a, a)
    decreases |a|
  {
    if |a| > 0 {
      UnitsLessIrreflexive(a[1..]);
    }
  }

  lemma {:induction false} UnitsLessAsymmetric(a: seq<int>, b: seq<int>)
    ensures UnitsLess(a, b) ==> !UnitsLess(b, a)
    decreases |a|
  {
    if |a| > 0 && |b| > 0 && a[0] == b[0] {
      UnitsLessAsymmetric(a[1..], b[1..]);
    }
  }

  lemma {:induction false} UnitsLessTransitive(a: seq<int>, b: seq<int>, c: seq<int>)
    ensures UnitsLess(a, b) && UnitsLess(b, c) ==> UnitsLess(a, c)
    decreases |a|
  {
    if |a| > 0 && |b| > 0 && |c| > 0 && a[0] == b[0] && b[0] == c[0] {
      UnitsLessTransitive(a[1..], b[1..], c[1..]);
    }
  }

  lemma {:induction false} UnitsLessTotal(a: seq<int>, b: seq<int>)
    ensures a == b || UnitsLess(a, b) || UnitsLess(b, a)
    decreases |a|
  {
    if |a| > 0 && |b| > 0 && a[0] == b[0] {
      UnitsLessTotal(a[1..], b[1..]);
      if a[1..] == b[1..] {
        assert a == [a[0]] + a[1..] && b == [b[0]] + b[1..];
      }
    }
  }

  lemma LexLessTotal(a: Item, b: Item)
    ensures a == b || LexLess(a, b) || LexLess(b, a)
  {
    UnitsLessTotal(Utf16(a), Utf16(b));
    if Utf16(a) == Utf16(b) {
      Utf16Injective(a, b);
    }
  }

  /**
   * A character above U+FFFF sorts before one in U+E000..U+FFFF, because its
   * high surrogate (U+D800..U+DBFF) is the smaller code unit.
   */
  lemma SupplementaryBeforeHighBmp()
    ensures LexLess("\U{1F600}", "\U{FF21}") && !LexLess("\U{FF21}", "\U{1F600}")
  {
    assert Utf16("\U{1F600}") == [0xD83D, 0xDE00];
    assert Utf16("\U{FF21}") == [0xFF21];
  }

  /** LexLe is a total order: total, transitive and antisymmetric. */
  lemma LexLeIsTotalOrder()
    ensures TotalPreorder(LexLe)
    ensures Antisymmetric(LexLe)
  {
    forall a, b ensures LexLe(a, b) || LexLe(b, a) {
      LexLessTotal(a, b);
    }
    forall a, b, c | LexLe(a, b) && LexLe(b, c) ensures LexLe(a, c) {
      UnitsLessTransitive(Utf16(a), Utf16(b), Utf16(c));
    }
    forall a, b | LexLe(a, b) && LexLe(b, a) ensures a == b {
      UnitsLessAsymmetric(Utf16(a), Utf16(b));
    }
  }

  predicate Sorted(s: seq<Item>)
  {
    SortedBy(s, LexLe)
  }

  /** Collections.sort on a list of strings: ascending lexicographic order. */
  function SortItems(s: seq<Item>): (r: seq<Item>)
    ensures Sorted(r)
    ensures multiset(r) == multiset(s)
    ensures |r| == |s|
  {
    LexLeIsTotalOrder();
    SortBy(s, LexLe)
  }

  /**
   * Sorting makes keys canonical: two item lists get the same sorted key exactly
   * when they hold the same items with the same multiplicities.
   */
  lemma SortItemsCanonical(a: seq<Item>, b: seq<Item>)
    ensures SortItems(a) == SortItems(b) <==> multiset(a) == multiset(b)
  {
    if multiset(a) == multiset(b) {
      LexLeIsTotalOrder();
      SortedUnique(SortItems(a), SortItems(b), LexLe);
    }
  }

  /** A list that is already sorted is its own canonical key. */
  lemma SortItemsOfSorted(s: seq<Item>)
    requires Sorted(s)
    ensures SortItems(s) == s
  {
    LexLeIsTotalOrder();
    SortedUnique(SortItems(s), s, LexLe);
  }
}

=== FILE: mining.dfy ===
/**
 * The recursive miner: the conditional pattern bases of mineSubTrees, the
 * mining order, minePatterns with its single-path and branching cases, and
 * findFrequentPatterns.
 */
module Mining {
  import opened Transactions
  import opened Sorting
  import opened LexOrder
  import opened Frequency
  import opened FPTree
  import opened Construction
  import opened SinglePath
  import opened Selections
  import opened Patterns
  import opened TreeBuilder

  // ---------------------------------------------------------------------------
  // Conditional pattern bases
  // ---------------------------------------------------------------------------

  /** `k` copies of one path. */
  function Repeat(path: seq<Item>, k: nat): (r: seq<Transaction>)
    ensures |r| == k
    ensures forall p :: p in r ==> p == path
  {
    seq(k, i => path)
  }

  /** The items from the parent of node `o` up to, not including, the root: `o`'s own path without `o`. */
  function PrefixPath(nodes: seq<Node>, o: nat): (r: seq<Item>)
    requires ParentsOk(nodes) && 1 <= o < |nodes|
    ensures nodes[o].item.Some? && UpPath(nodes, o) == [nodes[o].item.value] + r
  {
    assert ParentOkAt(nodes, o);
    UpPath(nodes, nodes[o].parent.value)
  }

  /** The listed nodes' prefix paths, each repeated as often as its node's count, in list order. */
  function PathsOf(nodes: seq<Node>, chain: seq<nat>): (r: seq<Transaction>)
    requires ParentsOk(nodes)
    requires forall k :: 0 <= k < |chain| ==> 1 <= chain[k] < |nodes|
    ensures |r| == CountAlong(nodes, chain)
    ensures forall p :: p in r ==> exists k :: 0 <= k < |chain| && p == PrefixPath(nodes, chain[k])
    decreases |chain|
  {
    if chain == [] then []
    else
      var rest := PathsOf(nodes, chain[1..]);
      var head := Repeat(PrefixPath(nodes, chain[0]), nodes[chain[0]].count);
      assert forall p :: p in rest ==> exists k :: 0 <= k < |chain| && p == PrefixPath(nodes, chain[k]) by {
        forall p | p in rest ensures exists k :: 0 <= k < |chain| && p == PrefixPath(nodes, chain[k]) {
          var k :| 0 <= k < |chain[1..]| && p == PrefixPath(nodes, chain[1..][k]);
          assert chain[1..][k] == chain[k + 1];
        }
      }
      head + rest
  }

  /**
   * The input of the conditional tree of `x` in mineSubTrees: follow the
   * header chain of `x` and emit each node's prefix path once per count.
   */
  function ConditionalInput(t: Tree, x: Item): (r: seq<Transaction>)
    requires Valid(t) && x in t.headers
    ensures |r| == SumCounts(t.nodes, x, 1)
    ensures forall p :: p in r ==>
      exists o :: 1 <= o < |t.nodes| && t.nodes[o].item == Some(x) && p == PrefixPath(t.nodes, o)
  {
    HeaderChains(t);
    CountAlongIndices(t.nodes, x, 1);
    PathsOf(t.nodes, ChainFrom(t.nodes, t.headers[x]))
  }

  /**
   * Slot `CountAlong(chain[..k]) + c` of the paths holds the prefix path of
   * `chain[k]`, for each `c` below that node's count: every listed node fills
   * as many consecutive slots as its count, in list order.
   */
  lemma {:induction false} PathsOfSlots(nodes: seq<Node>, chain: seq<nat>, k: nat, c: nat)
    requires ParentsOk(nodes)
    requires forall i :: 0 <= i < |chain| ==> 1 <= chain[i] < |nodes|
    requires k < |chain| && c < nodes[chain[k]].count
    ensures CountAlong(nodes, chain[..k]) + c < |PathsOf(nodes, chain)|
    ensures PathsOf(nodes, chain)[CountAlong(nodes, chain[..k]) + c] == PrefixPath(nodes, chain[k])
    decreases k
  {
    var head := Repeat(PrefixPath(nodes, chain[0]), nodes[chain[0]].count);
    var rest := PathsOf(nodes, chain[1..]);
    assert PathsOf(nodes, chain) == head + rest;
    if k == 0 {
      assert CountAlong(nodes, chain[..0]) == 0;
      assert head[c] in head;
    } else {
      assert chain[..k][1..] == chain[1..][..k - 1];
      assert CountAlong(nodes, chain[..k]) == nodes[chain[0]].count + CountAlong(nodes, chain[1..][..k - 1]);
      PathsOfSlots(nodes, chain[1..], k - 1, c);
    }
  }

  /** Following the header chain of `x` visits the nodes carrying `x` in creation order. */
  lemma ConditionalInputAlongNodes(t: Tree, x: Item)
    requires Valid(t) && x in t.headers
    ensures ConditionalInput(t, x) == PathsOf(t.nodes, IndicesWith(t.nodes, x, 1))
  {
    HeaderChains(t);
  }

  /**
   * The conditional input lists, for each node carrying `x` in creation order,
   * that node's prefix path once per unit of its count: slot
   * `CountAlong(xs[..k]) + c` holds the prefix path of the `k`-th such node.
   */
  lemma ConditionalInputSlots(t: Tree, x: Item, k: nat, c: nat)
    requires Valid(t) && x in t.headers
    requires k < |IndicesWith(t.nodes, x, 1)| && c < t.nodes[IndicesWith(t.nodes, x, 1)[k]].count
    ensures var xs := IndicesWith(t.nodes, x, 1);
      && CountAlong(t.nodes, xs[..k]) + c < |ConditionalInput(t, x)|
      && ConditionalInput(t, x)[CountAlong(t.nodes, xs[..k]) + c] == PrefixPath(t.nodes, xs[k])
  {
    ConditionalInputAlongNodes(t, x);
    PathsOfSlots(t.nodes, IndicesWith(t.nodes, x, 1), k, c);
  }

  /** Every item on a path up from a node has a header entry. */
  lemma {:induction false} UpPathItems(t: Tree, i: nat, y: Item)
    requires Valid(t) && i < |t.nodes|
    ensures y in UpPath(t.nodes, i) ==> y in t.headers
    decreases i
  {
    if i != Root {
      assert ParentOkAt(t.nodes, i);
      UpPathItems(t, t.nodes[i].parent.value, y);
    }
  }

  /** The conditional input mentions only items that have a header entry. */
  lemma ConditionalInputItems(t: Tree, x: Item)
    requires Valid(t) && x in t.headers
    ensures forall y :: y in Concat(ConditionalInput(t, x)) ==> y in t.headers
  {
    var r := ConditionalInput(t, x);
    forall y | y in Concat(r) ensures y in t.headers {
      ConcatMember(r, y);
      var i :| 0 <= i < |r| && y in r[i];
      assert r[i] in r;
      var o :| 1 <= o < |t.nodes| && t.nodes[o].item == Some(x) && r[i] == PrefixPath(t.nodes, o);
      assert ParentOkAt(t.nodes, o);
      UpPathItems(t, t.nodes[o].parent.value, y);
    }
  }

  /** The conditional input is shallower than the tree and mentions only frequent items. */
  lemma ConditionalInputFacts(t: Tree, x: Item, bound: nat)
    requires Valid(t) && t.headers.Keys == t.frequent.Keys && x in t.headers
    requires DepthBounded(t.nodes, bound) && bound >= 1
    ensures MaxLen(ConditionalInput(t, x)) < bound
    ensures forall y :: y in Concat(ConditionalInput(t, x)) ==> y in t.frequent
  {
    ConditionalInputShorter(t, x, bound);
    ConditionalInputItems(t, x);
  }

  /** Each conditional path is one shorter than the path of its node, so the conditional input is shallower than the tree. */
  lemma ConditionalInputShorter(t: Tree, x: Item, bound: nat)
    requires Valid(t) && x in t.headers
    requires DepthBounded(t.nodes, bound) && bound >= 1
    ensures MaxLen(ConditionalInput(t, x)) < bound
  {
    var r := ConditionalInput(t, x);
    if |r| > 0 {
      var i :| 0 <= i < |r| && |r[i]| == MaxLen(r);
      assert r[i] in r;
      var o :| 1 <= o < |t.nodes| && t.nodes[o].item == Some(x) && r[i] == PrefixPath(t.nodes, o);
      assert |UpPath(t.nodes, o)| <= bound;
    }
  }

  /** In a constructed tree the conditional input of a frequent item has one path per occurrence of the item. */
  lemma ConditionalInputSize(ts: seq<Transaction>, threshold: int, rootValue: Option<Item>, rootCount: nat, x: Item)
    requires x in FindFrequentItems(ts, threshold)
    ensures var t := NewTree(ts, threshold, rootValue, rootCount);
      x in t.headers && |ConditionalInput(t, x)| == Occurrences(ts, x)
  {
    NewTreeCounts(ts, threshold, rootValue, rootCount);
  }

  // ---------------------------------------------------------------------------
  // The mining order
  // ---------------------------------------------------------------------------

  /** Comparator.comparingDouble(frequent::get) as a "comes no later than" relation. */
  function ByFrequency(freq: map<Item, nat>): (Item, Item) -> bool
  {
    (a: Item, b: Item) => Get(freq, a) <= Get(freq, b)
  }

  lemma ByFrequencyIsPreorder(freq: map<Item, nat>)
    ensures TotalPreorder(ByFrequency(freq))
  {
  }

  /** mineSubTrees' mining order: the table's keys, least frequent first. */
  function MiningOrder(t: Tree): (r: seq<Item>)
    ensures multiset(r) == multiset(t.order)
    ensures forall i, j :: 0 <= i < j < |r| ==> Get(t.frequent, r[i]) <= Get(t.frequent, r[j])
    ensures NoDup(t.order) ==> NoDup(r)
  {
    ByFrequencyIsPreorder(t.frequent);
    var r := SortBy(t.order, ByFrequency(t.frequent));
    NoDupPermutation(t.order, r);
    r
  }

  // ---------------------------------------------------------------------------
  // What a mined table looks like
  // ---------------------------------------------------------------------------

  /**
   * Which minePatterns: `AsWritten` follows the program; `Corrected` also
   * stores the suffix alone when a conditional tree branches, as
   * generatePatternList does for an unbranched one.
   */
  datatype Variant = AsWritten | Corrected

  /** Every key is sorted and non-empty. */
  predicate WellKeyed(p: PatternMap)
  {
    forall k :: k in p ==> Sorted(k) && |k| > 0
  }

  /** Every key contains `v`. */
  predicate AllContain(p: PatternMap, v: Item)
  {
    forall k :: k in p ==> v in k
  }

  /** Every item of every key is one of the table's items or the suffix. */
  predicate ItemsFrom(p: PatternMap, freq: map<Item, nat>, suffix: Option<Item>)
  {
    forall k, y :: k in p && y in k ==> y in freq || suffix == Some(y)
  }

  /** Every count reaches the threshold. */
  predicate MeetsThreshold(p: PatternMap, threshold: int)
  {
    forall k :: k in p ==> p[k] >= threshold
  }

  /** Every listed item is in the table and reaches the threshold. */
  predicate AllReach(freq: map<Item, nat>, items: seq<Item>, threshold: int)
  {
    forall x :: x in items ==> x in freq && freq[x] >= threshold
  }

  /** The one-item keys of `p` are exactly the listed items, each at its table count. */
  ghost predicate SingletonCounts(p: PatternMap, freq: map<Item, nat>, items: seq<Item>)
  {
    forall y :: Lookup(p, [y]) == if y in items then Get(freq, y) else 0
  }

  /** All that minePatterns promises about the table `r` it returns for a tree built from these arguments. */
  ghost predicate MineOk(ts: seq<Transaction>, threshold: int, rootValue: Option<Item>, rootCount: nat, v: Variant, r: PatternMap)
  {
    && WellKeyed(r)
    && (rootValue.Some? ==> AllContain(r, rootValue.value))
    && ItemsFrom(r, FindFrequentItems(ts, threshold), rootValue)
    && ((rootValue.Some? ==> rootCount >= threshold) ==> MeetsThreshold(r, threshold))
    && (v == Corrected && rootValue.Some? ==> [rootValue.value] in r && r[[rootValue.value]] == rootCount)
    && (v == Corrected && rootValue.None? ==> forall x :: Lookup(r, [x]) == Get(FindFrequentItems(ts, threshold), x))
  }

  // ---------------------------------------------------------------------------
  // minePatterns and mineSubTrees
  // ---------------------------------------------------------------------------

  /** The branching case of minePatterns: the subtree results suffixed, and, when corrected, the suffix alone. */
  function Suffixed(rootValue: Option<Item>, rootCount: nat, sub: PatternMap, v: Variant): (r: PatternMap)
    requires KeysSorted(sub)
    ensures rootValue.None? ==> r == sub
  {
    var z := ZipPatterns(rootValue, sub);
    if v == Corrected && rootValue.Some? then z[[rootValue.value] := rootCount] else z
  }

  /**
   * new FPTree(ts, threshold, rootValue, rootCount).minePatterns(threshold):
   * an unbranched tree lists its subsets directly; otherwise every frequent
   * item's conditional tree is mined and the results are suffixed.
   */
  function Mine(ts: seq<Transaction>, threshold: int, rootValue: Option<Item>, rootCount: nat, v: Variant): (r: PatternMap)
    ensures WellKeyed(r)
    ensures rootValue.Some? ==> AllContain(r, rootValue.value)
    ensures ItemsFrom(r, FindFrequentItems(ts, threshold), rootValue)
    ensures (rootValue.Some? ==> rootCount >= threshold) ==> MeetsThreshold(r, threshold)
    ensures v == Corrected && rootValue.Some? ==> [rootValue.value] in r && r[[rootValue.value]] == rootCount
    ensures v == Corrected && rootValue.None? ==> forall x :: Lookup(r, [x]) == Get(FindFrequentItems(ts, threshold), x)
    decreases MaxLen(ts), 1, 0
  {
    var t := NewTree(ts, threshold, rootValue, rootCount);
    if TreeHasSinglePath(t.nodes, Root) then
      SinglePathOutcome(ts, threshold, rootValue, rootCount, v);
      GeneratePatternList(t)
    else
      BranchingMineable(ts, threshold, rootValue, rootCount);
      var order := MiningOrder(t);
      var sub := MineSubTrees(t, threshold, order, MaxLen(ts), v);
      BranchOutcome(ts, threshold, rootValue, rootCount, v, sub);
      Suffixed(rootValue, rootCount, sub, v)
  }

  /**
   * What the recursive miner needs of a tree: a valid tree whose header
   * table and frequency table have the same items, with no up-path longer
   * than a positive `bound`.
   */
  predicate Mineable(t: Tree, bound: nat)
  {
    && bound >= 1
    && Valid(t)
    && t.headers.Keys == t.frequent.Keys
    && DepthBounded(t.nodes, bound)
  }

  /**
   * mineSubTrees over the items of `items`, in order: mine the conditional
   * tree of each and add its table into the running one.
   */
  function MineSubTrees(t: Tree, threshold: int, items: seq<Item>, bound: nat, v: Variant): (r: PatternMap)
    requires Mineable(t, bound)
    requires forall x :: x in items ==> x in t.frequent
    ensures WellKeyed(r)
    ensures ItemsFrom(r, t.frequent, None)
    ensures AllReach(t.frequent, items, threshold) ==> MeetsThreshold(r, threshold)
    ensures v == Corrected && NoDup(items) ==> SingletonCounts(r, t.frequent, items)
    decreases bound, 0, |items|, 0
  {
    if items == [] then map[]
    else
      var acc := MineSubTrees(t, threshold, items[..|items| - 1], bound, v);
      AddItem(t, threshold, items, bound, v, acc)
  }

  /** One round of mineSubTrees: mine the last item's conditional tree and add its table into `acc`. */
  function AddItem(t: Tree, threshold: int, items: seq<Item>, bound: nat, v: Variant, acc: PatternMap): (r: PatternMap)
    requires Mineable(t, bound)
    requires |items| > 0 && forall x :: x in items ==> x in t.frequent
    requires WellKeyed(acc)
    requires ItemsFrom(acc, t.frequent, None)
    requires AllReach(t.frequent, items[..|items| - 1], threshold) ==> MeetsThreshold(acc, threshold)
    requires v == Corrected && NoDup(items[..|items| - 1]) ==> SingletonCounts(acc, t.frequent, items[..|items| - 1])
    ensures WellKeyed(r)
    ensures ItemsFrom(r, t.frequent, None)
    ensures AllReach(t.frequent, items, threshold) ==> MeetsThreshold(r, threshold)
    ensures v == Corrected && NoDup(items) ==> SingletonCounts(r, t.frequent, items)
    decreases bound, 0, |items| - 1, 1
  {
    var m := MineItem(t, threshold, items[|items| - 1], bound, v);
    SubTreeStep(t.frequent, threshold, items, v, acc, m);
    MergeSum(acc, m)
  }

  /**
   * One round of mineSubTrees: build the conditional input of `x` from its
   * node chain and mine it with `x` as suffix and x's count as root count.
   */
  function MineItem(t: Tree, threshold: int, x: Item, bound: nat, v: Variant): (r: PatternMap)
    requires Mineable(t, bound)
    requires x in t.frequent
    ensures WellKeyed(r) && AllContain(r, x)
    ensures ItemsFrom(r, t.frequent, None)
    ensures t.frequent[x] >= threshold ==> MeetsThreshold(r, threshold)
    ensures v == Corrected ==> [x] in r && r[[x]] == t.frequent[x]
    decreases bound, 0, 0, 0
  {
    var cond := ConditionalInput(t, x);
    ConditionalInputFacts(t, x, bound);
    var m := Mine(cond, threshold, Some(x), t.frequent[x], v);
    ItemsWiden(m, cond, threshold, t.frequent, x);
    m
  }

  lemma MineItemIs(t: Tree, threshold: int, x: Item, bound: nat, v: Variant)
    requires Mineable(t, bound)
    requires x in t.frequent
    ensures MineItem(t, threshold, x, bound, v) == Mine(ConditionalInput(t, x), threshold, Some(x), t.frequent[x], v)
  {
  }

  /** Items of a conditional table are frequent in the conditional input or the suffix, hence frequent in the tree. */
  lemma ItemsWiden(m: PatternMap, cond: seq<Transaction>, threshold: int, freq: map<Item, nat>, x: Item)
    requires ItemsFrom(m, FindFrequentItems(cond, threshold), Some(x))
    requires forall y :: y in Concat(cond) ==> y in freq
    requires x in freq
    ensures ItemsFrom(m, freq, None)
  {
    forall k, y | k in m && y in k ensures y in freq {
      if y != x {
        assert y in FindFrequentItems(cond, threshold);
      }
    }
  }

  /** A branching tree built from `ts` is fit for the recursive miner with the longest transaction as bound. */
  lemma BranchingMineable(ts: seq<Transaction>, threshold: int, rootValue: Option<Item>, rootCount: nat)
    requires !TreeHasSinglePath(NewTree(ts, threshold, rootValue, rootCount).nodes, Root)
    ensures Mineable(NewTree(ts, threshold, rootValue, rootCount), MaxLen(ts))
    ensures var t := NewTree(ts, threshold, rootValue, rootCount);
      && (forall y :: y in MiningOrder(t) ==> y in t.frequent)
      && AllReach(t.frequent, MiningOrder(t), threshold)
  {
    var t := NewTree(ts, threshold, rootValue, rootCount);
    NewTreeDepth(ts, threshold, rootValue, rootCount);
    BranchingIsDeep(t, MaxLen(ts));
    var order := MiningOrder(t);
    forall y | y in order ensures y in t.frequent && t.frequent[y] >= threshold {
      assert y in multiset(order);
      assert y in t.order;
    }
  }

  /** A branching tree has a node below the root, so its depth bound is at least one. */
  lemma BranchingIsDeep(t: Tree, bound: nat)
    requires Valid(t) && DepthBounded(t.nodes, bound)
    requires !TreeHasSinglePath(t.nodes, Root)
    ensures bound >= 1
  {
    assert ChildrenOkAt(t.nodes, Root);
    var c := t.nodes[Root].children[0];
    assert UpPath(t.nodes, c) != [];
    assert |UpPath(t.nodes, c)| <= bound;
  }

  /** The single subset [x] of a list holding `x` is among its subsets, and its key is [x] itself. */
  lemma SingletonSubset(items: seq<Item>, x: Item)
    requires x in items
    ensures [x] in SubsetsFrom(items, 1)
    ensures PatternKey([x], []) == [x]
  {
    var i :| 0 <= i < |items| && items[i] == x;
    assert IsSelection([i], |items|, 1, 0);
    SubsetsFromComplete(items, 1, 1, [i]);
    assert Pick(items, [i]) == [x];
    assert [x] + [] == [x];
    SortItemsOfSorted([x]);
  }

  /** The keys of generatePatternList: the root entry or a subset plus the suffix, sorted. */
  lemma SinglePathKeyOrigin(t: Tree)
    requires |t.nodes| > 0 && forall x :: x in t.order ==> x in t.frequent
    ensures var root := t.nodes[Root];
      forall k :: k in GeneratePatternList(t) && k !in RootEntry(root.item, root.count) ==>
        exists s :: s in SubsetsFrom(t.order, 1) && k == PatternKey(s, SuffixOf(root.item))
  {
    GeneratePatternListKeys(t);
  }

  /** generatePatternList mentions only table items and the suffix, and with a suffix every key holds it. */
  lemma SinglePathItems(t: Tree)
    requires |t.nodes| > 0 && forall x :: x in t.order ==> x in t.frequent
    ensures ItemsFrom(GeneratePatternList(t), t.frequent, t.nodes[Root].item)
    ensures t.nodes[Root].item.Some? ==> AllContain(GeneratePatternList(t), t.nodes[Root].item.value)
  {
    var root := t.nodes[Root];
    var r := GeneratePatternList(t);
    var subsets := SubsetsFrom(t.order, 1);
    var suffix := SuffixOf(root.item);
    SinglePathKeyOrigin(t);
    SubsetsFromMembers(t.order, 1);
    forall k, y | k in r && y in k ensures y in t.frequent || root.item == Some(y) {
      if k !in RootEntry(root.item, root.count) {
        var s :| s in subsets && k == PatternKey(s, suffix);
        assert y in multiset(k);
      }
    }
    if root.item.Some? {
      forall k | k in r ensures root.item.value in k {
        if k !in RootEntry(root.item, root.count) {
          var s :| s in subsets && k == PatternKey(s, suffix);
          assert root.item.value in multiset(k);
        }
      }
    }
  }

  /** When the table's counts and the root's count reach the threshold, so do all of generatePatternList's. */
  lemma SinglePathThreshold(t: Tree, threshold: int)
    requires |t.nodes| > 0 && forall x :: x in t.order ==> x in t.frequent
    requires forall x :: x in t.frequent ==> t.frequent[x] >= threshold
    requires t.nodes[Root].item.Some? ==> t.nodes[Root].count >= threshold
    ensures MeetsThreshold(GeneratePatternList(t), threshold)
  {
    var root := t.nodes[Root];
    var r := GeneratePatternList(t);
    var subsets := SubsetsFrom(t.order, 1);
    var suffix := SuffixOf(root.item);
    SinglePathKeyOrigin(t);
    GeneratePatternListValues(t);
    GeneratePatternListKeys(t);
    forall k | k in r ensures r[k] >= threshold {
      if k !in RootEntry(root.item, root.count) {
        var s :| s in subsets && k == PatternKey(s, suffix);
        MinFrequencyReaches(t.frequent, s, threshold);
      }
    }
  }

  /** The least count among items that all reach the threshold reaches it too. */
  lemma MinFrequencyReaches(freq: map<Item, nat>, s: seq<Item>, threshold: int)
    requires s != [] && forall x :: x in s ==> x in freq
    requires forall x :: x in freq ==> freq[x] >= threshold
    ensures MinFrequency(freq, s).value >= threshold
  {
    var i :| 0 <= i < |s| && freq[s[i]] == MinFrequency(freq, s).value;
    assert s[i] in s;
  }

  /** At top level generatePatternList reports every table item alone, at its table count. */
  lemma SinglePathSingletons(t: Tree)
    requires |t.nodes| > 0 && forall x :: x in t.order <==> x in t.frequent
    requires t.nodes[Root].item.None?
    ensures forall x :: Lookup(GeneratePatternList(t), [x]) == Get(t.frequent, x)
  {
    var r := GeneratePatternList(t);
    GeneratePatternListValues(t);
    SinglePathItems(t);
    forall x ensures Lookup(r, [x]) == Get(t.frequent, x) {
      assert x in [x];
      if x in t.frequent {
        SingletonSubset(t.order, x);
        assert MinFrequency(t.frequent, [x]).value == t.frequent[x];
      }
    }
  }

  /** In the unbranched case the table of generatePatternList keeps every promise of minePatterns. */
  lemma SinglePathOutcome(ts: seq<Transaction>, threshold: int, rootValue: Option<Item>, rootCount: nat, v: Variant)
    ensures var t := NewTree(ts, threshold, rootValue, rootCount);
      MineOk(ts, threshold, rootValue, rootCount, v, GeneratePatternList(t))
  {
    var t := NewTree(ts, threshold, rootValue, rootCount);
    GeneratePatternListSorted(t);
    GeneratePatternListKeys(t);
    SinglePathItems(t);
    if rootValue.Some? ==> rootCount >= threshold {
      SinglePathThreshold(t, threshold);
    }
    if rootValue.None? {
      SinglePathSingletons(t);
    }
  }

  /** Every suffixed key comes from a key of the subtree table. */
  lemma ZipOrigin(x: Item, sub: PatternMap, k: seq<Item>)
    requires KeysSorted(sub) && k in ZipPatterns(Some(x), sub)
    ensures exists k0 :: k0 in sub && k == PatternKey(k0, [x]) && ZipPatterns(Some(x), sub)[k] == sub[k0]
  {
    ZipPatternsSpec(Some(x), sub);
    var k0 :| k0 in sub && k == PatternKey(k0, [x]);
  }

  /** The items of a suffixed key are those of the old key and the suffix. */
  lemma ZipKeyItems(x: Item, k0: seq<Item>, y: Item)
    ensures y in PatternKey(k0, [x]) ==> y in k0 || y == x
  {
    var k := PatternKey(k0, [x]);
    assert multiset(k) == multiset(k0) + multiset{x};
    if y in k && y != x {
      assert multiset(k)[y] > 0;
      assert multiset(k0)[y] > 0;
    }
  }

  /** zipPatterns in a conditional tree: the suffix joins every key, which stays sorted and gains an item; counts stay. */
  lemma ZipOutcome(x: Item, sub: PatternMap, freq: map<Item, nat>, threshold: int)
    requires WellKeyed(sub) && ItemsFrom(sub, freq, None)
    ensures var z := ZipPatterns(Some(x), sub);
      && KeysSorted(z)
      && AllContain(z, x)
      && (forall k :: k in z ==> |k| > 1)
      && ItemsFrom(z, freq, Some(x))
      && (MeetsThreshold(sub, threshold) ==> MeetsThreshold(z, threshold))
  {
    var z := ZipPatterns(Some(x), sub);
    ZipPatternsKeys(Some(x), sub);
    forall k | k in z ensures |k| > 1 && (forall y :: y in k ==> y in freq || Some(x) == Some(y)) && (MeetsThreshold(sub, threshold) ==> z[k] >= threshold) {
      ZipOrigin(x, sub, k);
      var k0 :| k0 in sub && k == PatternKey(k0, [x]) && z[k] == sub[k0];
      forall y | y in k ensures y in freq || Some(x) == Some(y) {
        ZipKeyItems(x, k0, y);
      }
    }
  }

  /** Suffixing in a conditional tree keeps the promises of the subtree table and adds the suffix to every key. */
  lemma SuffixedOutcome(x: Item, rootCount: nat, sub: PatternMap, v: Variant, freq: map<Item, nat>, threshold: int)
    requires WellKeyed(sub) && ItemsFrom(sub, freq, None) && MeetsThreshold(sub, threshold)
    ensures var r := Suffixed(Some(x), rootCount, sub, v);
      && WellKeyed(r)
      && AllContain(r, x)
      && ItemsFrom(r, freq, Some(x))
      && (rootCount >= threshold ==> MeetsThreshold(r, threshold))
      && (v == Corrected ==> [x] in r && r[[x]] == rootCount)
  {
    ZipOutcome(x, sub, freq, threshold);
    if v == Corrected {
      SuffixEntry(x, rootCount, ZipPatterns(Some(x), sub), freq, threshold);
    }
  }

  /** Adding the suffix alone, at the root's count, to a suffixed table keeps its promises. */
  lemma SuffixEntry(x: Item, rootCount: nat, z: PatternMap, freq: map<Item, nat>, threshold: int)
    requires KeysSorted(z) && AllContain(z, x) && (forall k :: k in z ==> |k| > 1) && ItemsFrom(z, freq, Some(x))
    ensures var r := z[[x] := rootCount];
      && WellKeyed(r)
      && AllContain(r, x)
      && ItemsFrom(r, freq, Some(x))
      && (rootCount >= threshold && MeetsThreshold(z, threshold) ==> MeetsThreshold(r, threshold))
  {
    assert Sorted([x]);
    assert x in [x];
    assert forall y :: y in [x] ==> y == x;
  }

  /** In the branching case the suffixed subtree table keeps every promise of minePatterns. */
  lemma BranchOutcome(ts: seq<Transaction>, threshold: int, rootValue: Option<Item>, rootCount: nat, v: Variant, sub: PatternMap)
    requires var t := NewTree(ts, threshold, rootValue, rootCount);
      && WellKeyed(sub)
      && ItemsFrom(sub, t.frequent, None)
      && MeetsThreshold(sub, threshold)
      && (v == Corrected && NoDup(t.order) ==> SingletonCounts(sub, t.frequent, MiningOrder(t)))
    ensures MineOk(ts, threshold, rootValue, rootCount, v, Suffixed(rootValue, rootCount, sub, v))
  {
    var t := NewTree(ts, threshold, rootValue, rootCount);
    if rootValue.Some? {
      SuffixedOutcome(rootValue.value, rootCount, sub, v, t.frequent, threshold);
    } else if v == Corrected {
      var order := MiningOrder(t);
      forall y ensures Lookup(sub, [y]) == Get(t.frequent, y) {
        assert y in order <==> y in multiset(order);
      }
    }
  }

  /** One round of mineSubTrees keeps its promises: the new conditional table only adds keys holding `x`. */
  lemma SubTreeStep(freq: map<Item, nat>, threshold: int, items: seq<Item>, v: Variant, acc: PatternMap, m: PatternMap)
    requires |items| > 0 && forall x :: x in items ==> x in freq
    requires var n := |items|;
      var x := items[n - 1];
      && WellKeyed(acc)
      && ItemsFrom(acc, freq, None)
      && (AllReach(freq, items[..n - 1], threshold) ==> MeetsThreshold(acc, threshold))
      && (v == Corrected && NoDup(items[..n - 1]) ==> SingletonCounts(acc, freq, items[..n - 1]))
      && WellKeyed(m) && AllContain(m, x)
      && ItemsFrom(m, freq, None)
      && (freq[x] >= threshold ==> MeetsThreshold(m, threshold))
      && (v == Corrected ==> [x] in m && m[[x]] == freq[x])
    ensures var r := MergeSum(acc, m);
      && WellKeyed(r)
      && ItemsFrom(r, freq, None)
      && (AllReach(freq, items, threshold) ==> MeetsThreshold(r, threshold))
      && (v == Corrected && NoDup(items) ==> SingletonCounts(r, freq, items))
  {
    var n := |items|;
    var x := items[n - 1];
    var r := MergeSum(acc, m);
    assert items == items[..n - 1] + [x];
    if AllReach(freq, items, threshold) {
      assert x in items;
      forall k | k in r ensures r[k] >= threshold {
        assert Lookup(r, k) == Lookup(acc, k) + Lookup(m, k);
      }
    }
    if v == Corrected && NoDup(items) {
      NoDupSnoc(items);
      forall y ensures Lookup(r, [y]) == if y in items then Get(freq, y) else 0 {
        assert [y] in m ==> x in [y];
      }
    }
  }

  // ---------------------------------------------------------------------------
  // findFrequentPatterns
  // ---------------------------------------------------------------------------

  /**
   * findFrequentPatterns(transactions, threshold), with the suffix kept in
   * branching conditional trees: every key is a sorted list of frequent items
   * whose count reaches the threshold, and each frequent item is reported on
   * its own with its support.
   */
  function FindFrequentPatterns(ts: seq<Transaction>, threshold: int): (r: PatternMap)
    ensures WellKeyed(r)
    ensures forall k, y :: k in r && y in k ==> y in Concat(ts) && Occurrences(ts, y) >= threshold
    ensures MeetsThreshold(r, threshold)
    ensures forall x :: [x] in r <==> x in Concat(ts) && Occurrences(ts, x) >= threshold
    ensures forall x :: [x] in r ==> r[[x]] == Occurrences(ts, x)
  {
    var r := Mine(ts, threshold, None, 0, Corrected);
    SingletonsAreSupports(ts, threshold, r);
    r
  }

  /** A table whose one-item entries are the frequent-item table reports exactly the frequent items, at their supports. */
  lemma SingletonsAreSupports(ts: seq<Transaction>, threshold: int, r: PatternMap)
    requires forall x :: Lookup(r, [x]) == Get(FindFrequentItems(ts, threshold), x)
    requires forall k, y :: k in r && y in k ==> y in Concat(ts) && Occurrences(ts, y) >= threshold
    ensures forall x :: [x] in r <==> x in Concat(ts) && Occurrences(ts, x) >= threshold
    ensures forall x :: [x] in r ==> r[[x]] == Occurrences(ts, x)
  {
    var freq := FindFrequentItems(ts, threshold);
    forall x ensures [x] in r <==> x in Concat(ts) && Occurrences(ts, x) >= threshold
      ensures [x] in r ==> r[[x]] == Occurrences(ts, x)
    {
      assert Lookup(r, [x]) == Get(freq, x);
      assert x in [x];
    }
  }

  /** The program as written: the same miner without the suffix entry of branching conditional trees. */
  function FindFrequentPatternsAsWritten(ts: seq<Transaction>, threshold: int): (r: PatternMap)
    ensures WellKeyed(r)
    ensures forall k, y :: k in r && y in k ==> y in Concat(ts) && Occurrences(ts, y) >= threshold
    ensures MeetsThreshold(r, threshold)
  {
    Mine(ts, threshold, None, 0, AsWritten)
  }

  /**
   * As written, a conditional tree that branches never reports its suffix
   * item alone: all its keys have the suffix and at least one more item.
   */
  lemma AsWrittenDropsSuffix(ts: seq<Transaction>, threshold: int, x: Item, rootCount: nat)
    requires !TreeHasSinglePath(NewTree(ts, threshold, Some(x), rootCount).nodes, Root)
    ensures [x] !in Mine(ts, threshold, Some(x), rootCount, AsWritten)
  {
    var t := NewTree(ts, threshold, Some(x), rootCount);
    BranchingMineable(ts, threshold, Some(x), rootCount);
    var sub := MineSubTrees(t, threshold, MiningOrder(t), MaxLen(ts), AsWritten);
    ZipPatternsSpec(Some(x), sub);
    forall k | k in ZipPatterns(Some(x), sub) ensures |k| >= 2 {
      var k0 :| k0 in sub && k == PatternKey(k0, [x]);
    }
  }

  /** A one-item key [x] in mineSubTrees' table can only come from the conditional tree of `x`. */
  lemma {:induction false} SubTreesSingleton(t: Tree, threshold: int, items: seq<Item>, bound: nat, v: Variant, x: Item)
    requires Mineable(t, bound)
    requires forall y :: y in items ==> y in t.frequent
    ensures [x] in MineSubTrees(t, threshold, items, bound, v) ==>
      x in items && [x] in MineItem(t, threshold, x, bound, v)
    decreases |items|
  {
    if items != [] {
      PrefixWithin(items, t.frequent);
      SubTreesSingleton(t, threshold, items[..|items| - 1], bound, v, x);
      SubTreesSingletonStep(t, threshold, items, bound, v, x);
    }
  }

  /** The inductive step of SubTreesSingleton, from the table of all but the last item to the whole table. */
  lemma SubTreesSingletonStep(t: Tree, threshold: int, items: seq<Item>, bound: nat, v: Variant, x: Item)
    requires Mineable(t, bound)
    requires |items| > 0 && forall y :: y in items ==> y in t.frequent
    requires forall y :: y in items[..|items| - 1] ==> y in t.frequent
    requires [x] in MineSubTrees(t, threshold, items[..|items| - 1], bound, v) ==>
      x in items[..|items| - 1] && [x] in MineItem(t, threshold, x, bound, v)
    ensures [x] in MineSubTrees(t, threshold, items, bound, v) ==>
      x in items && [x] in MineItem(t, threshold, x, bound, v)
  {
    SubTreesUnfold(t, threshold, items, bound, v);
    var acc := SubTreesTable(t, threshold, items[..|items| - 1], bound, v);
    var m := ItemTable(t, threshold, items[|items| - 1], bound, v);
    var mx := ItemTable(t, threshold, x, bound, v);
    SingletonStep(acc, m, mx, items[..|items| - 1], items[|items| - 1], x);
    MemberSnoc(items, x);
  }

  /** The front part of a list of frequent items holds frequent items only. */
  lemma PrefixWithin(items: seq<Item>, freq: map<Item, nat>)
    requires |items| > 0 && forall y :: y in items ==> y in freq
    ensures forall y :: y in items[..|items| - 1] ==> y in freq
  {
    forall y | y in items[..|items| - 1] ensures y in freq {
      MemberSnoc(items, y);
    }
  }

  /** One step of SubTreesSingleton: a one-item key of a merged table comes from one of its parts. */
  lemma SingletonStep(acc: PatternMap, m: PatternMap, mx: PatternMap, prefix: seq<Item>, y: Item, x: Item)
    requires AllContain(m, y)
    requires [x] in acc ==> x in prefix && [x] in mx
    requires x == y ==> m == mx
    ensures [x] in MergeSum(acc, m) ==> (x in prefix || x == y) && [x] in mx
  {
    if [x] in MergeSum(acc, m) && [x] !in acc {
      assert y in [x];
    }
  }

  /** mineSubTrees over a non-empty list: the table for all but the last item, plus the last item's table. */
  lemma SubTreesUnfold(t: Tree, threshold: int, items: seq<Item>, bound: nat, v: Variant)
    requires Mineable(t, bound)
    requires |items| > 0 && forall y :: y in items ==> y in t.frequent
    ensures MineSubTrees(t, threshold, items, bound, v)
      == MergeSum(MineSubTrees(t, threshold, items[..|items| - 1], bound, v), MineItem(t, threshold, items[|items| - 1], bound, v))
  {
  }

  /** Names mineSubTrees' table for `items`. */
  lemma SubTreesTable(t: Tree, threshold: int, items: seq<Item>, bound: nat, v: Variant) returns (r: PatternMap)
    requires Mineable(t, bound)
    requires forall y :: y in items ==> y in t.frequent
    ensures r == MineSubTrees(t, threshold, items, bound, v)
  {
    r := MineSubTrees(t, threshold, items, bound, v);
  }

  /** Names the table mined from the conditional tree of `x`, when `x` is frequent. */
  lemma ItemTable(t: Tree, threshold: int, x: Item, bound: nat, v: Variant) returns (r: PatternMap)
    requires Mineable(t, bound)
    ensures x in t.frequent ==> r == MineItem(t, threshold, x, bound, v) && AllContain(r, x)
  {
    r := if x in t.frequent then MineItem(t, threshold, x, bound, v) else map[];
  }

  /**
   * As written, a frequent item whose conditional tree branches is missing
   * from the top-level table altogether, although it meets the threshold.
   */
  lemma AsWrittenMissesItem(ts: seq<Transaction>, threshold: int, x: Item)
    requires var t := NewTree(ts, threshold, None, 0);
      && !TreeHasSinglePath(t.nodes, Root)
      && x in t.frequent
      && !TreeHasSinglePath(NewTree(ConditionalInput(t, x), threshold, Some(x), t.frequent[x]).nodes, Root)
    ensures x in Concat(ts) && Occurrences(ts, x) >= threshold
    ensures [x] !in FindFrequentPatternsAsWritten(ts, threshold)
  {
    var t := NewTree(ts, threshold, None, 0);
    BranchingMineable(ts, threshold, None, 0);
    var order := MiningOrder(t);
    SubTreesSingleton(t, threshold, order, MaxLen(ts), AsWritten, x);
    MineItemIs(t, threshold, x, MaxLen(ts), AsWritten);
    AsWrittenDropsSuffix(ConditionalInput(t, x), threshold, x, t.frequent[x]);
  }

  /** With the suffix entry restored the same conditional tree reports it at the tree's count. */
  lemma CorrectedKeepsSuffix(ts: seq<Transaction>, threshold: int, x: Item, rootCount: nat)
    ensures [x] in Mine(ts, threshold, Some(x), rootCount, Corrected)
    ensures Mine(ts, threshold, Some(x), rootCount, Corrected)[[x]] == rootCount
  {
  }

  /** A one-item transaction whose item is frequent is kept as it is. */
  lemma PrepareSingle(freq: map<Item, nat>, y: Item)
    requires y in freq
    ensures PrepareTransaction(freq, [y]) == [y]
  {
    var r := PrepareTransaction(freq, [y]);
    assert y in r;
  }

  /** Adding a one-item transaction [y] with y frequent to a tree whose root has no `y` child appends a new child to the root. */
  lemma AddNewRootChild(t: Tree, y: Item)
    requires Valid(t) && y in t.frequent
    requires forall c :: c in t.nodes[Root].children && c < |t.nodes| ==> t.nodes[c].item != Some(y)
    ensures var r := AddTransaction(t, [y]);
      && r.nodes[Root].children == t.nodes[Root].children + [|t.nodes|]
      && |r.nodes| == |t.nodes| + 1
      && r.nodes[|t.nodes|].item == Some(y)
      && (forall i :: 0 <= i < |t.nodes| ==> r.nodes[i].item == t.nodes[i].item)
  {
    PrepareSingle(t.frequent, y);
    assert ChildrenOkAt(t.nodes, Root);
    assert GetChild(t.nodes, Root, y).None?;
  }

  /** In two one-item transactions [a] and [b] with a != b, each item occurs once. */
  lemma TwoSingletonsFrequent(a: Item, b: Item, threshold: int)
    requires a != b && threshold <= 1
    ensures var f := FindFrequentItems([[a], [b]], threshold);
      a in f && b in f
  {
    var ts: seq<Transaction> := [[a], [b]];
    assert Concat(ts) == [a] + Concat(ts[1..]);
    assert Concat(ts[1..]) == [b] + Concat(ts[1..][1..]);
    assert Concat(ts) == [a, b];
    assert multiset(Concat(ts))[a] == 1 && multiset(Concat(ts))[b] == 1;
  }

  /** A tree built from two transactions: the lone root, then each transaction added in turn. */
  lemma NewTreeOfTwo(ts: seq<Transaction>, threshold: int, rootValue: Option<Item>, rootCount: nat)
    requires |ts| == 2
    ensures var t0 := EmptyTree(ts, threshold, rootValue, rootCount);
      NewTree(ts, threshold, rootValue, rootCount) == AddTransaction(AddTransaction(t0, ts[0]), ts[1])
  {
    var t0 := EmptyTree(ts, threshold, rootValue, rootCount);
    assert NewTree(ts, threshold, rootValue, rootCount) == InsertAll(t0, ts);
    assert ts == [ts[0], ts[1]];
    InsertTwo(t0, ts[0], ts[1]);
  }

  /** Inserting two transactions is adding the first, then the second. */
  lemma InsertTwo(t: Tree, a: Transaction, b: Transaction)
    requires Valid(t)
    ensures InsertAll(t, [a, b]) == AddTransaction(AddTransaction(t, a), b)
  {
    var t1 := AddTransaction(t, a);
    assert [a, b][1..] == [b] && [b][1..] == [];
    assert InsertAll(t, [a, b]) == InsertAll(t1, [b]);
    assert InsertAll(t1, [b]) == InsertAll(AddTransaction(t1, b), []);
  }

  /** Two one-item transactions with different frequent items grow two branches below the root. */
  lemma TwoSingletonsBranch(a: Item, b: Item, threshold: int, rootValue: Option<Item>, rootCount: nat)
    requires a != b && threshold <= 1
    ensures !TreeHasSinglePath(NewTree([[a], [b]], threshold, rootValue, rootCount).nodes, Root)
  {
    var ts: seq<Transaction> := [[a], [b]];
    TwoSingletonsFrequent(a, b, threshold);
    var t0 := EmptyTree(ts, threshold, rootValue, rootCount);
    TwoRootChildren(t0, a, b);
    NewTreeOfTwo(ts, threshold, rootValue, rootCount);
  }

  /** Adding [a] and then [b] to the lone root gives the root two children. */
  lemma TwoRootChildren(t: Tree, a: Item, b: Item)
    requires Valid(t) && a in t.frequent && b in t.frequent && a != b
    requires |t.nodes| == 1 && t.nodes[Root].children == []
    ensures |AddTransaction(AddTransaction(t, [a]), [b]).nodes[Root].children| == 2
  {
    AddNewRootChild(t, a);
    var t1 := AddTransaction(t, [a]);
    assert t1.nodes[Root].children == [1];
    AddNewRootChild(t1, b);
  }

  /**
   * The lost pattern, from the conditional level.  Traced by hand (not proved
   * here), transactions [a,x], [b,x], [a], [b], [a,b] at threshold 1 give `x`
   * (support 2) the conditional input [[a], [b]].  Its tree branches: as
   * written the table has no [x], while the corrected miner reports [x] with
   * count 2.
   */
  lemma SuffixLostExample()
    ensures ["x"] !in Mine([["a"], ["b"]], 1, Some("x"), 2, AsWritten)
    ensures ["x"] in Mine([["a"], ["b"]], 1, Some("x"), 2, Corrected)
    ensures Mine([["a"], ["b"]], 1, Some("x"), 2, Corrected)[["x"]] == 2
  {
    TwoSingletonsBranch("a", "b", 1, Some("x"), 2);
    AsWrittenDropsSuffix([["a"], ["b"]], 1, "x", 2);
  }
}

=== FILE: patterns.dfy ===
/**
 * Pattern tables: the single-path enumeration (generatePatternList with
 * getMinFrequency), suffixing in a conditional tree (zipPatterns), and the
 * summing merge of subtree results.
 */
module Patterns {
  import opened Transactions
  import opened Sorting
  import opened LexOrder
  import opened FPTree
  import opened Selections

  /** A pattern table: sorted item lists mapped to support counts. */
  type PatternMap = map<seq<Item>, nat>

  function Lookup(p: PatternMap, k: seq<Item>): nat
  {
    if k in p then p[k] else 0
  }

  // ---------------------------------------------------------------------------
  // getMinFrequency
  // ---------------------------------------------------------------------------

  /**
   * The smallest table count among the listed items, scanning left to right;
   * None stands for Double.MAX_VALUE, the answer for an empty list.
   */
  function MinFrequency(freq: map<Item, nat>, s: seq<Item>): (r: Option<nat>)
    requires forall x :: x in s ==> x in freq
    ensures r.None? <==> s == []
    ensures r.Some? ==> exists i :: 0 <= i < |s| && freq[s[i]] == r.value
    ensures r.Some? ==> forall i :: 0 <= i < |s| ==> r.value <= freq[s[i]]
    decreases |s|
  {
    if s == [] then None
    else
      var m := MinFrequency(freq, s[..|s| - 1]);
      var f := freq[s[|s| - 1]];
      assert forall i :: 0 <= i < |s| - 1 ==> s[..|s| - 1][i] == s[i];
      Some(if m.Some? && m.value < f then m.value else f)
  }

  /** The minimum depends only on which items are listed. */
  lemma MinFrequencySameItems(freq: map<Item, nat>, a: seq<Item>, b: seq<Item>)
    requires forall x :: x in a ==> x in freq
    requires forall x :: x in a <==> x in b
    ensures MinFrequency(freq, a) == MinFrequency(freq, b)
  {
    var ma := MinFrequency(freq, a);
    var mb := MinFrequency(freq, b);
    if a != [] {
      assert a[0] in b;
      var i :| 0 <= i < |a| && freq[a[i]] == ma.value;
      var j :| 0 <= j < |b| && freq[b[j]] == mb.value;
      assert a[i] in b;
      var i' :| 0 <= i' < |b| && b[i'] == a[i];
      assert mb.value <= ma.value;
      assert b[j] in a;
      var j' :| 0 <= j' < |a| && a[j'] == b[j];
      assert ma.value <= mb.value;
    }
  }

  // ---------------------------------------------------------------------------
  // generatePatternList
  // ---------------------------------------------------------------------------

  /** The suffix of a tree: its root item, if it is a conditional tree. */
  function SuffixOf(root: Option<Item>): (r: seq<Item>)
    ensures |r| <= 1
  {
    if root.Some? then [root.value] else []
  }

  /** The key under which a subset is stored: the subset plus the suffix, sorted. */
  function PatternKey(s: seq<Item>, suffix: seq<Item>): (r: seq<Item>)
    ensures Sorted(r)
    ensures multiset(r) == multiset(s) + multiset(suffix)
    ensures |r| == |s| + |suffix|
  {
    SortItems(s + suffix)
  }

  /** Two subsets share a key exactly when they hold the same items with the same multiplicities. */
  lemma PatternKeyCanonical(a: seq<Item>, b: seq<Item>, suffix: seq<Item>)
    ensures PatternKey(a, suffix) == PatternKey(b, suffix) <==> multiset(a) == multiset(b)
  {
    SortItemsCanonical(a + suffix, b + suffix);
    assert multiset(a + suffix) == multiset(a) + multiset(suffix);
    assert multiset(b + suffix) == multiset(b) + multiset(suffix);
    if multiset(a + suffix) == multiset(b + suffix) {
      assert multiset(a) == multiset(a + suffix) - multiset(suffix);
      assert multiset(b) == multiset(b + suffix) - multiset(suffix);
    }
  }

  /** All subsets of sizes k..|items|, size by size, each size in combinations order. */
  function SubsetsFrom(items: seq<Item>, k: nat): seq<seq<Item>>
    decreases |items| + 1 - k
  {
    if k > |items| then [] else Combinations(items, k) + SubsetsFrom(items, k + 1)
  }

  /** Each listed subset is non-empty (for k >= 1), at most |items| long, and drawn from `items`. */
  lemma {:induction false} SubsetsFromMembers(items: seq<Item>, k: nat)
    requires k >= 1
    ensures forall s :: s in SubsetsFrom(items, k) ==>
      k <= |s| <= |items| && (forall x :: x in s ==> x in items) && (NoDup(items) ==> NoDup(s))
    decreases |items| + 1 - k
  {
    if k <= |items| {
      CombinationsMembers(items, k);
      SubsetsFromMembers(items, k + 1);
    }
  }

  /** Every selection of k..|items| positions is listed. */
  lemma {:induction false} SubsetsFromComplete(items: seq<Item>, k: nat, m: nat, c: seq<nat>)
    requires k <= m <= |items| && IsSelection(c, |items|, m, 0)
    ensures Pick(items, c) in SubsetsFrom(items, k)
    decreases |items| + 1 - k
  {
    if m == k {
      CombinationsComplete(items, k, c);
    } else {
      SubsetsFromComplete(items, k + 1, m, c);
    }
  }

  /** Stores each subset under its key with its minimum frequency, in list order (later entries overwrite). */
  function PutSubsets(p: PatternMap, subsets: seq<seq<Item>>, suffix: seq<Item>, freq: map<Item, nat>): (r: PatternMap)
    requires forall s, x :: s in subsets && x in s ==> x in freq
    requires forall s :: s in subsets ==> s != []
    ensures forall k :: k in r <==> k in p || exists s :: s in subsets && k == PatternKey(s, suffix)
    decreases |subsets|
  {
    if subsets == [] then p
    else
      var s := subsets[0];
      MemberCons(subsets);
      assert s in subsets;
      var p' := p[PatternKey(s, suffix) := MinFrequency(freq, s).value];
      var r := PutSubsets(p', subsets[1..], suffix, freq);
      PutSubsetsKeysStep(p, p', subsets, suffix, r);
      r
  }

  /** Storing the first subset's key and then the rest's stores every subset's key. */
  lemma PutSubsetsKeysStep(p: PatternMap, p': PatternMap, subsets: seq<seq<Item>>, suffix: seq<Item>, r: PatternMap)
    requires |subsets| > 0
    requires p'.Keys == p.Keys + {PatternKey(subsets[0], suffix)}
    requires forall k :: k in r <==> k in p' || exists s :: s in subsets[1..] && k == PatternKey(s, suffix)
    ensures forall k :: k in r <==> k in p || exists s :: s in subsets && k == PatternKey(s, suffix)
  {
    MemberCons(subsets);
    forall k ensures k in r <==> k in p || exists s :: s in subsets && k == PatternKey(s, suffix) {
      if k == PatternKey(subsets[0], suffix) {
        assert subsets[0] in subsets;
      }
    }
  }

  /**
   * Whatever entry wins at a subset's key, its value is that subset's minimum
   * frequency: subsets sharing a key hold the same items.
   */
  lemma {:induction false} PutSubsetsValues(p: PatternMap, subsets: seq<seq<Item>>, suffix: seq<Item>, freq: map<Item, nat>)
    requires forall s, x :: s in subsets && x in s ==> x in freq
    requires forall s :: s in subsets ==> s != []
    ensures forall s :: s in subsets ==> PutSubsets(p, subsets, suffix, freq)[PatternKey(s, suffix)] == MinFrequency(freq, s).value
    decreases |subsets|
  {
    if subsets != [] {
      var s := subsets[0];
      var rest := subsets[1..];
      assert s in subsets;
      MemberCons(subsets);
      var p' := p[PatternKey(s, suffix) := MinFrequency(freq, s).value];
      PutSubsetsValues(p', rest, suffix, freq);
      PutSubsetsKeeps(p', rest, suffix, freq, PatternKey(s, suffix));
      var r := PutSubsets(p', rest, suffix, freq);
      assert r == PutSubsets(p, subsets, suffix, freq);
      forall s' | s' in subsets ensures r[PatternKey(s', suffix)] == MinFrequency(freq, s').value {
        var key := PatternKey(s', suffix);
        if s2 :| s2 in rest && PatternKey(s2, suffix) == key {
          PatternKeyCanonical(s', s2, suffix);
          SameElements(s', s2);
          MinFrequencySameItems(freq, s2, s');
        } else {
          assert s' == s;
        }
      }
    }
  }

  /** A key no subset maps to keeps its old value. */
  lemma {:induction false} PutSubsetsKeeps(p: PatternMap, subsets: seq<seq<Item>>, suffix: seq<Item>, freq: map<Item, nat>, k: seq<Item>)
    requires forall s, x :: s in subsets && x in s ==> x in freq
    requires forall s :: s in subsets ==> s != []
    requires k in p
    ensures (forall s :: s in subsets ==> k != PatternKey(s, suffix)) ==> PutSubsets(p, subsets, suffix, freq)[k] == p[k]
    decreases |subsets|
  {
    if subsets != [] && forall s :: s in subsets ==> k != PatternKey(s, suffix) {
      var s := subsets[0];
      var rest := subsets[1..];
      assert s in subsets;
      MemberCons(subsets);
      var p' := p[PatternKey(s, suffix) := MinFrequency(freq, s).value];
      PutSubsetsKeeps(p', rest, suffix, freq, k);
    }
  }

  /** The root entry of generatePatternList: the suffix alone, at the root's count. */
  function RootEntry(rootValue: Option<Item>, rootCount: nat): (r: PatternMap)
    ensures rootValue.None? ==> r == map[]
    ensures rootValue.Some? ==> r.Keys == {[rootValue.value]} && r[[rootValue.value]] == rootCount
  {
    if rootValue.Some? then map[[rootValue.value] := rootCount] else map[]
  }

  /**
   * generatePatternList: every non-empty subset of the frequent items, sized 1
   * to n, under the key "subset plus suffix, sorted", valued at its minimum
   * frequency; a conditional tree also stores its suffix alone at the root's
   * count.
   */
  function GeneratePatternList(t: Tree): (r: PatternMap)
    requires |t.nodes| > 0
    requires forall x :: x in t.order ==> x in t.frequent
  {
    var root := t.nodes[Root];
    var subsets := SubsetsFrom(t.order, 1);
    SubsetsFromMembers(t.order, 1);
    PutSubsets(RootEntry(root.item, root.count), subsets, SuffixOf(root.item), t.frequent)
  }

  /** Every non-empty subset of the frequent items is stored under its key at its minimum frequency. */
  lemma GeneratePatternListValues(t: Tree)
    requires |t.nodes| > 0
    requires forall x :: x in t.order ==> x in t.frequent
    ensures var r := GeneratePatternList(t);
      var suffix := SuffixOf(t.nodes[Root].item);
      forall s :: s in SubsetsFrom(t.order, 1) ==>
        s != [] && (forall x :: x in s ==> x in t.frequent) &&
        PatternKey(s, suffix) in r && r[PatternKey(s, suffix)] == MinFrequency(t.frequent, s).value
  {
    var root := t.nodes[Root];
    SubsetsFromMembers(t.order, 1);
    PutSubsetsValues(RootEntry(root.item, root.count), SubsetsFrom(t.order, 1), SuffixOf(root.item), t.frequent);
  }

  /**
   * A key of the single-path table is either the root item alone (conditional
   * tree only, at the root's count) or a non-empty subset plus the suffix, sorted.
   */
  lemma GeneratePatternListKeys(t: Tree)
    requires |t.nodes| > 0
    requires forall x :: x in t.order ==> x in t.frequent
    ensures var r := GeneratePatternList(t);
      var root := t.nodes[Root];
      var suffix := SuffixOf(root.item);
      && (forall k :: k in r <==>
           (root.item.Some? && k == [root.item.value]) || exists s :: s in SubsetsFrom(t.order, 1) && k == PatternKey(s, suffix))
      && (root.item.Some? ==> r[[root.item.value]] == root.count)
  {
    var root := t.nodes[Root];
    var subsets := SubsetsFrom(t.order, 1);
    var suffix := SuffixOf(root.item);
    var init := RootEntry(root.item, root.count);
    SubsetsFromMembers(t.order, 1);
    if root.item.Some? {
      var key := [root.item.value];
      forall s | s in subsets ensures key != PatternKey(s, suffix) {
        assert |PatternKey(s, suffix)| >= 2;
      }
      PutSubsetsKeeps(init, subsets, suffix, t.frequent, key);
    }
  }

  /** Every key of the single-path table is sorted and non-empty. */
  lemma GeneratePatternListSorted(t: Tree)
    requires |t.nodes| > 0
    requires forall x :: x in t.order ==> x in t.frequent
    ensures forall k :: k in GeneratePatternList(t) ==> Sorted(k) && |k| > 0
  {
    var root := t.nodes[Root];
    var subsets := SubsetsFrom(t.order, 1);
    var suffix := SuffixOf(root.item);
    var init := RootEntry(root.item, root.count);
    SubsetsFromMembers(t.order, 1);
    forall k | k in GeneratePatternList(t) ensures Sorted(k) && |k| > 0 {
      if k !in init {
        var s :| s in subsets && k == PatternKey(s, suffix);
      }
    }
  }

  // ---------------------------------------------------------------------------
  // zipPatterns
  // ---------------------------------------------------------------------------

  predicate KeysSorted(p: PatternMap)
  {
    forall k :: k in p ==> Sorted(k)
  }

  /** Appending one item and sorting is injective on sorted keys. */
  lemma ZipKeyInjective(a: seq<Item>, b: seq<Item>, v: Item)
    requires Sorted(a) && Sorted(b)
    requires PatternKey(a, [v]) == PatternKey(b, [v])
    ensures a == b
  {
    PatternKeyCanonical(a, b, [v]);
    LexLeIsTotalOrder();
    SortedUnique(a, b, LexLe);
  }

  /** Suffixing is injective on a table with sorted keys. */
  lemma ZipKeysInjective(p: PatternMap, v: Item)
    requires KeysSorted(p)
    ensures forall a, b :: a in p && b in p && PatternKey(a, [v]) == PatternKey(b, [v]) ==> a == b
  {
    forall a, b | a in p && b in p && PatternKey(a, [v]) == PatternKey(b, [v]) ensures a == b {
      ZipKeyInjective(a, b, v);
    }
  }

  /**
   * zipPatterns: in a conditional tree every key gets the suffix item added
   * and is re-sorted, keeping its value; at top level the table is unchanged.
   */
  function ZipPatterns(rootValue: Option<Item>, p: PatternMap): (r: PatternMap)
    requires KeysSorted(p)
    ensures rootValue.None? ==> r == p
  {
    if rootValue.None? then p
    else
      var v := rootValue.value;
      ZipKeysInjective(p, v);
      map k | k in p :: PatternKey(k, [v]) := p[k]
  }

  /**
   * In a conditional tree each old entry reappears under its suffixed key with
   * the same count, and every new key comes from an old one.
   */
  lemma ZipPatternsSpec(rootValue: Option<Item>, p: PatternMap)
    requires KeysSorted(p) && rootValue.Some?
    ensures var r := ZipPatterns(rootValue, p);
      && (forall k :: k in p ==> PatternKey(k, [rootValue.value]) in r && r[PatternKey(k, [rootValue.value])] == p[k])
      && (forall k' :: k' in r ==> exists k :: k in p && k' == PatternKey(k, [rootValue.value]))
  {
    ZipKeysInjective(p, rootValue.value);
  }

  /** Suffixed keys are sorted, non-empty and contain the suffix item. */
  lemma ZipPatternsKeys(rootValue: Option<Item>, p: PatternMap)
    requires KeysSorted(p)
    ensures KeysSorted(ZipPatterns(rootValue, p))
    ensures rootValue.Some? ==> forall k :: k in ZipPatterns(rootValue, p) ==> rootValue.value in k
  {
    if rootValue.Some? {
      var v := rootValue.value;
      ZipPatternsSpec(rootValue, p);
      forall k' | k' in ZipPatterns(rootValue, p) ensures v in k' {
        var k :| k in p && k' == PatternKey(k, [v]);
        assert v in multiset(k');
      }
    }
  }

  // ---------------------------------------------------------------------------
  // Merging subtree results
  // ---------------------------------------------------------------------------

  /** patterns.merge(key, count, Double::sum) for every entry of `b`: counts of shared keys add up. */
  function MergeSum(a: PatternMap, b: PatternMap): (r: PatternMap)
    ensures r.Keys == a.Keys + b.Keys
    ensures forall k :: Lookup(r, k) == Lookup(a, k) + Lookup(b, k)
  {
    map k | k in a.Keys + b.Keys :: Lookup(a, k) + Lookup(b, k)
  }

  /**
   * The merge loop over the entries of `b`, visited in the order `keys`: each
   * step is one `patterns.merge(key, count, Double::sum)`, which stores the
   * count under a new key and adds it to the count under an existing one.
   */
  function MergeLoop(p: PatternMap, b: PatternMap, keys: seq<seq<Item>>): PatternMap
    requires forall k :: k in keys ==> k in b
    decreases |keys|
  {
    if keys == [] then p
    else
      var k := keys[0];
      MemberCons(keys);
      MergeLoop(p[k := Lookup(p, k) + b[k]], b, keys[1..])
  }

  /** After the loop, every visited key has gained its count in `b` once, and no other key has changed. */
  lemma {:induction false} MergeLoopAdds(p: PatternMap, b: PatternMap, keys: seq<seq<Item>>)
    requires forall k :: k in keys ==> k in b
    requires NoDup(keys)
    ensures var r := MergeLoop(p, b, keys);
      && (forall k :: k in r <==> k in p || k in keys)
      && (forall k :: Lookup(r, k) == Lookup(p, k) + (if k in keys then b[k] else 0))
    decreases |keys|
  {
    if keys != [] {
      var k0 := keys[0];
      MemberCons(keys);
      NoDupCons(keys);
      MergeLoopAdds(p[k0 := Lookup(p, k0) + b[k0]], b, keys[1..]);
    }
  }

  /**
   * The merge loop computes the summing merge whatever order the entries of
   * `b` are visited in, provided each key is visited exactly once.
   */
  lemma MergeLoopIsMergeSum(p: PatternMap, b: PatternMap, keys: seq<seq<Item>>)
    requires NoDup(keys) && forall k :: k in keys <==> k in b
    ensures MergeLoop(p, b, keys) == MergeSum(p, b)
  {
    var r := MergeLoop(p, b, keys);
    var s := MergeSum(p, b);
    MergeLoopAdds(p, b, keys);
    forall k | k in r ensures k in s && r[k] == s[k] {
      assert Lookup(r, k) == Lookup(s, k);
    }
  }

  /** The order in which subtree results are merged does not matter. */
  lemma MergeSumCommutes(a: PatternMap, b: PatternMap)
    ensures MergeSum(a, b) == MergeSum(b, a)
  {
  }

  lemma MergeSumAssociates(a: PatternMap, b: PatternMap, c: PatternMap)
    ensures MergeSum(MergeSum(a, b), c) == MergeSum(a, MergeSum(b, c))
  {
  }
}

=== FILE: singlepath.dfy ===
/** treeHasSinglePath: whether the part of the tree below a node is one unbranched path. */
module SinglePath {
  import opened Transactions
  import opened FPTree

  /** Follows the only child while there is exactly one. */
  function TreeHasSinglePath(nodes: seq<Node>, n: nat): (r: bool)
    requires ChildrenOk(nodes) && n < |nodes|
    ensures |nodes[n].children| > 1 ==> !r
    ensures |nodes[n].children| == 0 ==> r
    decreases |nodes| - n
  {
    var k := |nodes[n].children|;
    if k > 1 then false
    else if k == 0 then true
    else
      assert ChildrenOkAt(nodes, n);
      TreeHasSinglePath(nodes, nodes[n].children[0])
  }

  /** Every node of the subtree below `n` has at most one child. */
  ghost predicate Unbranched(nodes: seq<Node>, n: nat)
    requires ParentsOk(nodes) && n < |nodes|
  {
    forall d :: 0 <= d < |nodes| && IsAncestor(nodes, n, d) ==> |nodes[d].children| <= 1
  }

  /** A proper descendant of `n` lies below one of `n`'s children. */
  lemma {:induction false} BelowSomeChild(nodes: seq<Node>, n: nat, d: nat) returns (c: nat)
    requires ParentsOk(nodes) && n <= d < |nodes| && IsAncestor(nodes, n, d) && d != n
    ensures c in nodes[n].children && c < |nodes| && IsAncestor(nodes, c, d)
    decreases d
  {
    assert ParentOkAt(nodes, d);
    var p := nodes[d].parent.value;
    if p == n {
      c := d;
    } else {
      AncestorNotLater(nodes, n, p);
      c := BelowSomeChild(nodes, n, p);
      assert c != d by {
        if c == d {
          // an ancestor of `p` is not later than `p`
          AncestorNotLater(nodes, c, p);
        }
      }
    }
  }

  /**
   * treeHasSinglePath(n) holds exactly when no node in the subtree below `n`
   * (including `n`) has more than one child.
   */
  lemma {:induction false} SinglePathIffUnbranched(nodes: seq<Node>, n: nat)
    requires ParentsOk(nodes) && ChildrenOk(nodes) && n < |nodes|
    ensures TreeHasSinglePath(nodes, n) <==> Unbranched(nodes, n)
    decreases |nodes| - n
  {
    var k := |nodes[n].children|;
    assert IsAncestor(nodes, n, n);
    if k == 1 {
      assert ChildrenOkAt(nodes, n);
      var c := nodes[n].children[0];
      SinglePathIffUnbranched(nodes, c);
      if Unbranched(nodes, n) {
        forall d | 0 <= d < |nodes| && IsAncestor(nodes, c, d) ensures |nodes[d].children| <= 1 {
          AncestorThroughParent(nodes, n, c, d);
        }
      }
      if Unbranched(nodes, c) {
        forall d | 0 <= d < |nodes| && IsAncestor(nodes, n, d) ensures |nodes[d].children| <= 1 {
          if d != n {
            AncestorNotLater(nodes, n, d);
            var c' := BelowSomeChild(nodes, n, d);
          }
        }
      }
    } else if k == 0 {
      forall d | 0 <= d < |nodes| && IsAncestor(nodes, n, d) ensures d == n {
        if d != n {
          AncestorNotLater(nodes, n, d);
          var c' := BelowSomeChild(nodes, n, d);
        }
      }
    }
  }

  /** Every node lies below the root. */
  lemma {:induction false} RootIsAncestor(nodes: seq<Node>, d: nat)
    requires ParentsOk(nodes) && d < |nodes|
    ensures IsAncestor(nodes, Root, d)
    decreases d
  {
    if d != Root {
      assert ParentOkAt(nodes, d);
      RootIsAncestor(nodes, nodes[d].parent.value);
    }
  }

  /** For the whole tree: a single path exactly when no node has two or more children. */
  lemma SinglePathFromRoot(nodes: seq<Node>)
    requires ParentsOk(nodes) && ChildrenOk(nodes)
    ensures TreeHasSinglePath(nodes, Root) <==> forall d :: 0 <= d < |nodes| ==> |nodes[d].children| <= 1
  {
    SinglePathIffUnbranched(nodes, Root);
    forall d | 0 <= d < |nodes| ensures IsAncestor(nodes, Root, d) {
      RootIsAncestor(nodes, d);
    }
  }
}

=== FILE: sorting.dfy ===
/** Sorting a sequence by a total preorder, and uniqueness of sorted permutations. */
module Sorting {

  /** `le` is total and transitive. */
  ghost predicate TotalPreorder<T(!new)>(le: (T, T) -> bool)
  {
    && (forall a, b :: le(a, b) || le(b, a))
    && (forall a, b, c :: le(a, b) && le(b, c) ==> le(a, c))
  }

  /** `le` relates two values both ways only when they are equal. */
  ghost predicate Antisymmetric<T(!new)>(le: (T, T) -> bool)
  {
    forall a, b :: le(a, b) && le(b, a) ==> a == b
  }

  predicate SortedBy<T>(s: seq<T>, le: (T, T) -> bool)
  {
    forall i, j :: 0 <= i < j < |s| ==> le(s[i], s[j])
  }

  /** Inserts `x` in front of the first element it is `le` to. */
  function InsertBy<T(!new)>(x: T, s: seq<T>, le: (T, T) -> bool): (r: seq<T>)
    requires TotalPreorder(le)
    requires SortedBy(s, le)
    ensures SortedBy(r, le)
    ensures multiset(r) == multiset(s) + multiset{x}
    ensures |r| == |s| + 1
  {
    if s == [] then [x]
    else if le(x, s[0]) then [x] + s
    else
      var tail := InsertBy(x, s[1..], le);
      assert s == [s[0]] + s[1..];
      HeadBelowInserted(x, s, tail, le);
      [s[0]] + tail
  }

  /** The head of a sorted list stays below everything after inserting a larger `x`. */
  lemma HeadBelowInserted<T(!new)>(x: T, s: seq<T>, tail: seq<T>, le: (T, T) -> bool)
    requires TotalPreorder(le)
    requires SortedBy(s, le) && |s| > 0 && !le(x, s[0])
    requires multiset(tail) == multiset(s[1..]) + multiset{x}
    ensures forall k :: 0 <= k < |tail| ==> le(s[0], tail[k])
  {
    forall k | 0 <= k < |tail| ensures le(s[0], tail[k]) {
      assert tail[k] in multiset(tail);
      if tail[k] != x {
        assert tail[k] in multiset(s[1..]);
        var j :| 0 <= j < |s[1..]| && s[1..][j] == tail[k];
        assert s[j + 1] == tail[k];
      }
    }
  }

  /** Insertion sort: a permutation of `s` that is sorted by `le`. */
  function SortBy<T(!new)>(s: seq<T>, le: (T, T) -> bool): (r: seq<T>)
    requires TotalPreorder(le)
    ensures SortedBy(r, le)
    ensures multiset(r) == multiset(s)
    ensures |r| == |s|
  {
    if s == [] then []
    else
      assert s == [s[0]] + s[1..];
      InsertBy(s[0], SortBy(s[1..], le), le)
  }

  /** Under an antisymmetric order there is only one sorted arrangement of a multiset. */
  lemma {:induction false} SortedUnique<T(!new)>(a: seq<T>, b: seq<T>, le: (T, T) -> bool)
    requires TotalPreorder(le) && Antisymmetric(le)
    requires SortedBy(a, le) && SortedBy(b, le)
    requires multiset(a) == multiset(b)
    ensures a == b
    decreases |a|
  {
    if |a| > 0 {
      SortedTails(a, b, le);
      SortedUnique(a[1..], b[1..], le);
      assert a == [a[0]] + a[1..] && b == [b[0]] + b[1..];
    }
  }

  /** Two sorted arrangements of one multiset agree on the head and leave sorted arrangements of one multiset. */
  lemma SortedTails<T(!new)>(a: seq<T>, b: seq<T>, le: (T, T) -> bool)
    requires TotalPreorder(le) && Antisymmetric(le)
    requires SortedBy(a, le) && SortedBy(b, le)
    requires multiset(a) == multiset(b) && |a| > 0
    ensures |b| > 0 && a[0] == b[0]
    ensures SortedBy(a[1..], le) && SortedBy(b[1..], le)
    ensures multiset(a[1..]) == multiset(b[1..])
  {
    SortedHeadsAgree(a, b, le);
    TailMultiset(a);
    TailMultiset(b);
    SortedTail(a, le);
    SortedTail(b, le);
  }

  /** Two sorted arrangements of one multiset start with the same element. */
  lemma SortedHeadsAgree<T(!new)>(a: seq<T>, b: seq<T>, le: (T, T) -> bool)
    requires TotalPreorder(le) && Antisymmetric(le)
    requires SortedBy(a, le) && SortedBy(b, le)
    requires multiset(a) == multiset(b) && |a| > 0
    ensures |b| > 0 && a[0] == b[0]
  {
    assert a[0] in multiset(b);
    assert b[0] in multiset(a);
    var i :| 0 <= i < |b| && b[i] == a[0];
    var j :| 0 <= j < |a| && a[j] == b[0];
    assert le(b[0], a[0]) by {
      if i > 0 {
        assert le(b[0], b[i]);
      } else {
        assert le(b[0], b[0]);
      }
    }
    assert le(a[0], b[0]) by {
      if j > 0 {
        assert le(a[0], a[j]);
      } else {
        assert le(a[0], a[0]);
      }
    }
  }

  lemma TailMultiset<T>(a: seq<T>)
    requires |a| > 0
    ensures multiset(a[1..]) == multiset(a) - multiset{a[0]}
  {
    assert a == [a[0]] + a[1..];
    assert multiset(a) == multiset{a[0]} + multiset(a[1..]);
  }

  lemma SortedTail<T>(a: seq<T>, le: (T, T) -> bool)
    requires SortedBy(a, le) && |a| > 0
    ensures SortedBy(a[1..], le)
  {
    forall i, j | 0 <= i < j < |a[1..]| ensures le(a[1..][i], a[1..][j]) {
      assert a[1..][i] == a[i + 1] && a[1..][j] == a[j + 1];
    }
  }
}

=== FILE: transactions.dfy ===
/** Items, transactions and the small vocabulary shared by both miners. */
module Transactions {

  /** An item identifier; the program reads them as strings. */
  type Item = string

  /** One transaction: the items of one observed basket, in input order. */
  type Transaction = seq<Item>

  /** Stands in for a nullable reference or value. */
  datatype Option<T> = None | Some(value: T)

  /** All items of all transactions, in input order. */
  function Concat(ts: seq<Transaction>): (r: seq<Item>)
    ensures |ts| == 0 ==> r == []
  {
    if ts == [] then [] else ts[0] + Concat(ts[1..])
  }

  lemma {:induction false} ConcatSnoc(ts: seq<Transaction>)
    requires |ts| > 0
    ensures Concat(ts) == Concat(ts[..|ts| - 1]) + ts[|ts| - 1]
    decreases |ts|
  {
    if |ts| == 1 {
      assert ts[..0] == [];
      assert Concat(ts[1..]) == [];
    } else {
      var n := |ts|;
      ConcatSnoc(ts[1..]);
      assert ts[1..][..n - 2] == ts[..n - 1][1..];
      assert ts[1..][n - 2] == ts[n - 1];
      assert Concat(ts[..n - 1]) == ts[0] + Concat(ts[..n - 1][1..]);
    }
  }

  /** An item occurs in the concatenation exactly when it occurs in some transaction. */
  lemma {:induction false} ConcatMember(ts: seq<Transaction>, y: Item)
    ensures y in Concat(ts) <==> exists i :: 0 <= i < |ts| && y in ts[i]
    decreases |ts|
  {
    if ts != [] {
      ConcatMember(ts[1..], y);
      if y in Concat(ts[1..]) {
        var i :| 0 <= i < |ts[1..]| && y in ts[1..][i];
        assert y in ts[i + 1];
      }
      if exists i :: 0 <= i < |ts| && y in ts[i] {
        var i :| 0 <= i < |ts| && y in ts[i];
        if i > 0 {
          assert y in ts[1..][i - 1];
        }
      }
    }
  }

  /** Total number of occurrences of `x` over all transactions (repeats inside one transaction count). */
  function Occurrences(ts: seq<Transaction>, x: Item): nat
  {
    multiset(Concat(ts))[x]
  }

  /** Length of the longest transaction (0 for no transactions). */
  function MaxLen(ts: seq<Transaction>): (r: nat)
    ensures forall i :: 0 <= i < |ts| ==> |ts[i]| <= r
    ensures |ts| > 0 ==> exists i :: 0 <= i < |ts| && |ts[i]| == r
  {
    if ts == [] then 0
    else
      var rest := MaxLen(ts[1..]);
      assert forall i :: 1 <= i < |ts| ==> ts[i] == ts[1..][i - 1];
      if |ts[0]| >= rest then |ts[0]| else rest
  }

  /** No element occurs twice. */
  predicate NoDup<T(==)>(s: seq<T>)
  {
    forall i, j :: 0 <= i < j < |s| ==> s[i] != s[j]
  }

  lemma NoDupCons<T>(s: seq<T>)
    requires |s| > 0
    ensures NoDup(s) ==> NoDup(s[1..]) && s[0] !in s[1..]
  {
    if NoDup(s) {
      forall i, j | 0 <= i < j < |s[1..]| ensures s[1..][i] != s[1..][j] {
        assert s[1..][i] == s[i + 1] && s[1..][j] == s[j + 1];
      }
      forall k | 0 <= k < |s[1..]| ensures s[1..][k] != s[0] {
        assert s[1..][k] == s[k + 1];
      }
    }
  }

  lemma NoDupConsBack<T>(s: seq<T>)
    requires |s| > 0
    ensures NoDup(s[1..]) && s[0] !in s[1..] ==> NoDup(s)
  {
    if NoDup(s[1..]) && s[0] !in s[1..] {
      forall i, j | 0 <= i < j < |s| ensures s[i] != s[j] {
        assert s[j] == s[1..][j - 1];
        if i > 0 {
          assert s[i] == s[1..][i - 1];
        }
      }
    }
  }

  /** Without repeats every element occurs once. */
  lemma {:induction false} NoDupCountsOne<T>(s: seq<T>)
    requires NoDup(s)
    ensures forall x :: multiset(s)[x] <= 1
    decreases |s|
  {
    if s != [] {
      NoDupCons(s);
      NoDupCountsOne(s[1..]);
      assert s == [s[0]] + s[1..];
      assert multiset(s) == multiset{s[0]} + multiset(s[1..]);
    }
  }

  /** A rearrangement of a list without repeats has none either. */
  lemma NoDupPermutation<T>(a: seq<T>, b: seq<T>)
    requires multiset(a) == multiset(b)
    ensures NoDup(a) ==> NoDup(b)
  {
    if NoDup(a) {
      NoDupPermutationStep(a, b);
    }
  }

  lemma NoDupPermutationStep<T>(a: seq<T>, b: seq<T>)
    requires NoDup(a) && multiset(a) == multiset(b)
    ensures NoDup(b)
  {
    NoDupCountsOne(a);
    forall i, j | 0 <= i < j < |b| ensures b[i] != b[j] {
      assert b == b[..j] + b[j..];
      assert multiset(b) == multiset(b[..j]) + multiset(b[j..]);
      assert b[i] in b[..j] && b[j] in b[j..];
      assert multiset(b[..j])[b[i]] >= 1 && multiset(b[j..])[b[j]] >= 1;
      assert multiset(b)[b[i]] <= 1;
    }
  }

  /** Dropping the last element keeps a list free of repeats, and the last element is not among the rest. */
  lemma NoDupSnoc<T>(s: seq<T>)
    requires |s| > 0
    ensures NoDup(s) ==> NoDup(s[..|s| - 1]) && s[|s| - 1] !in s[..|s| - 1]
  {
  }

  /** Two lists with the same multiset have the same elements. */
  lemma SameElements<T>(a: seq<T>, b: seq<T>)
    requires multiset(a) == multiset(b)
    ensures forall x :: x in a <==> x in b
  {
    forall x ensures x in a <==> x in b {
      assert x in a <==> x in multiset(a);
      assert x in b <==> x in multiset(b);
    }
  }

  /** An element of a non-empty list is its first element or in the rest. */
  lemma MemberCons<T>(s: seq<T>)
    requires |s| > 0
    ensures forall x :: x in s <==> x == s[0] || x in s[1..]
  {
    assert s == [s[0]] + s[1..];
  }

  /** An element of a non-empty list is in its front part or is its last element. */
  lemma MemberSnoc<T>(s: seq<T>, x: T)
    requires |s| > 0
    ensures x in s <==> x in s[..|s| - 1] || x == s[|s| - 1]
  {
    assert s == s[..|s| - 1] + [s[|s| - 1]];
  }

  /** The distinct elements of `s`, each kept at its first appearance. */
  function Dedupe<T(==,!new)>(s: seq<T>): (r: seq<T>)
    ensures NoDup(r)
    ensures forall x :: x in r <==> x in s
    decreases |s|
  {
    if s == [] then []
    else
      var d := Dedupe(s[..|s| - 1]);
      assert forall x :: x in s <==> x in s[..|s| - 1] || x == s[|s| - 1];
      if s[|s| - 1] in d then d else d + [s[|s| - 1]]
  }

  /** The list read back to front. */
  function Reverse<T>(s: seq<T>): (r: seq<T>)
    ensures |r| == |s|
    ensures forall i :: 0 <= i < |s| ==> r[i] == s[|s| - 1 - i]
    decreases |s|
  {
    if s == [] then [] else Reverse(s[1..]) + [s[0]]
  }
}

=== FILE: treebuilder.dfy ===
/**
 * Building an FP tree: the header table, one insertion step (reuse or create
 * a child, keep the header chains), recursive insertion of a sorted
 * transaction, and construction from a list of transactions.
 */
module TreeBuilder {
  import opened Transactions
  import opened Sorting
  import opened LexOrder
  import opened Frequency
  import opened FPTree

  // ---------------------------------------------------------------------------
  // Header table and chain maintenance
  // ---------------------------------------------------------------------------

  /** buildHeaderTable: one entry per frequent item. */
  function BuildHeaderTable(frequent: map<Item, nat>): (r: map<Item, Option<nat>>)
    ensures r.Keys == frequent.Keys
  {
    map x | x in frequent :: None
  }

  /** The fresh header table is the right one for a tree that holds only its root: every chain is empty. */
  lemma HeaderTableFitsRootOnly(frequent: map<Item, nat>, root: Node)
    ensures HeadersOk(BuildHeaderTable(frequent), [root])
  {
  }

  /** The last node of the chain that starts at `i` (the `while (current.link != null)` walk). */
  function ChainEnd(nodes: seq<Node>, i: nat): (e: nat)
    requires LinksForward(nodes) && i < |nodes|
    ensures i <= e < |nodes| && nodes[e].link.None?
    decreases |nodes| - i
  {
    match nodes[i].link
    case None => i
    case Some(j) => ChainEnd(nodes, j)
  }

  /** Node `i` is the most recently created node carrying `x`. */
  predicate LastWith(nodes: seq<Node>, x: Item, i: nat)
  {
    1 <= i < |nodes| && nodes[i].item == Some(x) && NextWith(nodes, x, i + 1).None?
  }

  lemma {:induction false} ChainEndIsLast(nodes: seq<Node>, i: nat, x: Item)
    requires LinksOk(nodes) && 1 <= i < |nodes| && nodes[i].item == Some(x)
    ensures LinksForward(nodes)
    ensures LastWith(nodes, x, ChainEnd(nodes, i))
    decreases |nodes| - i
  {
    LinksOkForward(nodes);
    assert LinkOkAt(nodes, i);
    match nodes[i].link
    case None =>
    case Some(j) =>
      ChainEndIsLast(nodes, j, x);
  }

  lemma {:induction false} ChainEndFrame(a: seq<Node>, b: seq<Node>, i: nat)
    requires LinksForward(a) && LinksForward(b) && i < |a| <= |b|
    requires forall k :: 0 <= k < |a| ==> b[k].link == a[k].link
    ensures ChainEnd(a, i) == ChainEnd(b, i)
    decreases |a| - i
  {
    match a[i].link
    case None =>
    case Some(j) =>
      ChainEndFrame(a, b, j);
  }

  /** Hangs node `k` (carrying `x`) at the end of `x`'s chain, or starts the chain with it. */
  function LinkNode(t: Tree, x: Item, k: nat): Tree
    requires LinksForward(t.nodes)
    requires forall y :: y in t.headers && t.headers[y].Some? ==> t.headers[y].value < |t.nodes|
  {
    if x !in t.headers || t.headers[x].None? then
      t.(headers := t.headers[x := Some(k)])
    else
      var e := ChainEnd(t.nodes, t.headers[x].value);
      t.(nodes := t.nodes[e := t.nodes[e].(link := Some(k))])
  }

  // ---------------------------------------------------------------------------
  // Frame lemmas
  // ---------------------------------------------------------------------------

  lemma {:induction false} NextWithSameItems(a: seq<Node>, b: seq<Node>, y: Item, j: nat)
    requires |a| == |b|
    requires forall i :: 0 <= i < |a| ==> a[i].item == b[i].item
    ensures NextWith(a, y, j) == NextWith(b, y, j)
    decreases |a| - j
  {
    if j < |a| {
      NextWithSameItems(a, b, y, j + 1);
    }
  }

  lemma {:induction false} NextWithAppend(a: seq<Node>, b: seq<Node>, y: Item, j: nat)
    requires |b| == |a| + 1 && j <= |a|
    requires forall i :: 0 <= i < |a| ==> a[i].item == b[i].item
    ensures NextWith(b, y, j) ==
      if NextWith(a, y, j).Some? then NextWith(a, y, j)
      else if b[|a|].item == Some(y) then Some(|a|)
      else None
    decreases |a| - j
  {
    if j < |a| {
      NextWithAppend(a, b, y, j + 1);
    }
  }

  lemma {:induction false} SumCountsAppend(a: seq<Node>, b: seq<Node>, y: Item, j: nat)
    requires |b| == |a| + 1 && j <= |a|
    requires forall i :: 0 <= i < |a| ==> a[i].item == b[i].item && a[i].count == b[i].count
    ensures SumCounts(b, y, j) == SumCounts(a, y, j) + (if b[|a|].item == Some(y) then b[|a|].count else 0)
    decreases |a| - j
  {
    if j < |a| {
      SumCountsAppend(a, b, y, j + 1);
    }
  }

  lemma {:induction false} SumCountsBump(a: seq<Node>, b: seq<Node>, c: nat, y: Item, j: nat)
    requires |a| == |b| && c < |a|
    requires forall i :: 0 <= i < |a| ==> a[i].item == b[i].item
    requires forall i :: 0 <= i < |a| && i != c ==> a[i].count == b[i].count
    requires b[c].count == a[c].count + 1
    ensures SumCounts(b, y, j) == SumCounts(a, y, j) + (if j <= c && a[c].item == Some(y) then 1 else 0)
    decreases |a| - j
  {
    if j < |a| {
      SumCountsBump(a, b, c, y, j + 1);
    }
  }

  /** Parent and child structure depend only on items, parents and children. */
  lemma ShapeFrame(a: seq<Node>, b: seq<Node>)
    requires |a| == |b|
    requires forall i :: 0 <= i < |a| ==>
      a[i].item == b[i].item && a[i].parent == b[i].parent && a[i].children == b[i].children
    requires ParentsOk(a) && ChildrenOk(a)
    ensures ParentsOk(b) && ChildrenOk(b)
  {
    forall n | 0 <= n < |b| ensures ChildrenOkAt(b, n) {
      assert ChildrenOkAt(a, n);
    }
    forall i | 1 <= i < |b| ensures ParentOkAt(b, i) {
      assert ParentOkAt(a, i);
    }
  }

  /** Changing counts only keeps a tree valid. */
  lemma ValidIgnoresCounts(t: Tree, t': Tree)
    requires Valid(t)
    requires t'.headers == t.headers && |t'.nodes| == |t.nodes|
    requires forall i :: 0 <= i < |t.nodes| ==> t'.nodes[i] == t.nodes[i].(count := t'.nodes[i].count)
    ensures Valid(t')
  {
    ShapeFrame(t.nodes, t'.nodes);
    forall y, j: nat ensures NextWith(t.nodes, y, j) == NextWith(t'.nodes, y, j) {
      NextWithSameItems(t.nodes, t'.nodes, y, j);
    }
    forall i | 1 <= i < |t'.nodes| ensures LinkOkAt(t'.nodes, i) {
      assert LinkOkAt(t.nodes, i);
    }
  }

  // ---------------------------------------------------------------------------
  // One insertion step
  // ---------------------------------------------------------------------------

  /** An existing child `c` is reused: its count goes up by one. */
  /** `r` is `t` with the count of node `c` one higher and nothing else changed. */
  predicate BumpedChild(t: Tree, r: Tree, c: nat)
  {
    c < |t.nodes| && r == t.(nodes := t.nodes[c := t.nodes[c].(count := t.nodes[c].count + 1)])
  }

  function BumpChild(t: Tree, c: nat): (r: Tree)
    requires Valid(t) && 1 <= c < |t.nodes|
    ensures Valid(r)
    ensures BumpedChild(t, r, c)
    ensures forall y ::
      SumCounts(r.nodes, y, 1) == SumCounts(t.nodes, y, 1) + (if t.nodes[c].item == Some(y) then 1 else 0)
  {
    var r := t.(nodes := t.nodes[c := t.nodes[c].(count := t.nodes[c].count + 1)]);
    ValidIgnoresCounts(t, r);
    forall y ensures SumCounts(r.nodes, y, 1) == SumCounts(t.nodes, y, 1) + (if t.nodes[c].item == Some(y) then 1 else 0) {
      SumCountsBump(t.nodes, r.nodes, c, y, 1);
    }
    r
  }

  /** No child of `n` carries `x` yet. */
  predicate NoChildWith(t: Tree, n: nat, x: Item)
    requires n < |t.nodes| && ChildrenOkAt(t.nodes, n)
  {
    forall c :: c in t.nodes[n].children ==> t.nodes[c].item != Some(x)
  }

  /** `b` is `a` with a new last node carrying `x` whose parent is `n`; old nodes keep item and parent. */
  predicate AppendedChild(a: seq<Node>, b: seq<Node>, n: nat, x: Item)
  {
    && n < |a|
    && |b| == |a| + 1
    && b[|a|].item == Some(x) && b[|a|].parent == Some(n) && b[|a|].children == []
    && b[n].children == a[n].children + [|a|]
    && (forall i :: 0 <= i < |a| ==> b[i].item == a[i].item && b[i].parent == a[i].parent)
    && (forall i :: 0 <= i < |a| && i != n ==> b[i].children == a[i].children)
  }

  lemma AppendChildParents(a: seq<Node>, b: seq<Node>, n: nat, x: Item)
    requires ParentsOk(a) && AppendedChild(a, b, n, x)
    ensures ParentsOk(b)
  {
    forall i | 1 <= i < |b| ensures ParentOkAt(b, i) {
      if i < |a| {
        assert ParentOkAt(a, i);
        var p := a[i].parent.value;
        assert i in a[p].children;
        assert b[p].children == a[p].children || b[p].children == a[p].children + [|a|];
      }
    }
  }

  lemma AppendChildChildren(a: seq<Node>, b: seq<Node>, n: nat, x: Item)
    requires ChildrenOk(a) && AppendedChild(a, b, n, x)
    requires forall c :: c in a[n].children ==> c < |a| && a[c].item != Some(x)
    ensures ChildrenOk(b)
  {
    var k := |a|;
    forall m | 0 <= m < |b| ensures ChildrenOkAt(b, m) {
      if m < k {
        assert ChildrenOkAt(a, m);
        var ch := b[m].children;
        if m == n {
          forall j | 0 <= j < |ch| ensures m < ch[j] < |b| && b[ch[j]].parent == Some(m) {
            if j < |ch| - 1 {
              assert ch[j] == a[m].children[j];
            }
          }
          forall j, l | 0 <= j < l < |ch| ensures b[ch[j]].item != b[ch[l]].item {
            assert ch[j] == a[m].children[j];
            if l == |ch| - 1 {
              assert ch[j] in a[n].children;
            } else {
              assert ch[l] == a[m].children[l];
            }
          }
        } else {
          assert ch == a[m].children;
        }
      }
    }
  }

  /** After the chain update the links are right again: the old last `x` node now links to `k`. */
  lemma LinksAfterNewChild(a: seq<Node>, r: seq<Node>, x: Item)
    requires LinksOk(a)
    requires |r| == |a| + 1
    requires forall i :: 0 <= i < |a| ==> r[i].item == a[i].item
    requires r[|a|].item == Some(x) && r[|a|].link.None?
    requires forall i :: 0 <= i < |a| ==> r[i].link == (if LastWith(a, x, i) then Some(|a|) else a[i].link)
    ensures LinksOk(r)
  {
    var k := |a|;
    forall i | 1 <= i < |r| ensures LinkOkAt(r, i) {
      if i < k {
        assert LinkOkAt(a, i);
        NextWithAppend(a, r, r[i].item.value, i + 1);
      }
    }
  }

  lemma HeadersAfterNewChild(a: seq<Node>, r: seq<Node>, h: map<Item, Option<nat>>, h': map<Item, Option<nat>>, x: Item)
    requires HeadersOk(h, a) && |a| >= 1
    requires |r| == |a| + 1
    requires forall i :: 0 <= i < |a| ==> r[i].item == a[i].item
    requires r[|a|].item == Some(x)
    requires h' == if NextWith(a, x, 1).None? then h[x := Some(|a|)] else h
    ensures HeadersOk(h', r)
  {
    forall y | y in h' ensures h'[y] == NextWith(r, y, 1) {
      HeaderAfterNewChild(a, r, h, h', x, y);
    }
    forall i | 1 <= i < |r| ensures r[i].item.Some? && r[i].item.value in h' {
      NodeHasHeader(a, r, h, h', x, i);
    }
  }

  /** After appending a node every node but the root still has an item with a header entry. */
  lemma NodeHasHeader(a: seq<Node>, r: seq<Node>, h: map<Item, Option<nat>>, h': map<Item, Option<nat>>, x: Item, i: nat)
    requires HeadersOk(h, a) && |a| >= 1
    requires |r| == |a| + 1
    requires forall i :: 0 <= i < |a| ==> r[i].item == a[i].item
    requires r[|a|].item == Some(x)
    requires h' == if NextWith(a, x, 1).None? then h[x := Some(|a|)] else h
    requires 1 <= i < |r|
    ensures r[i].item.Some? && r[i].item.value in h'
  {
    var y := r[i].item.value;
    assert i == |a| ==> y == x;
    if i < |a| {
      assert r[i].item == a[i].item;
      assert y in h;
      if NextWith(a, x, 1).None? {
        assert h' == h[x := Some(|a|)];
      } else {
        assert h' == h;
      }
    } else if NextWith(a, x, 1).Some? {
      var j := NextWith(a, x, 1).value;
      assert 1 <= j < |a| && a[j].item == Some(x);
      assert x in h;
      assert h' == h;
    } else {
      assert h' == h[x := Some(|a|)];
    }
  }

  /** One header entry after appending a node: unchanged, or the new node when it is the first of its item. */
  lemma HeaderAfterNewChild(a: seq<Node>, r: seq<Node>, h: map<Item, Option<nat>>, h': map<Item, Option<nat>>, x: Item, y: Item)
    requires HeadersOk(h, a) && |a| >= 1
    requires |r| == |a| + 1
    requires forall i :: 0 <= i < |a| ==> r[i].item == a[i].item
    requires r[|a|].item == Some(x)
    requires h' == if NextWith(a, x, 1).None? then h[x := Some(|a|)] else h
    requires y in h'
    ensures h'[y] == NextWith(r, y, 1)
  {
    NextWithAppend(a, r, y, 1);
    if y == x && NextWith(a, x, 1).None? {
      assert h'[y] == Some(|a|);
    } else {
      assert y in h && h'[y] == h[y];
    }
  }

  lemma AddChildForward(t: Tree, n: nat, x: Item)
    requires Valid(t) && n < |t.nodes|
    ensures LinksForward(AddChild(t.nodes, n, x))
    ensures forall y :: y in t.headers && t.headers[y].Some? ==> t.headers[y].value < |t.nodes| + 1
  {
    var a := t.nodes;
    var b := AddChild(a, n, x);
    LinksOkForward(a);
    forall i | 0 <= i < |b| && b[i].link.Some? ensures i < b[i].link.value < |b| {
      assert i < |a|;
      assert b[i].link == a[i].link;
    }
  }

  /** Appending a node with count 1 adds one to its item's total. */
  lemma NewNodeCounts(a: seq<Node>, r: seq<Node>, x: Item)
    requires |r| == |a| + 1 && |a| >= 1
    requires forall i :: 0 <= i < |a| ==> r[i].item == a[i].item && r[i].count == a[i].count
    requires r[|a|].item == Some(x) && r[|a|].count == 1
    ensures forall y :: SumCounts(r, y, 1) == SumCounts(a, y, 1) + (if y == x then 1 else 0)
  {
    forall y ensures SumCounts(r, y, 1) == SumCounts(a, y, 1) + (if y == x then 1 else 0) {
      SumCountsAppend(a, r, y, 1);
    }
  }

  /** With no earlier `x` node, the new node becomes the head of `x`'s chain; no link changes. */
  lemma LinkNodeFirst(t: Tree, n: nat, x: Item, b: seq<Node>)
    requires LinksOk(t.nodes) && HeadersOk(t.headers, t.nodes) && n < |t.nodes|
    requires b == AddChild(t.nodes, n, x)
    requires LinksForward(b)
    requires x !in t.headers || t.headers[x].None?
    ensures NextWith(t.nodes, x, 1).None?
    ensures LinkNode(t.(nodes := b), x, |t.nodes|) == t.(nodes := b, headers := t.headers[x := Some(|t.nodes|)])
    ensures forall i :: 0 <= i < |t.nodes| ==> !LastWith(t.nodes, x, i)
  {
  }

  /** Otherwise the last `x` node, found by walking the chain, now links to the new node. */
  lemma LinkNodeAppend(t: Tree, n: nat, x: Item, b: seq<Node>) returns (e: nat)
    requires LinksOk(t.nodes) && HeadersOk(t.headers, t.nodes) && n < |t.nodes|
    requires b == AddChild(t.nodes, n, x)
    requires LinksForward(b)
    requires forall y :: y in t.headers && t.headers[y].Some? ==> t.headers[y].value < |b|
    requires x in t.headers && t.headers[x].Some?
    ensures NextWith(t.nodes, x, 1).Some?
    ensures e < |t.nodes| && LastWith(t.nodes, x, e)
    ensures forall i :: 0 <= i < |t.nodes| && LastWith(t.nodes, x, i) ==> i == e
    ensures LinkNode(t.(nodes := b), x, |t.nodes|) == t.(nodes := b[e := b[e].(link := Some(|t.nodes|))])
  {
    var a := t.nodes;
    var h := t.headers[x].value;
    LinksOkForward(a);
    ChainEndIsLast(a, h, x);
    ChainEndFrame(a, b, h);
    e := ChainEnd(b, h);
  }

  /** `r` is `t` after creating child `|t.nodes|` of `n` for `x`: exactly these changes. */
  predicate CreatedChild(t: Tree, r: Tree, n: nat, x: Item)
  {
    && n < |t.nodes|
    && r.frequent == t.frequent && r.order == t.order
    && |r.nodes| == |t.nodes| + 1
    && r.nodes[|t.nodes|] == Node(Some(x), 1, Some(n), [], None)
    && r.nodes[n].children == t.nodes[n].children + [|t.nodes|]
    && (forall i :: 0 <= i < |t.nodes| ==>
         && r.nodes[i].item == t.nodes[i].item
         && r.nodes[i].count == t.nodes[i].count
         && r.nodes[i].parent == t.nodes[i].parent
         && (i != n ==> r.nodes[i].children == t.nodes[i].children))
    && (forall i :: 0 <= i < |t.nodes| ==>
         r.nodes[i].link == (if LastWith(t.nodes, x, i) then Some(|t.nodes|) else t.nodes[i].link))
    && r.headers == (if NextWith(t.nodes, x, 1).None? then t.headers[x := Some(|t.nodes|)] else t.headers)
  }

  /** addChild followed by the chain update changes exactly what CreatedChild lists. */
  lemma NewChildOutcome(t: Tree, n: nat, x: Item, b: seq<Node>)
    requires LinksOk(t.nodes) && HeadersOk(t.headers, t.nodes) && n < |t.nodes|
    requires b == AddChild(t.nodes, n, x)
    requires LinksForward(b)
    requires forall y :: y in t.headers && t.headers[y].Some? ==> t.headers[y].value < |b|
    ensures CreatedChild(t, LinkNode(t.(nodes := b), x, |t.nodes|), n, x)
  {
    if x !in t.headers || t.headers[x].None? {
      LinkNodeFirst(t, n, x, b);
      CreatedFirst(t, n, x, b);
    } else {
      var e := LinkNodeAppend(t, n, x, b);
      CreatedAppended(t, n, x, b, e);
    }
  }

  /** The first `x` node: the appended node becomes the header of `x`, no link changes. */
  lemma CreatedFirst(t: Tree, n: nat, x: Item, b: seq<Node>)
    requires n < |t.nodes|
    requires b == AddChild(t.nodes, n, x)
    requires NextWith(t.nodes, x, 1).None?
    requires forall i :: 0 <= i < |t.nodes| ==> !LastWith(t.nodes, x, i)
    ensures CreatedChild(t, t.(nodes := b, headers := t.headers[x := Some(|t.nodes|)]), n, x)
  {
  }

  /** A later `x` node: only the last `x` node `e` of the chain changes, to link to the appended node. */
  lemma CreatedAppended(t: Tree, n: nat, x: Item, b: seq<Node>, e: nat)
    requires n < |t.nodes|
    requires b == AddChild(t.nodes, n, x)
    requires NextWith(t.nodes, x, 1).Some?
    requires e < |t.nodes| && LastWith(t.nodes, x, e)
    requires forall i :: 0 <= i < |t.nodes| && LastWith(t.nodes, x, i) ==> i == e
    ensures CreatedChild(t, t.(nodes := b[e := b[e].(link := Some(|t.nodes|))]), n, x)
  {
    var a := t.nodes;
    var k := |a|;
    var c := b[e := b[e].(link := Some(k))];
    assert c[k] == b[k];
    assert c[n].children == b[n].children;
    forall i | 0 <= i < k
      ensures c[i].item == a[i].item && c[i].count == a[i].count && c[i].parent == a[i].parent
      ensures i != n ==> c[i].children == a[i].children
      ensures c[i].link == (if LastWith(a, x, i) then Some(k) else a[i].link)
    {
      if i != e {
        assert c[i] == b[i];
      }
    }
  }

  /**
   * A new child of `n` carrying `x` with count 1 is appended (addChild) and
   * linked into `x`'s header chain.
   */
  function NewChild(t: Tree, n: nat, x: Item): (r: Tree)
    requires Valid(t) && n < |t.nodes| && ChildrenOkAt(t.nodes, n) && NoChildWith(t, n, x)
    ensures Valid(r)
    ensures CreatedChild(t, r, n, x)
    ensures forall y :: SumCounts(r.nodes, y, 1) == SumCounts(t.nodes, y, 1) + (if y == x then 1 else 0)
  {
    var k := |t.nodes|;
    var b := AddChild(t.nodes, n, x);
    AddChildForward(t, n, x);
    NewChildOutcome(t, n, x, b);
    var r := LinkNode(t.(nodes := b), x, k);
    NewChildValid(t, r, n, x);
    r
  }

  lemma NewChildValid(t: Tree, r: Tree, n: nat, x: Item)
    requires Valid(t) && n < |t.nodes| && ChildrenOkAt(t.nodes, n) && NoChildWith(t, n, x)
    requires CreatedChild(t, r, n, x)
    ensures Valid(r)
    ensures forall y :: SumCounts(r.nodes, y, 1) == SumCounts(t.nodes, y, 1) + (if y == x then 1 else 0)
  {
    assert AppendedChild(t.nodes, r.nodes, n, x);
    AppendChildParents(t.nodes, r.nodes, n, x);
    AppendChildChildren(t.nodes, r.nodes, n, x);
    LinksAfterNewChild(t.nodes, r.nodes, x);
    HeadersAfterNewChild(t.nodes, r.nodes, t.headers, r.headers, x);
    NewNodeCounts(t.nodes, r.nodes, x);
  }

  /** What a count bump leaves alone. */
  lemma BumpedFrame(t: Tree, r: Tree, c: nat)
    requires BumpedChild(t, r, c) && c != Root
    ensures r.frequent == t.frequent && r.order == t.order && r.headers == t.headers
    ensures |r.nodes| == |t.nodes|
    ensures forall i :: 0 <= i < |t.nodes| ==> r.nodes[i].item == t.nodes[i].item && r.nodes[i].parent == t.nodes[i].parent
    ensures r.nodes[Root].count == t.nodes[Root].count
  {
  }

  /** What creating a child leaves alone. */
  lemma CreatedFrame(t: Tree, r: Tree, n: nat, x: Item)
    requires CreatedChild(t, r, n, x) && |t.nodes| >= 1 && HeadersOk(t.headers, t.nodes)
    ensures r.headers.Keys == t.headers.Keys + {x}
    ensures forall i :: 0 <= i < |t.nodes| ==> r.nodes[i].item == t.nodes[i].item && r.nodes[i].parent == t.nodes[i].parent
    ensures r.nodes[Root].count == t.nodes[Root].count
  {
    var e := NextWith(t.nodes, x, 1);
    if e.Some? {
      assert t.nodes[e.value].item == Some(x);
    }
  }

  /**
   * One step of insertTree: reuse the child of `n` carrying `x` (its count goes
   * up by one) or create it; returns the new tree and the child.
   */
  function InsertStep(t: Tree, n: nat, x: Item): (r: (Tree, nat))
    requires Valid(t) && n < |t.nodes|
    ensures Valid(r.0)
    ensures r.0.frequent == t.frequent && r.0.order == t.order
    ensures r.1 < |r.0.nodes| && r.0.nodes[r.1].item == Some(x) && r.0.nodes[r.1].parent == Some(n)
    ensures |r.0.nodes| >= |t.nodes|
    ensures forall i :: 0 <= i < |t.nodes| ==>
      r.0.nodes[i].item == t.nodes[i].item && r.0.nodes[i].parent == t.nodes[i].parent
    ensures r.0.nodes[Root].count == t.nodes[Root].count
    ensures r.0.headers.Keys == t.headers.Keys + {x}
    ensures forall y :: SumCounts(r.0.nodes, y, 1) == SumCounts(t.nodes, y, 1) + (if y == x then 1 else 0)
    // reuse: exactly the existing child's count goes up
    ensures GetChild(t.nodes, n, x).Some? ==> r.1 == GetChild(t.nodes, n, x).value && BumpedChild(t, r.0, r.1)
    // create: one new child with count 1; only the parent's children and x's chain change
    ensures GetChild(t.nodes, n, x).None? ==> r.1 == |t.nodes| && CreatedChild(t, r.0, n, x)
  {
    assert ChildrenOkAt(t.nodes, n);
    var g := GetChild(t.nodes, n, x);
    if g.Some? then
      var c := g.value;
      assert x in t.headers by {
        assert t.nodes[c].item.value in t.headers;
      }
      var r := BumpChild(t, c);
      BumpedFrame(t, r, c);
      (r, c)
    else
      var r := NewChild(t, n, x);
      CreatedFrame(t, r, n, x);
      (r, |t.nodes|)
  }

  /** The up-path of an old node is unaffected by appending nodes and changing counts or links. */
  lemma {:induction false} UpPathFrame(a: seq<Node>, b: seq<Node>, i: nat)
    requires ParentsOk(a) && ParentsOk(b) && i < |a| <= |b|
    requires forall k :: 0 <= k < |a| ==> b[k].item == a[k].item && b[k].parent == a[k].parent
    ensures UpPath(b, i) == UpPath(a, i)
    decreases i
  {
    if i != Root {
      assert ParentOkAt(a, i);
      UpPathFrame(a, b, a[i].parent.value);
    }
  }

  /** Every node of `r` past the first `|a|` lies at most `bound` levels deep. */
  predicate GrownWithin(a: seq<Node>, r: seq<Node>, bound: nat)
    requires ParentsOk(r)
  {
    forall i :: |a| <= i < |r| ==> |UpPath(r, i)| <= bound
  }

  /** A depth bound survives growth when the new nodes respect it. */
  lemma {:induction false} DepthExtend(a: seq<Node>, r: seq<Node>, bound: nat)
    requires ParentsOk(a) && ParentsOk(r) && |a| <= |r|
    requires forall k :: 0 <= k < |a| ==> r[k].item == a[k].item && r[k].parent == a[k].parent
    requires DepthBounded(a, bound)
    requires GrownWithin(a, r, bound)
    ensures DepthBounded(r, bound)
  {
    forall i | 0 <= i < |a| ensures |UpPath(r, i)| <= bound {
      UpPathFrame(a, r, i);
    }
  }

  /** After one step the child sits one level below `n`, and at most that one node is new. */
  lemma StepShape(t: Tree, n: nat, x: Item)
    requires Valid(t) && n < |t.nodes|
    ensures var r := InsertStep(t, n, x);
      && UpPath(r.0.nodes, r.1) == [x] + UpPath(t.nodes, n)
      && (|r.0.nodes| == |t.nodes| || (|r.0.nodes| == |t.nodes| + 1 && r.1 == |t.nodes|))
  {
    var r := InsertStep(t, n, x);
    UpPathFrame(t.nodes, r.0.nodes, n);
  }

  /**
   * insertTree: walks down from `n` along `items`, reusing or creating one
   * child per item.  The tree stays well formed, every item's total count grows
   * by its number of occurrences in `items`, and new nodes lie at most
   * `|items|` levels below `n`.
   */
  function InsertTree(t: Tree, items: seq<Item>, n: nat): (r: Tree)
    requires Valid(t) && n < |t.nodes| && |items| > 0
    ensures Valid(r)
    ensures r.frequent == t.frequent && r.order == t.order
    ensures |r.nodes| >= |t.nodes|
    ensures forall i :: 0 <= i < |t.nodes| ==>
      r.nodes[i].item == t.nodes[i].item && r.nodes[i].parent == t.nodes[i].parent
    ensures r.nodes[Root].count == t.nodes[Root].count
    decreases |items|
  {
    var step := InsertStep(t, n, items[0]);
    if |items| == 1 then
      step.0
    else
      var r := InsertTree(step.0, items[1..], step.1);
      KeptTwice(t.nodes, step.0.nodes, r.nodes);
      r
  }

  /** Nodes kept by one step and then by the next are kept by both together. */
  lemma KeptTwice(a: seq<Node>, b: seq<Node>, c: seq<Node>)
    requires |a| <= |b| <= |c|
    requires forall i :: 0 <= i < |a| ==> b[i].item == a[i].item && b[i].parent == a[i].parent
    requires forall i :: 0 <= i < |b| ==> c[i].item == b[i].item && c[i].parent == b[i].parent
    ensures forall i :: 0 <= i < |a| ==> c[i].item == a[i].item && c[i].parent == a[i].parent
  {
  }

  /** insertTree adds each item's occurrences in `items` to that item's total count. */
  lemma {:induction false} InsertTreeCounts(t: Tree, items: seq<Item>, n: nat)
    requires Valid(t) && n < |t.nodes| && |items| > 0
    ensures forall y :: SumCounts(InsertTree(t, items, n).nodes, y, 1) == SumCounts(t.nodes, y, 1) + multiset(items)[y]
    decreases |items|
  {
    var step := InsertStep(t, n, items[0]);
    var r := InsertTree(t, items, n);
    MultisetFirst(items);
    if |items| == 1 {
      assert r == step.0;
    } else {
      assert r == InsertTree(step.0, items[1..], step.1);
      InsertTreeCounts(step.0, items[1..], step.1);
    }
  }

  lemma MultisetFirst(items: seq<Item>)
    requires |items| > 0
    ensures forall y :: multiset(items)[y] == (if y == items[0] then 1 else 0) + multiset(items[1..])[y]
  {
    assert items == [items[0]] + items[1..];
  }

  /** insertTree gives every item of `items` a header entry and adds no other. */
  lemma {:induction false} InsertTreeHeaders(t: Tree, items: seq<Item>, n: nat)
    requires Valid(t) && n < |t.nodes| && |items| > 0
    ensures forall y :: y in InsertTree(t, items, n).headers <==> y in t.headers || y in items
    decreases |items|
  {
    var step := InsertStep(t, n, items[0]);
    var r := InsertTree(t, items, n);
    if |items| == 1 {
      assert r == step.0;
    } else {
      assert r == InsertTree(step.0, items[1..], step.1);
      InsertTreeHeaders(step.0, items[1..], step.1);
      assert forall y :: y in items <==> y == items[0] || y in items[1..];
    }
  }

  /** Depth bookkeeping for one step followed by the rest of the walk, on bare arenas. */
  lemma {:induction false} DepthStep(a: seq<Node>, b: seq<Node>, r: seq<Node>, n: nat, c: nat, rest: nat)
    requires ParentsOk(a) && ParentsOk(b) && ParentsOk(r)
    requires n < |a| <= |b| <= |r| && c < |b|
    requires forall k :: 0 <= k < |b| ==> r[k].item == b[k].item && r[k].parent == b[k].parent
    requires |UpPath(b, c)| == |UpPath(a, n)| + 1
    requires |b| == |a| || (|b| == |a| + 1 && c == |a|)
    requires GrownWithin(b, r, |UpPath(b, c)| + rest)
    ensures GrownWithin(a, r, |UpPath(a, n)| + 1 + rest)
  {
    if |b| == |a| + 1 {
      UpPathFrame(b, r, c);
    }
    forall i | |a| <= i < |r| ensures |UpPath(r, i)| <= |UpPath(a, n)| + 1 + rest {
      if i < |b| {
        assert i == c;
      }
    }
  }

  /** Nodes created by insertTree lie at most `|items|` levels below the start node. */
  lemma {:induction false} InsertTreeDepth(t: Tree, items: seq<Item>, n: nat)
    requires Valid(t) && n < |t.nodes| && |items| > 0
    ensures GrownWithin(t.nodes, InsertTree(t, items, n).nodes, |UpPath(t.nodes, n)| + |items|)
    decreases |items|
  {
    var step := InsertStep(t, n, items[0]);
    StepShape(t, n, items[0]);
    var r := InsertTree(t, items, n);
    if |items| == 1 {
      assert r == step.0;
      DepthStep(t.nodes, step.0.nodes, step.0.nodes, n, step.1, 0);
    } else {
      assert r == InsertTree(step.0, items[1..], step.1);
      InsertTreeDepth(step.0, items[1..], step.1);
      DepthStep(t.nodes, step.0.nodes, r.nodes, n, step.1, |items| - 1);
    }
  }

  /** The up-path through the step's child `c` is the rest reversed, then the first item, then the path of `n`. */
  lemma UpPathStep(a: seq<Node>, b: seq<Node>, r: seq<Node>, n: nat, c: nat, e: nat, items: seq<Item>)
    requires ParentsOk(a) && ParentsOk(b) && ParentsOk(r)
    requires n < |a| && c < |b| && e < |r| && |items| > 0
    requires UpPath(b, c) == [items[0]] + UpPath(a, n)
    requires UpPath(r, e) == Reverse(items[1..]) + UpPath(b, c)
    ensures UpPath(r, e) == Reverse(items) + UpPath(a, n)
  {
  }

  /** The node where insertTree's walk stops: the one reused or created for the last item. */
  function InsertTreeEnd(t: Tree, items: seq<Item>, n: nat): (e: nat)
    requires Valid(t) && n < |t.nodes| && |items| > 0
    ensures e < |InsertTree(t, items, n).nodes| && e != Root
    decreases |items|
  {
    var step := InsertStep(t, n, items[0]);
    if |items| == 1 then step.1 else InsertTreeEnd(step.0, items[1..], step.1)
  }

  /** One step puts its child directly below `n`, so climbing one level from it returns to `n`. */
  lemma PathFirst(t: Tree, n: nat, x: Item)
    requires Valid(t) && n < |t.nodes|
    ensures var s := InsertStep(t, n, x);
      && s.1 != Root && s.0.nodes[s.1].parent == Some(n)
      && UpPath(s.0.nodes, s.1) == [x] + UpPath(t.nodes, n)
  {
    StepShape(t, n, x);
  }

  /** insertTree of two or more items is one step followed by insertTree of the rest from the step's child. */
  lemma InsertTreeUnfold(t: Tree, items: seq<Item>, n: nat)
    requires Valid(t) && n < |t.nodes| && |items| > 1
    ensures var s := InsertStep(t, n, items[0]);
      && InsertTree(t, items, n) == InsertTree(s.0, items[1..], s.1)
      && InsertTreeEnd(t, items, n) == InsertTreeEnd(s.0, items[1..], s.1)
  {
  }

  /** The end of insertTree's walk lies below `n`. */
  lemma {:induction false} InsertTreeBelow(t: Tree, items: seq<Item>, n: nat)
    requires Valid(t) && n < |t.nodes| && |items| > 0
    ensures IsAncestor(InsertTree(t, items, n).nodes, n, InsertTreeEnd(t, items, n))
    decreases |items|
  {
    var step := InsertStep(t, n, items[0]);
    var c := step.1;
    PathFirst(t, n, items[0]);
    if |items| == 1 {
      assert InsertTree(t, items, n) == step.0;
      AncestorThroughParent(step.0.nodes, n, c, c);
    } else {
      var rest := items[1..];
      InsertTreeUnfold(t, items, n);
      InsertTreeBelow(step.0, rest, c);
      var r := InsertTree(step.0, rest, c).nodes;
      assert r[c].parent == Some(n);
      AncestorThroughParent(r, n, c, InsertTreeEnd(step.0, rest, c));
    }
  }

  /** Walking up from the end of insertTree's walk reads `items` back to front, then the path of `n`. */
  lemma {:induction false} InsertTreeUpPath(t: Tree, items: seq<Item>, n: nat)
    requires Valid(t) && n < |t.nodes| && |items| > 0
    ensures UpPath(InsertTree(t, items, n).nodes, InsertTreeEnd(t, items, n)) == Reverse(items) + UpPath(t.nodes, n)
    decreases |items|
  {
    var step := InsertStep(t, n, items[0]);
    PathFirst(t, n, items[0]);
    if |items| == 1 {
      assert InsertTree(t, items, n) == step.0;
      UpPathStep(t.nodes, step.0.nodes, step.0.nodes, n, step.1, step.1, items);
    } else {
      var c, rest := step.1, items[1..];
      InsertTreeUnfold(t, items, n);
      InsertTreeUpPath(step.0, rest, c);
      UpPathStep(t.nodes, step.0.nodes, InsertTree(step.0, rest, c).nodes, n, c, InsertTreeEnd(step.0, rest, c), items);
    }
  }

  /**
   * insertTree lays `items` down as one descending path below `n`: the end
   * node lies below `n`, and walking up from it reads the items back to front
   * and then the path of `n` (so `n` is exactly `|items|` levels up).
   */
  lemma InsertTreePath(t: Tree, items: seq<Item>, n: nat)
    requires Valid(t) && n < |t.nodes| && |items| > 0
    ensures var r, e := InsertTree(t, items, n), InsertTreeEnd(t, items, n);
      && IsAncestor(r.nodes, n, e)
      && UpPath(r.nodes, e) == Reverse(items) + UpPath(t.nodes, n)
  {
    InsertTreeBelow(t, items, n);
    InsertTreeUpPath(t, items, n);
  }
}
